=== FILE: README.md ===
# LINE translation bot: request resolution, modelled in Dafny

This project models the decision logic of a LINE chat bot that translates
messages and pictures with an AI backend (OpenAI or Gemini). The model covers
how the bot reads a message and which reply, stored record and profile change
follow from it:

- the language registry that maps Chinese names, aliases and country codes to
  language codes (`LanguageUtils`);
- the "翻譯成<language>" instruction forms of a text message, the routing of a
  message to a slash command, a quick translation ("快速翻譯:") or a plain
  translation, and the slash-command and administrator-command dispatch;
- language detection. It fuses an AI answer, the share of Han characters and an
  n-gram verdict, and cleans the AI's free-text answer into a code;
- the choice of the target language, on the text path and on the image path;
- the choice of AI backend, with start-up failover, the `"fallback"` backend and
  the per-user wrapper that only renames the model;
- profile bookkeeping: recent languages, counters, and the preference setters;
- the administrator list, the broadcast count and the configuration setters;
- the Gemini reply-extraction rule and its data-URL stripping.

Everything is a pure function over `seq<char>` strings, datatypes and maps:
- The profile repository is a `map<string, Profile>`.
- The translation-record repository is a sequence that only grows.
- The AI backends, the n-gram detector, the OCR service and the picture
  download are function-valued parameters whose answers are opaque strings.

One module per source unit:

| file | module | models |
|---|---|---|
| java_string.dfy | JavaString | the `String` operations the code relies on: `trim`, ASCII `toLowerCase`, `isBlank`, `indexOf`, UTF-16 `length()`, 32-bit `int` increment |
| command_split.dfy | CommandSplit | `split("\\s+", 2)` and `split(" ", 2)` |
| language_utils.dfy | LanguageUtils | the registry tables after all overwrites, `toLanguageCode`, `toChineseName`, `isSupported` |
| translation_command.dfy | TranslationCommand | the four instruction regexes of `processTranslationRequest` with `find()` semantics |
| config.dfy | Settings | the application and provider configuration records |
| user_profile.dfy | UserProfiles | the profile record, its builder defaults, `addRecentLanguage`, the counter updates |
| language_detection.dfy | LanguageDetection | `detectLanguage` fusion, `cleanResponse`, `determineTargetLanguage` |
| ai_services.dfy | AiServices | `AiServiceFactory` and its two inner services |
| gemini.dfy | Gemini | the prompt, the reply-extraction rule over a JSON tree, the data-URL payload |
| translation_service.dfy | Translation | `TranslationService`: targets, translation runs, preference setters |
| image_translation.dfy | ImageTranslation | `ImageTranslationService.processImageTranslation` |
| admin_service.dfy | Admin | `AdminService`: admin list, broadcast count, configuration setters |
| admin_controller.dfy | AdminCommands | `AdminController.handleCommand` |
| bot_controller.dfy | BotController | `LineBotController`: routing, quick translation, commands, admin dispatch |

## Model

| member | source | states |
|---|---|---|
| CommandSplit.SplitOnWhitespace | src/main/java/com/linetranslate/bot/controller/LineBotController.java:121-122 | the input stays whole exactly when it holds no white space; otherwise the head is the white-space-free text before the first run, and the rest starts right after that whole run |
| CommandSplit.WhitespaceSplitOfJoin | src/main/java/com/linetranslate/bot/controller/LineBotController.java:221 | a word, a white-space run and a rest that does not start with white space split back into exactly that word and rest |
| CommandSplit.WhitespaceSplitRoundTrip | src/main/java/com/linetranslate/bot/controller/LineBotController.java:221 | the head, the separator run and the rest put back together give the original text |
| CommandSplit.SplitOnSpace | src/main/java/com/linetranslate/bot/controller/AdminController.java:48-50 | the input stays whole exactly when it has no space; otherwise head + " " + rest is the input and the head has no space |
| CommandSplit.SpaceSplitOfJoin | src/main/java/com/linetranslate/bot/controller/LineBotController.java:404-406 | a space-free head, a space and any rest split back into that head and rest |
| LanguageUtils.ToLanguageCode | src/main/java/com/linetranslate/bot/util/LanguageUtils.java:195-205 | null or blank input gives "unknown"; an input whose trimmed lower-case form is a code-table key gives that normalised form |
| LanguageUtils.ToLanguageCodeByName | src/main/java/com/linetranslate/bot/util/LanguageUtils.java:207-215 | otherwise a name-table key equal to the input ignoring case gives its code; an input matching no key comes back exactly as given, untrimmed and not lower-cased |
| LanguageUtils.ToChineseName | src/main/java/com/linetranslate/bot/util/LanguageUtils.java:224-231 | null or blank gives "未知語言"; otherwise the Chinese name registered for the normalised code, else the input unchanged |
| LanguageUtils.IsSupported | src/main/java/com/linetranslate/bot/util/LanguageUtils.java:239-246 | false for null or blank input; true when the normalised input is a code-table key |
| LanguageUtils.IsSupportedSpec | src/main/java/com/linetranslate/bot/util/LanguageUtils.java:239-264 | supported exactly when the input is not blank and its normalised form is a code-table key or a name-table key ignoring case |
| LanguageUtils.SupportedInputsResolveThroughTables | src/main/java/com/linetranslate/bot/util/LanguageUtils.java:203-212 | a supported input always resolves to a registered code or a table value, never to the pass-through input |
| LanguageUtils.CapitalisedCodesPassThrough | src/main/java/com/linetranslate/bot/util/LanguageUtils.java:34-35 | the mixed-case codes "zh-TW" and "zh-CN" are unsupported, pass through `toLanguageCode` unchanged, and `toChineseName` gives them back unchanged |
| LanguageUtils.CodesWithCapitals | src/main/java/com/linetranslate/bot/util/LanguageUtils.java:184-187 | "zh-TW" and "zh-CN" are the only code-table keys with capital letters |
| LanguageUtils.RegisteredCodeIsFixedPoint | src/main/java/com/linetranslate/bot/util/LanguageUtils.java:200-205 | a lower-case registered code maps to itself |
| LanguageUtils.TableValuesAreFixedPoints | src/main/java/com/linetranslate/bot/util/LanguageUtils.java:47-174 | every code any table maps to is resolved to itself again |
| LanguageUtils.ToLanguageCodeIdempotent | src/main/java/com/linetranslate/bot/util/LanguageUtils.java:195-216 | resolving a resolved code changes nothing |
| LanguageUtils.NameToCodeRoundTrip | src/main/java/com/linetranslate/bot/util/LanguageUtils.java:184-187 | the Chinese name registered for a code resolves back to that code |
| LanguageUtils.CodeToNameRoundTrip | src/main/java/com/linetranslate/bot/util/LanguageUtils.java:224-231 | a lower-case registered code's Chinese name is its registered name; the two mixed-case codes come back unchanged |
| LanguageUtils.RegisteredNamesLeadBack | src/main/java/com/linetranslate/bot/util/LanguageUtils.java:184-187 | the name registered for a code is a name-table key leading back to that code, and is not itself a code |
| LanguageUtils.UnknownIsUnsupported | src/main/java/com/linetranslate/bot/util/LanguageUtils.java:195-264 | the detector's "unknown" is not supported and resolves to itself |
| LanguageUtils.UnsupportedLongWord | src/main/java/com/linetranslate/bot/util/LanguageUtils.java:214-215 | a plain lower-case word longer than five letters is unsupported and comes back unchanged |
| LanguageUtils.CountryCodeExample | src/main/java/com/linetranslate/bot/util/LanguageUtils.java:134 | the padded upper-case country code " JP " resolves to "ja" |
| LanguageUtils.LaterRegistrationExample | src/main/java/com/linetranslate/bot/util/LanguageUtils.java:169 | the South American alias "arg" resolves to "es" |
| LanguageUtils.ArabicCodeWinsOverCountry | src/main/java/com/linetranslate/bot/util/LanguageUtils.java:123-168 | the "ar" alias is overwritten to "es" by the later registration, yet "ar" still resolves to "ar" (Arabic) because the code table is consulted first |
| LanguageUtils.MixedCaseNicknameExample | src/main/java/com/linetranslate/bot/util/LanguageUtils.java:74 | the alias "Tw" is supported and resolves to the mixed-case code "zh-TW" |
| TranslationCommand.TailAt | src/main/java/com/linetranslate/bot/service/translation/TranslationService.java:40-47 | a keyword "翻譯成" followed by a token character matches there; the token is non-empty and all of one class, and the rest of the line has no line terminator |
| TranslationCommand.TailTokenIsMaximal | src/main/java/com/linetranslate/bot/service/translation/TranslationService.java:40-47 | the language token is the maximal run of its class after the keyword |
| TranslationCommand.FindTailFrom | src/main/java/com/linetranslate/bot/service/translation/TranslationService.java:120-149 | `find()` returns the leftmost position where the single-line pattern matches, and none when no position matches |
| TranslationCommand.LazyLineStopsAtTerminator | src/main/java/com/linetranslate/bot/service/translation/TranslationService.java:46-47 | the lazy `(.+?)` line ends at the first line terminator; it matches exactly when the keyword and a token follow that terminator |
| TranslationCommand.MultiLineFromSpec | src/main/java/com/linetranslate/bot/service/translation/TranslationService.java:85-111 | the multi-line match from a position is the first newline followed by the keyword and a token, and it starts at that line's beginning (or the search start) |
| TranslationCommand.FindMultiLineSpec | src/main/java/com/linetranslate/bot/service/translation/TranslationService.java:85-111 | the multi-line source is only the line right before the first "\n翻譯成<token>"; earlier lines are dropped |
| TranslationCommand.MultiLineRequest | src/main/java/com/linetranslate/bot/service/translation/TranslationService.java:85-118 | the text is reported missing, with a reply naming the token, exactly when the trimmed line before the instruction and the trimmed rest of the instruction line are both empty; otherwise the source is that trimmed line, followed by a space and the trimmed rest when the rest is not empty, the target is the token's code, and it is never auto-detection |
| TranslationCommand.EmptyLineKeepsLeadingSpace | src/main/java/com/linetranslate/bot/service/translation/TranslationService.java:89-94 | a blank source line with trailing text yields a space followed by the trimmed trailing text |
| TranslationCommand.SingleLineRequest | src/main/java/com/linetranslate/bot/service/translation/TranslationService.java:120-149 | a single-line match translates the trimmed rest of the line to the token's target, or answers "請在「翻譯成…」後面輸入要翻譯的文字。" when that rest is blank |
| TranslationCommand.ParseRequest | src/main/java/com/linetranslate/bot/service/translation/TranslationService.java:70-153 | an explicit request always has a non-empty source, and auto-detection translates the message as given |
| TranslationCommand.MultiLineTakesPrecedence | src/main/java/com/linetranslate/bot/service/translation/TranslationService.java:85-101 | when a multi-line Chinese-name form exists, it decides the request before any other form |
| TranslationCommand.MultiLineCodeBeatsSingleLine | src/main/java/com/linetranslate/bot/service/translation/TranslationService.java:85-118 | with no Chinese-name instruction line, the first code instruction line decides, even in a message that starts with the keyword |
| TranslationCommand.SingleLineNameBeatsCode | src/main/java/com/linetranslate/bot/service/translation/TranslationService.java:120-134 | with no instruction line, a message starting with the keyword is read by its leftmost Chinese-name tail before any code tail |
| TranslationCommand.SingleLineCodeWhenNoName | src/main/java/com/linetranslate/bot/service/translation/TranslationService.java:135-145 | only when no Chinese-name tail exists anywhere does the leftmost code tail decide |
| TranslationCommand.NoMultiLine | src/main/java/com/linetranslate/bot/service/translation/TranslationService.java:85-102 | an instruction-line `find()` fails exactly when no newline is followed by the keyword and a token of that class |
| TranslationCommand.FindTailIsLeftmost | src/main/java/com/linetranslate/bot/service/translation/TranslationService.java:124-135 | the single-line `find()` reports the leftmost position where the pattern matches |
| TranslationCommand.FindTailNoneIff | src/main/java/com/linetranslate/bot/service/translation/TranslationService.java:124-146 | the single-line `find()` fails exactly when no position matches |
| TranslationCommand.AutoDetectAfterEveryForm | src/main/java/com/linetranslate/bot/service/translation/TranslationService.java:84-153 | a message is auto-detected exactly when both instruction-line searches fail and, if it starts with the keyword, both single-line searches fail too |
| TranslationCommand.AutoDetectExactly | src/main/java/com/linetranslate/bot/service/translation/TranslationService.java:84-153 | the same condition in terms of positions: no instruction line, and either no leading keyword or no keyword followed by a token character anywhere |
| TranslationCommand.NoKeywordMeansAutoDetect | src/main/java/com/linetranslate/bot/service/translation/TranslationService.java:150-153 | a message without "翻譯成" is auto-detected as a whole |
| TranslationCommand.CodeTargetIsLowerCaseToken | src/main/java/com/linetranslate/bot/service/translation/TranslationService.java:105 | a code token becomes a non-empty target of lower-case letters and hyphens |
| UserProfiles.NewProfile | src/main/java/com/linetranslate/bot/model/UserProfile.java:24-52 | a new profile has zero counters, empty recent lists and no preferences |
| UserProfiles.AddRecentLanguage | src/main/java/com/linetranslate/bot/model/UserProfile.java:59-80 | null or blank leaves the list as it was; otherwise the language comes first, the list holds at most five, the others keep their order without it, and there are no duplicates |
| UserProfiles.AddRecentKeepsAllWhenRoom | src/main/java/com/linetranslate/bot/model/UserProfile.java:65-72 | with room, or when the language was already there, nothing but that language's position changes |
| UserProfiles.AddRecentEvictsOldest | src/main/java/com/linetranslate/bot/model/UserProfile.java:73-79 | a new language added to a full list pushes out the oldest entry |
| UserProfiles.AddRecentAlreadyFirst | src/main/java/com/linetranslate/bot/model/UserProfile.java:65-70 | re-adding the most recent language leaves the list unchanged |
| UserProfiles.AddRecentIdempotent | src/main/java/com/linetranslate/bot/model/UserProfile.java:59-80 | adding the same language twice is the same as adding it once |
| UserProfiles.RecordTranslation | src/main/java/com/linetranslate/bot/service/translation/TranslationService.java:412-415 | the newest translation comes first, and a list of at most five loses its sixth entry |
| UserProfiles.RecordTranslationKeepsOversize | src/main/java/com/linetranslate/bot/service/translation/TranslationService.java:412-415 | a list already longer than five loses only one entry, so it stays at its length |
| UserProfiles.AfterTextTranslation | src/main/java/com/linetranslate/bot/service/translation/TranslationService.java:406-421 | total and text counters rise by one with 32-bit wrap-around, the image counter and settings stay, the translation is recorded as by `RecordTranslation` and the target added as by `addRecentLanguage`, so both lead their lists |
| UserProfiles.AfterImageTranslation | src/main/java/com/linetranslate/bot/service/ocr/ImageTranslationService.java:277-282 | total and image counters rise by one; the text counter, the recent lists and the settings stay |
| UserProfiles.TextAndImageUpdatesCommute | src/main/java/com/linetranslate/bot/service/ocr/ImageTranslationService.java:277-282 | a text update and an image update give the same profile in either order |
| LanguageDetection.CleanResponse | src/main/java/com/linetranslate/bot/service/translation/AiLanguageDetectionService.java:66-101 | null or empty gives "unknown"; every answer is "unknown", the default Chinese type, or a non-empty code of lower-case letters and hyphens not starting with "zh" |
| LanguageDetection.CleanCodePassesThrough | src/main/java/com/linetranslate/bot/service/translation/AiLanguageDetectionService.java:85-100 | a clean code not starting with "zh" is returned unchanged |
| LanguageDetection.ChineseAnswerBecomesDefault | src/main/java/com/linetranslate/bot/service/translation/AiLanguageDetectionService.java:96-98 | an answer whose code starts with "zh" in any case becomes the default Chinese type |
| LanguageDetection.AnswerHead | src/main/java/com/linetranslate/bot/service/translation/AiLanguageDetectionService.java:72-82 | the longest prefix of the trimmed first line whose UTF-16 length is at most ten; a line within that limit is kept whole |
| LanguageDetection.CodeLetters | src/main/java/com/linetranslate/bot/service/translation/AiLanguageDetectionService.java:85-88 | only letters and hyphens survive, lower-cased; the result is empty exactly when the answer holds neither |
| LanguageDetection.CodeLettersOfChar | src/main/java/com/linetranslate/bot/service/translation/AiLanguageDetectionService.java:85-88 | a single letter or hyphen is kept lower-cased, and any other character is dropped |
| LanguageDetection.CodeLettersConcat | src/main/java/com/linetranslate/bot/service/translation/AiLanguageDetectionService.java:85-88 | the filtering works character by character: cleaning two pieces and joining them is cleaning the joined text |
| LanguageDetection.GeminiErrorReadsAsGe | src/main/java/com/linetranslate/bot/service/translation/AiLanguageDetectionService.java:41-61 | a Gemini generation error text reads as the code "ge" |
| LanguageDetection.FallbackReplyReadsAsUnknown | src/main/java/com/linetranslate/bot/service/translation/AiLanguageDetectionService.java:66-93 | the unconfigured backend's refusal reads as "unknown" |
| LanguageDetection.AiDetectLanguage | src/main/java/com/linetranslate/bot/service/translation/AiLanguageDetectionService.java:41-61 | an exception gives "unknown"; any answer is cleaned as above |
| LanguageDetection.DetectLanguage | src/main/java/com/linetranslate/bot/service/translation/LanguageDetectionService.java:67-112 | blank text gives "unknown"; an AI answer other than "unknown" is final; otherwise mostly-Han text gives the default Chinese type, and an n-gram language not starting with "zh" is returned as it is; no result starts with "zh" unless it is the default Chinese type |
| LanguageDetection.AiAnswerIsFinal | src/main/java/com/linetranslate/bot/service/translation/LanguageDetectionService.java:74-85 | once the AI gives an answer other than "unknown", that answer is the result and the n-gram verdict is not consulted |
| LanguageDetection.HanShareDecides | src/main/java/com/linetranslate/bot/service/translation/LanguageDetectionService.java:88-94 | more than 30 % Han characters, counted against the UTF-16 length, gives the default Chinese type |
| LanguageDetection.NgramFallback | src/main/java/com/linetranslate/bot/service/translation/LanguageDetectionService.java:97-111 | without an AI answer and for text that is not mostly Han, an n-gram language is returned as it is unless it starts with "zh", which gives the default Chinese type; an absent verdict gives "en"; a failing detector gives "unknown" |
| LanguageDetection.DetermineTargetLanguage | src/main/java/com/linetranslate/bot/service/translation/LanguageDetectionService.java:129-137 | the Chinese default is chosen only for the exact code "zh" |
| LanguageDetection.ChineseDefaultNeedsPlainZh | src/main/java/com/linetranslate/bot/service/translation/LanguageDetectionService.java:129-137 | whenever the default Chinese type is not "zh", detection never selects the Chinese default |
| AiServices.EffectiveDefault | src/main/java/com/linetranslate/bot/service/ai/AiServiceFactory.java:31-47 | the default switches to the other provider only when the configured one is absent and the other present; any other name is kept |
| AiServices.EffectiveDefaultStable | src/main/java/com/linetranslate/bot/service/ai/AiServiceFactory.java:31-47 | applying the failover again changes nothing |
| AiServices.EffectiveDefaultIsServed | src/main/java/com/linetranslate/bot/service/ai/AiServiceFactory.java:62-69 | with some backend present, a request without a provider is served by the effective default |
| AiServices.Requested | src/main/java/com/linetranslate/bot/service/ai/AiServiceFactory.java:117-127 | a provider is served directly exactly when its name matches "openai" or "gemini" ignoring case and that backend is present |
| AiServices.Fallback | src/main/java/com/linetranslate/bot/service/ai/AiServiceFactory.java:132-138 | exactly "openai" falls back to Gemini; every other name falls back to OpenAI |
| AiServices.GetService | src/main/java/com/linetranslate/bot/service/ai/AiServiceFactory.java:62-138 | the result is a present backend or the fallback service; a present backend whose name matches in any case is chosen; otherwise exactly "openai" falls back to Gemini and any other name to OpenAI, each only when present, and with neither the fallback service is used |
| AiServices.UnknownNameFallsBackToOpenAi | src/main/java/com/linetranslate/bot/service/ai/AiServiceFactory.java:117-138 | a name neither backend answers to is served by OpenAI whenever it is configured, even with Gemini present |
| AiServices.UnconfiguredExactly | src/main/java/com/linetranslate/bot/service/ai/AiServiceFactory.java:72-80 | the fallback service is returned exactly when OpenAI is absent and either Gemini is absent or the name is neither exactly "openai" nor "gemini" ignoring case |
| AiServices.OtherNamesNeverReachGemini | src/main/java/com/linetranslate/bot/service/ai/AiServiceFactory.java:123-138 | with only Gemini present, an unknown name is not served at all |
| AiServices.CaseInsensitiveRequest | src/main/java/com/linetranslate/bot/service/ai/AiServiceFactory.java:117-122 | a name equal to a present backend's id ignoring case selects that backend |
| AiServices.PreferredModel | src/main/java/com/linetranslate/bot/service/ai/GeminiService.java:200-207 | the user's model is reported when non-empty and listed, else the configured model |
| AiServices.ProfileProvider | src/main/java/com/linetranslate/bot/service/ai/AiServiceFactory.java:89-95 | the stored provider when it is present and not empty, else the configured default |
| AiServices.GetServiceForProfile | src/main/java/com/linetranslate/bot/service/ai/AiServiceFactory.java:89-112 | the wrapped vendor is the one `getService` picks for the stored provider, else the default; exactly "openai" or "gemini" with that backend present gets that backend reporting the user's preferred model, and only those two cases get a per-user wrapper |
| AiServices.WrapperOnlyRenamesModel | src/main/java/com/linetranslate/bot/service/ai/AiServiceFactory.java:144-182 | the per-user wrapper translates, reads pictures, generates text and names its provider exactly as the backend does; only the model name differs |
| AiServices.PreferredModelNeverTranslates | src/main/java/com/linetranslate/bot/service/ai/AiServiceFactory.java:158-161 | changing only the preferred models never changes a translation |
| AiServices.Translate | src/main/java/com/linetranslate/bot/service/ai/AiServiceFactory.java:187-212 | the fallback service answers its fixed refusal; any other service asks its backend |
| AiServices.ProviderName | src/main/java/com/linetranslate/bot/service/ai/AiServiceFactory.java:199-206 | the provider name is "fallback" exactly for the fallback service |
| AiServices.NothingConfiguredFailsClosed | src/main/java/com/linetranslate/bot/service/ai/AiServiceFactory.java:187-212 | with no backend, translations and generations give the fixed refusal texts, with provider "fallback" and model "none" |
| Gemini.Reply | src/main/java/com/linetranslate/bot/service/ai/GeminiService.java:80-107 | a successful, parsable reply carrying text gives that text trimmed; a successful reply without text gives the "無法解析回應" failure; an unparsable body, an HTTP error or an I/O failure each give the prefixed failure with their own detail |
| Gemini.ReplyRoundTrip | src/main/java/com/linetranslate/bot/service/ai/GeminiService.java:90-97 | a reply carrying a text gives back exactly that text, trimmed |
| Gemini.SuccessfulReplyIsTrimmed | src/main/java/com/linetranslate/bot/service/ai/GeminiService.java:96-97 | an extracted answer never starts or ends with white space |
| Gemini.ExtractReadsCarriedText | src/main/java/com/linetranslate/bot/service/ai/GeminiService.java:89-98 | the text at candidates[0].content.parts[0].text is what is extracted |
| Gemini.ExtractReadsFirstOnly | src/main/java/com/linetranslate/bot/service/ai/GeminiService.java:91-92 | later candidates and other fields never influence the result |
| Gemini.TranslationPrompt | src/main/java/com/linetranslate/bot/service/ai/GeminiService.java:52 | the prompt holds the target and then the text, at fixed offsets |
| Gemini.TranslationPromptInjective | src/main/java/com/linetranslate/bot/service/ai/GeminiService.java:52 | two prompts with equal-length targets are equal only for the same text and target |
| Gemini.TranslationRequestCarriesPrompt | src/main/java/com/linetranslate/bot/service/ai/GeminiService.java:55-62 | the request body's first text part is the prompt |
| Gemini.ImageRequestCarriesPrompt | src/main/java/com/linetranslate/bot/service/ai/GeminiService.java:114-135 | the image request carries the prompt before the picture |
| Gemini.Base64Payload | src/main/java/com/linetranslate/bot/service/ai/GeminiService.java:130-133 | an input without ";base64," is used unchanged; otherwise the payload holds no further marker |
| Gemini.DataUrlPayload | src/main/java/com/linetranslate/bot/service/ai/GeminiService.java:130-133 | the data after the first ";base64," is the payload |
| Gemini.EmptyPayloadThrows | src/main/java/com/linetranslate/bot/service/ai/GeminiService.java:131-132 | an input ending right at its only marker has no second piece |
| Gemini.FirstMarkerAfterHeader | src/main/java/com/linetranslate/bot/service/ai/GeminiService.java:131-132 | the first marker is the one right after a marker-free header |
| Translation.Ensure | src/main/java/com/linetranslate/bot/service/translation/TranslationService.java:361-376 | the user's profile exists afterwards, a new one with defaults when missing; no other profile changes |
| Translation.EnsureThenReplaceOnlyTouches | src/main/java/com/linetranslate/bot/service/translation/TranslationService.java:361-376 | creating or replacing the user's profile touches no other user |
| Translation.DefaultTargetLanguage | src/main/java/com/linetranslate/bot/service/translation/TranslationService.java:195-211 | a "zh" source goes to the preferred Chinese target or the configured one; any other source goes to the preferred language or the configured default |
| Translation.AutoTargetByBucket | src/main/java/com/linetranslate/bot/service/translation/TranslationService.java:162-181 | the auto-detect target for each kind of source, in terms of the preferences and the configuration |
| Translation.SameLanguageIsKept | src/main/java/com/linetranslate/bot/service/translation/TranslationService.java:169-181 | a non-Chinese source that is already the preferred language is translated into that same language |
| Translation.Run | src/main/java/com/linetranslate/bot/service/translation/TranslationService.java:216-237 | one record is appended with the source, detected language, target and translation; only the user's profile changes, updated as after a text translation |
| Translation.PerformTranslation | src/main/java/com/linetranslate/bot/service/translation/TranslationService.java:216-241 | one record of the source, its detection, the target, the chosen backend's translation and its provider name; the reply is that translation followed by the detected and target language names; only the user's profile changes, as after a text translation |
| Translation.ProcessTranslationRequest | src/main/java/com/linetranslate/bot/service/translation/TranslationService.java:70-186 | a missing-text reply only creates the profile; otherwise one record, the reply is its translation plus the tag of its detected and target languages, and the profile is updated as after a text translation; an explicit request translates its source to its target; auto-detection translates the whole message to the target chosen from the first detection, while the record keeps the second detection |
| Translation.PlainMessageTranslatedWhole | src/main/java/com/linetranslate/bot/service/translation/TranslationService.java:150-186 | a message without the keyword is translated whole to the auto-detect target of the first detection, appended as one record, tagged with the second detection, and counted as a text translation |
| Translation.SteadyDetectorTagsChosenSource | src/main/java/com/linetranslate/bot/service/translation/TranslationService.java:162-186 | when both detections of an auto-detected message agree, its target is the auto-detect target of the language its record shows |
| Translation.QuickTranslate | src/main/java/com/linetranslate/bot/service/translation/TranslationService.java:251-280 | an unsupported code changes nothing and names the code; a supported one records a translation to the resolved code and replies with the bare translation |
| Translation.QuickTranslationIsUntagged | src/main/java/com/linetranslate/bot/service/translation/TranslationService.java:251-280 | a quick translation stores what the full translation into the resolved code stores; the full reply is the quick reply followed by the language tag |
| Translation.QuickTargetIsRegistered | src/main/java/com/linetranslate/bot/service/translation/TranslationService.java:251-266 | a quick translation's target is a registered code |
| Translation.SetPreferredProvider | src/main/java/com/linetranslate/bot/service/translation/TranslationService.java:430-440 | only exactly "openai" or "gemini" is stored; any other name changes nothing |
| Translation.ChosenProviderServes | src/main/java/com/linetranslate/bot/service/translation/TranslationService.java:430-440 | once a present backend is chosen, the user's translations run on it |
| Translation.SetPreferredLanguage | src/main/java/com/linetranslate/bot/service/translation/TranslationService.java:449-463 | an unsupported resolved code changes nothing; otherwise the resolved code is stored and confirmed with its Chinese name |
| Translation.ScriptChineseNeverPreferred | src/main/java/com/linetranslate/bot/service/translation/TranslationService.java:450-455 | "zh-TW" and "zh-CN" can never be stored as the preferred language |
| Translation.TaiwanNicknameRefused | src/main/java/com/linetranslate/bot/service/translation/TranslationService.java:450-455 | the supported alias "Tw" is still refused because it resolves to the mixed-case "zh-TW" |
| Translation.SetPreferredLanguageAgain | src/main/java/com/linetranslate/bot/service/translation/TranslationService.java:449-463 | after an accepted preference, setting the stored code again is accepted and changes nothing |
| Translation.GetPreferredProvider | src/main/java/com/linetranslate/bot/service/translation/TranslationService.java:481-490 | the stored provider, else "openai" |
| Translation.GetRecentLanguages | src/main/java/com/linetranslate/bot/service/translation/TranslationService.java:471-474 | the user's profile exists afterwards and nothing else changes; the list is the stored recent languages, empty for a new user, at most five and without duplicates |
| Translation.TranslatedTargetListedFirst | src/main/java/com/linetranslate/bot/service/translation/TranslationService.java:216-241 | after a translated request with a non-blank target, that target heads the user's recent languages |
| Translation.SetPreferredChineseTargetLanguage | src/main/java/com/linetranslate/bot/service/translation/TranslationService.java:499-528 | the profile is created first; an unsupported resolved code is refused naming the input, and nothing else changes; a supported one is stored, and the reply says "changed from" only when a different earlier choice existed, otherwise "set to" |
| Translation.ChineseTargetTakesEffect | src/main/java/com/linetranslate/bot/service/translation/TranslationService.java:195-201 | after an accepted target is set, Chinese messages go to it unless a non-Chinese preferred language wins |
| Translation.RejectedChineseTargetCreatesProfile | src/main/java/com/linetranslate/bot/service/translation/TranslationService.java:499-510 | a rejected target on an unknown user leaves a new default profile behind |
| Translation.ModelVendor | src/main/java/com/linetranslate/bot/service/translation/TranslationService.java:639-644 | names containing "gpt" or starting with "o" belong to OpenAI; otherwise names containing "gemini" belong to Gemini |
| Translation.LeadingOMeansOpenAi | src/main/java/com/linetranslate/bot/service/translation/TranslationService.java:639 | any name starting with "o" or "O" is taken for an OpenAI model |
| Translation.SetPreferredModel | src/main/java/com/linetranslate/bot/service/translation/TranslationService.java:630-690 | a recognised model switches the provider and fills that vendor's field; an unrecognised one fills the current provider's field, and without a provider the call fails on a null dereference; otherwise the stored profile differs only in that field and the provider, and the reply reports the unchanged model, the change from the previous model, or the first setting, plus the provider line exactly when the provider changed |
| Translation.WithPreferredModel | src/main/java/com/linetranslate/bot/service/translation/TranslationService.java:646-676 | the vendor's model field is set, nothing else that selects the backend |
| Translation.ModelSlot | src/main/java/com/linetranslate/bot/service/translation/TranslationService.java:639-666 | a recognised model goes to its own vendor's field; an unrecognised one goes to OpenAI's exactly when the current provider is "openai" |
| Translation.ProviderNotice | src/main/java/com/linetranslate/bot/service/translation/TranslationService.java:685-687 | the provider line is added exactly when the provider changed |
| Translation.ChosenModelReportedIfListed | src/main/java/com/linetranslate/bot/service/ai/GeminiService.java:200-207 | a chosen Gemini model is reported exactly when it is in the available list |
| ImageTranslation.Recognize | src/main/java/com/linetranslate/bot/service/ocr/ImageTranslationService.java:99-133 | a failed download is reported; with an OCR service it reads the image, otherwise the backend reads a JPEG data URL |
| ImageTranslation.ImageDefaultTarget | src/main/java/com/linetranslate/bot/service/ocr/ImageTranslationService.java:204-227 | a Chinese source goes to the Chinese target; any other source goes to the configured default, whatever the user prefers |
| ImageTranslation.ImageAndTextTargetsAgree | src/main/java/com/linetranslate/bot/service/ocr/ImageTranslationService.java:142-156 | the image target equals the text target except when a non-Chinese source is already the preferred language |
| ImageTranslation.ProcessImageTranslation | src/main/java/com/linetranslate/bot/service/ocr/ImageTranslationService.java:84-198 | a disabled service answers before anything is stored; a failed download or recognition reports its message and blank text the no-text reply, storing no record; recognised text is recorded once with its image URL, translated by the user's backend into the image target of its detection, and replied with the text, the translation and the language tag |
| ImageTranslation.ReadableImageIsTranslated | src/main/java/com/linetranslate/bot/service/ocr/ImageTranslationService.java:84-198 | a picture the OCR service reads as non-blank text is always recorded and answered with that text |
| ImageTranslation.AdminOcrSwitchNotConsulted | src/main/java/com/linetranslate/bot/service/ocr/ImageTranslationService.java:43-44 | the administrator's OCR setting does not affect the image path |
| ImageTranslation.UnconfiguredBackendReadsItsOwnRefusal | src/main/java/com/linetranslate/bot/service/ocr/ImageTranslationService.java:135-137 | with no backend and no OCR service, the refusal text itself is recorded as the picture's text |
| Admin.IsAdmin | src/main/java/com/linetranslate/bot/service/AdminService.java:80-82 | membership in the administrator list |
| Admin.AddAdmin | src/main/java/com/linetranslate/bot/service/AdminService.java:99-123 | an unknown user or an existing admin changes nothing; otherwise the id is appended once, confirmed with the display name |
| Admin.AddAdminIdempotent | src/main/java/com/linetranslate/bot/service/AdminService.java:99-123 | adding twice is adding once, and the user is then an admin |
| Admin.RemoveAdmin | src/main/java/com/linetranslate/bot/service/AdminService.java:131-161 | an unknown user, a non-admin or the last admin changes nothing; otherwise exactly one occurrence is removed |
| Admin.RemoveFirst | src/main/java/com/linetranslate/bot/service/AdminService.java:154 | a present id loses exactly one occurrence and nothing else; an absent id leaves the list as it was |
| Admin.RemoveFirstSplits | src/main/java/com/linetranslate/bot/service/AdminService.java:154 | the occurrence removed is the first one: the entries before and after it keep their order |
| Admin.AdminListNeverEmptied | src/main/java/com/linetranslate/bot/service/AdminService.java:148-151 | removal never empties a non-empty administrator list |
| Admin.RemovalRevokesOnlyThatUser | src/main/java/com/linetranslate/bot/service/AdminService.java:131-161 | removal changes the admin status of no other user |
| Admin.AddThenRemoveRestores | src/main/java/com/linetranslate/bot/service/AdminService.java:99-161 | adding a user and removing them again restores the list |
| Admin.DisplayName | src/main/java/com/linetranslate/bot/service/AdminService.java:120 | the stored display name, else "用戶" followed by the last six characters of the id |
| Admin.ValidIds | src/main/java/com/linetranslate/bot/service/AdminService.java:186-189 | the ids that are neither null nor empty, each kept as often as it occurs; their number is the total minus the nulls and the empty ids |
| Admin.ValidIdsOfConcat | src/main/java/com/linetranslate/bot/service/AdminService.java:186-189 | filtering keeps the order: filtering two lists joined is joining their filtered lists |
| Admin.BroadcastMessage | src/main/java/com/linetranslate/bot/service/AdminService.java:169-219 | the returned count is the number of valid ids whatever the pushes do; the successful pushes never exceed it; in test mode every push counts, otherwise exactly the accepted ones |
| Admin.PushAll | src/main/java/com/linetranslate/bot/service/AdminService.java:194-214 | the loop counts every user in test mode, otherwise exactly the users whose push is accepted |
| Admin.AllPushesSucceedLikeTestMode | src/main/java/com/linetranslate/bot/service/AdminService.java:194-218 | when every push succeeds, the successes equal the returned count, as in test mode |
| Admin.SetDefaultTargetLanguageForChinese | src/main/java/com/linetranslate/bot/service/AdminService.java:466-480 | only the Chinese default changes |
| Admin.SetDefaultTargetLanguageForOthers | src/main/java/com/linetranslate/bot/service/AdminService.java:488-502 | only the default for other languages changes |
| Admin.ChineseDefaultReachesTranslations | src/main/java/com/linetranslate/bot/service/translation/TranslationService.java:195-201 | a new Chinese default reaches users without their own Chinese target |
| Admin.SetDefaultAiProvider | src/main/java/com/linetranslate/bot/service/AdminService.java:510-528 | openai or gemini in any case is stored lower-cased; anything else changes nothing |
| Admin.SetDefaultModel | src/main/java/com/linetranslate/bot/service/AdminService.java:536-560 | an unlisted model changes nothing and lists the choices; a listed one becomes the provider's model |
| Admin.SetOpenAiDefaultModel | src/main/java/com/linetranslate/bot/service/AdminService.java:536-560 | as above for OpenAI, and the model stays listed |
| Admin.SetGeminiDefaultModel | src/main/java/com/linetranslate/bot/service/AdminService.java:568-592 | as above for Gemini, and the model stays listed |
| Admin.ModelSetterNeverConfirms | src/main/java/com/linetranslate/bot/service/AdminService.java:550-558 | both setters always answer with an error, even after changing the model |
| Admin.SetOcrEnabled | src/main/java/com/linetranslate/bot/service/AdminService.java:600-614 | only the OCR switch changes |
| AdminCommands.AdminParts | src/main/java/com/linetranslate/bot/controller/AdminController.java:48-50 | the sub-command has no space; it is the whole command lower-cased, or the lower-cased text before the first space with the rest as parameter |
| AdminCommands.HandleAdminCommand | src/main/java/com/linetranslate/bot/controller/AdminController.java:37-87 | a non-admin gets the permission message first; an empty command gets help; otherwise every sub-command's answer is given: broadcast and user answer their usage without a parameter, a broadcast reports the valid users, stats, users and today are reports, config and usage are "not implemented", an unknown user and an unknown sub-command get their messages |
| AdminCommands.BroadcastReportsValidUsers | src/main/java/com/linetranslate/bot/controller/AdminController.java:53-57 | a broadcast in any letter case reports the number of valid stored ids |
| BotController.RouteText | src/main/java/com/linetranslate/bot/controller/LineBotController.java:68-87 | "/" goes to a command, one of the two quick prefixes to quick translation, anything else to translation |
| BotController.ParseQuick | src/main/java/com/linetranslate/bot/controller/LineBotController.java:214-237 | fewer than two words is a format error; an unsupported code is refused; otherwise the code and the trimmed text are passed on |
| BotController.QuickTextNeverEmpty | src/main/java/com/linetranslate/bot/controller/LineBotController.java:221-227 | the text of a well-formed quick request is never empty |
| BotController.AdminDispatch | src/main/java/com/linetranslate/bot/controller/LineBotController.java:397-528 | an empty command is exactly help; each of isadmin, broadcast and user with or without a parameter, config, usage and today selects its action exactly when the lower-cased first word names it; every other word is unknown and keeps its lower-cased name |
| BotController.SpaceFreeSubCommand | src/main/java/com/linetranslate/bot/controller/LineBotController.java:404-406 | a command without a space is its own lower-cased sub-command |
| BotController.StatsAndUsersAreUnknown | src/main/java/com/linetranslate/bot/controller/LineBotController.java:525-526 | "stats" and "users" are unknown here, though the admin controller shows them |
| BotController.ConfigOnlyInBot | src/main/java/com/linetranslate/bot/controller/LineBotController.java:481-511 | "config" shows the configuration here, while the admin controller answers "not implemented" |
| BotController.SubCommandCaseInsensitive | src/main/java/com/linetranslate/bot/controller/LineBotController.java:404-412 | "broadcast" in any letter case starts a broadcast of the rest |
| BotController.AdminOutcome | src/main/java/com/linetranslate/bot/controller/LineBotController.java:408-527 | help, the admin confirmation, the two usage texts, "not implemented" and the unknown sub-command are answered with their texts; a missing user is reported by id; a broadcast, the configuration, today's figures and a stored user's details are shown as the action's report, and no other action shows a view |
| BotController.SetModelCommand | src/main/java/com/linetranslate/bot/controller/LineBotController.java:278-292 | the provider is stored before the model, so setting the model never fails on a null provider, and only that user's profile changes |
| BotController.ProviderStoredBeforeModel | src/main/java/com/linetranslate/bot/controller/LineBotController.java:280-286 | the stored provider is the user's, or "openai" when there is none |
| BotController.CommandOf | src/main/java/com/linetranslate/bot/controller/LineBotController.java:122-125 | a known word selects the case with that label; exactly the words outside the thirteen labels reach the default |
| BotController.LabelsSelectTheirCase | src/main/java/com/linetranslate/bot/controller/LineBotController.java:125-202 | each label selects its own case, so no two cases share a label |
| BotController.SetterReply | src/main/java/com/linetranslate/bot/controller/LineBotController.java:132-173 | without an argument the usage is the reply and nothing changes; with one, `setai` passes it lower-cased, `setlang` and `c2lang` pass it unchanged, `setmodel` passes it trimmed, and the service's reply is the bot's |
| BotController.AdminGateReply | src/main/java/com/linetranslate/bot/controller/LineBotController.java:176-200 | help and the check answer by membership in the administrator list; `admin` refuses a non-administrator and otherwise runs its sub-command, empty when none is given |
| BotController.ViewReply | src/main/java/com/linetranslate/bot/controller/LineBotController.java:126-165 | the view commands change no profile except that the status view creates the sender's; the unknown-command reply is given exactly for the default case |
| BotController.SetterDispatch | src/main/java/com/linetranslate/bot/controller/LineBotController.java:132-173 | a setter word is answered by the setter with the text after the first white-space run |
| BotController.AdminGateDispatch | src/main/java/com/linetranslate/bot/controller/LineBotController.java:176-200 | an administrator word is answered by the administrator gate and changes no profile |
| BotController.UnknownCommandAnswered | src/main/java/com/linetranslate/bot/controller/LineBotController.java:202-203 | a word outside the labels gets the unknown-command reply and changes nothing |
| BotController.CommandOfJoin | src/main/java/com/linetranslate/bot/controller/LineBotController.java:121-122 | a word, a white-space run and an argument are read back as the lower-cased word and that argument |
| BotController.SetLangSelected | src/main/java/com/linetranslate/bot/controller/LineBotController.java:121-150 | "setlang" in any letter case selects the language setter with the argument typed |
| BotController.SetLangInAnyCase | src/main/java/com/linetranslate/bot/controller/LineBotController.java:120-156 | "/setlang" in any letter case and with any white space before the argument sets the preferred language from that argument |
| BotController.HandleCommand | src/main/java/com/linetranslate/bot/controller/LineBotController.java:120-205 | profiles stay sound and only the sender's may change; an administrator report is shown only to an administrator |
| BotController.ProviderSetterOnlyTouches | src/main/java/com/linetranslate/bot/controller/LineBotController.java:132-139 | setting the AI provider changes no profile but the sender's, which it may create |
| BotController.LanguageSetterOnlyTouches | src/main/java/com/linetranslate/bot/controller/LineBotController.java:150-157 | setting the preferred language changes no profile but the sender's, which it may create |
| BotController.ChineseTargetSetterOnlyTouches | src/main/java/com/linetranslate/bot/controller/LineBotController.java:167-174 | setting the target for Chinese text changes no profile but the sender's, which it may create |
| BotController.QuickReply | src/main/java/com/linetranslate/bot/controller/LineBotController.java:214-237 | a malformed or unsupported quick request is answered with its error and changes nothing; a well-formed one records one translation of its text into the code given and replies with the bare translation |
| BotController.QuickAnswer | src/main/java/com/linetranslate/bot/controller/LineBotController.java:222-236 | a malformed request gets the format error and an unsupported code its own error, with nothing changed; a call records one translation of its text into the normalised code and replies with the bare translation |
| BotController.HandleTextMessage | src/main/java/com/linetranslate/bot/controller/LineBotController.java:68-87 | at most one record is appended; commands record nothing; a refused quick request changes nothing; a quick call records its text and replies with the translation |
| BotController.CommandTextIsHandled | src/main/java/com/linetranslate/bot/controller/LineBotController.java:74-77 | a text starting with "/" gets the command handler's answer for the rest, and the translation records are kept |
| BotController.QuickTextIsQuickTranslated | src/main/java/com/linetranslate/bot/controller/LineBotController.java:79-82 | a text with either quick prefix and no slash gets the quick translation of what follows the prefix |
| BotController.PlainTextIsTranslated | src/main/java/com/linetranslate/bot/controller/LineBotController.java:84-86 | any other text is translated whole and its reply is sent |

## Left out

- Lower-casing and case-insensitive comparison fold ASCII letters only. Java's `toLowerCase` and `equalsIgnoreCase` also fold other characters, so the model differs on such input: the Kelvin sign in "/setlang \u212Ao" lowers to "ko" in Java but not here, and `setDefaultAiProvider("GEMİNİ")` with a dotted capital I is accepted by Java's `equalsIgnoreCase` but refused here.
- HTTP and vendor calls are opaque function parameters: all of `OpenAiService`, the Gemini request transport, the OCR service and object storage.
- The n-gram library and the AI model itself are inputs to `detectLanguage`.
- Persistence, timestamps, processing times and `LocalDateTime.now()` statistics. Records are appended to a sequence; profiles live in a map.
- `@Cacheable` on `translateWithService` is framework behaviour and is not modelled.
- The `ThreadLocal` image context is not modelled; the picture's URL is passed explicitly.
- `processBatchTranslation` is not reached from any modelled entry point.
- `AdminService`, `LineBotController` and `GeminiService` call `getAvailableModels` on the provider configurations and use the profile fields `preferredChineseTargetLanguage`, `openaiPreferredModel` and `geminiPreferredModel`, but `OpenAiConfig`, `GeminiConfig` and `UserProfile` do not declare them at this revision. They are modelled as plain fields of the configuration and profile records.
- `LineBotController` calls `LineUserProfileService.getUserProfile` for `setmodel` (LineBotController.java:280), but `LineUserProfileService` does not declare it at this revision; it declares only `syncUserProfile` and `getUserProfileInfo`. Reading the stored profile, with a missing profile counted as having no provider, is this model's choice.
- `AiServiceFactory` calls `OpenAiService.getModelName(UserProfile)`, but `OpenAiService` does not declare it at this revision. It is modelled like Gemini's.
- Help, about, model-list, profile, status and language-menu texts, and the admin reports (statistics, user lists, user details, today's figures), are named by a `View` or `Report` value rather than formatted. This includes `getUserStatus` and the broadcast user list.
- `getDefaultProvider` only reads the configuration and is not modelled.
- Floating-point cost and usage statistics in `AdminService` are left out.
- The broadcast pushes are a parameter. The controller's "廣播消息失敗" catch is not modelled.
- The catch-all exception handlers of the image path are not modelled, because the model's functions are total. This covers the outer catch of `processImageTranslation` and the controller's image-event catch.
- The `split(";base64,")[1]` on an input ending at its marker throws in Java. It is modelled as a missing payload.
- The factory reads the default provider once at start-up, so the administrator's `setDefaultAiProvider` is not seen by backend selection. The model keeps them separate.
- Admin.ModelSetterNeverConfirms: the configuration field that the reflection looks up does not exist, so the lookup's failure is modelled as always happening.
- Admin.DisplayName: takes the last six characters of the id where Java takes the last six UTF-16 units. They differ only for ids with characters outside the Basic Multilingual Plane: "abcdef😀" gives "用戶cdef😀" in Java and "用戶bcdef😀" here. A Dafny string cannot hold the lone surrogate that Java's cut can leave. LINE user ids are ASCII.
- AdminCommands.HandleAdminCommand: shows the details of any stored user. In `getUserInfo`, `substring(0, 6)` (AdminService.java:275) throws for a stored user without a display name whose id is shorter than six characters. The handler then answers "獲取用戶信息失敗：" with the exception message (AdminController.java:161-163). The `users` report fails the same way: `getRecentUsers` cuts `substring(0, 6)` from the id of a user without a display name (AdminService.java:245), and the handler cuts it from every listed id (AdminController.java:119). So a listed user whose id is shorter than six characters makes the handler answer "獲取用戶列表失敗：" with the exception message (AdminController.java:126-128), where the model shows the report. The reports' contents are not modelled, so neither are these failures.
- BotController.AdminOutcome: shows the details of any stored user. For the same short id without a display name, the exception leaves `handleTextMessageEvent`, which does not catch it, and no reply is sent.
- Translation.ChosenModelReportedIfListed is stated for Gemini only; the OpenAI side is symmetric.
- LanguageDetection.HanShareDecides counts Han code points against the UTF-16 length, as the source does, and states the 0.3 threshold as the integer inequality 10 * han > 3 * length.

=== FILE: admin_controller.dfy ===
/**
 * The stand-alone administrator command handler: the permission gate, the
 * way a command is cut into a sub-command and its parameter, and the
 * sub-command dispatch with its fixed replies.
 *
 * Reports that are pure formatting of stored data (system statistics, the
 * recent-user list, one user's details, today's statistics) are named by a
 * `Report` rather than spelled out.
 */
module AdminCommands {
  import opened JavaString
  import opened CommandSplit
  import Admin
  import T = Translation

  const NoPermission := "您沒有管理員權限。"
  const BroadcastUsage := "請指定要廣播的消息。例如：/admin broadcast 您好，這是一條廣播消息。"
  const UserUsage := "請指定要查詢的用戶ID。例如：/admin user U123456789"
  const UsageNotImplemented := "💰 API 使用量和費用功能尚未實現\n\n此功能將顯示 API 的使用量和相關費用。"
  const ConfigNotImplemented := "⚙️ 系統配置信息功能尚未實現\n\n此功能將顯示系統的各項配置設定。"

  /** The help text of this handler; it does not mention "isadmin". */
  const AdminHelpText :=
    "🔐 LINE 翻譯機器人管理員命令 🔐\n\n"
    + "【💻 管理員命令列表】\n"
    + "📖 /adminhelp - 顯示管理員幫助信息\n"
    + "📢 /admin broadcast [消息] - 向所有用戶廣播消息\n"
    + "📊 /admin stats - 查看系統統計信息\n"
    + "🔍 /admin users - 查看用戶列表\n"
    + "🔎 /admin user [用戶ID] - 查看指定用戶詳細信息\n"
    + "🔧 /admin config - 查看系統配置\n"
    + "💰 /admin usage - 查看 API 使用量和費用\n"
    + "📅 /admin today - 查看今日統計信息"

  /** The reply to an unknown sub-command: its name, then the given help text. */
  function UnknownSubCommand(subCommand: string, help: string): string
  {
    "未知的管理員命令：" + subCommand + "\n\n" + help
  }

  /**
   * The sub-command and its parameter, as both administrator handlers cut
   * them: the lower-cased text before the first space, and everything after
   * that space ("" when there is none).
   */
  function AdminParts(command: string): (r: (string, string))
    ensures ' ' !in r.0
    ensures SplitOnSpace(command).Whole? ==> r == (ToLower(command), "")
    ensures SplitOnSpace(command).Pair? ==> r == (ToLower(SplitOnSpace(command).head), SplitOnSpace(command).rest)
  {
    match SplitOnSpace(command)
    case Whole(w) =>
      LowerKeepsSpaces(w);
      (ToLower(w), "")
    case Pair(h, rest) =>
      LowerKeepsSpaces(h);
      (ToLower(h), rest)
  }

  /** Lower-casing neither adds nor removes spaces. */
  lemma LowerKeepsSpaces(w: string)
    ensures ' ' in ToLower(w) <==> ' ' in w
  {
    assert forall k :: 0 <= k < |w| ==> (ToLower(w)[k] == ' ' <==> w[k] == ' ');
    if ' ' in w {
      var k :| 0 <= k < |w| && w[k] == ' ';
      assert ToLower(w)[k] == ' ';
    }
  }

  /** The sub-commands this handler knows. */
  const SubCommands: set<string> := {"broadcast", "stats", "users", "user", "config", "usage", "today"}

  /** A report built from stored data. */
  datatype Report = SystemStats | RecentUsers | UserDetails(userId: string) | TodayStats

  /** What the handler answers: a fixed or composed text, or a report. */
  datatype Reply = Text(text: string) | Shows(report: Report)

  /** The broadcast confirmation, with the number of users the service reports. */
  function BroadcastSent(count: nat, message: string): string
  {
    "📢 廣播成功\n\n已向 " + NatToString(count) + " 個用戶發送消息：\n" + message
  }

  /**
   * `AdminController.handleCommand`. `ids` are the user ids stored in the
   * profile repository (`None` for null), `profiles` the stored profiles.
   * Nothing but the permission check comes before the empty-command help.
   */
  function HandleAdminCommand(admins: seq<string>, userId: string, command: string,
                              ids: seq<Option<string>>, profiles: T.Profiles): (r: Reply)
    ensures !Admin.IsAdmin(admins, userId) ==> r == Text(NoPermission)
    ensures Admin.IsAdmin(admins, userId) && command == [] ==> r == Text(AdminHelpText)
    ensures r.Shows? ==> Admin.IsAdmin(admins, userId) && command != []
    ensures r.Shows? && r.report.UserDetails? ==>
      && AdminParts(command) == ("user", r.report.userId)
      && r.report.userId in profiles
    ensures Admin.IsAdmin(admins, userId) && command != [] ==>
      var (sub, param) := AdminParts(command);
      && (sub == "broadcast" ==>
            r == Text(if param == [] then BroadcastUsage else BroadcastSent(|Admin.ValidIds(ids)|, param)))
      && (sub == "stats" ==> r == Shows(SystemStats))
      && (sub == "users" ==> r == Shows(RecentUsers))
      && (sub == "user" && param == [] ==> r == Text(UserUsage))
      && (sub == "user" && param != [] && param !in profiles ==> r == Text("找不到用戶：" + param))
      && (sub == "user" && param != [] && param in profiles ==> r == Shows(UserDetails(param)))
      && (sub == "config" ==> r == Text(ConfigNotImplemented))
      && (sub == "usage" ==> r == Text(UsageNotImplemented))
      && (sub == "today" ==> r == Shows(TodayStats))
      && (sub !in SubCommands ==> r == Text(UnknownSubCommand(sub, AdminHelpText)))
  {
    if !Admin.IsAdmin(admins, userId) then Text(NoPermission)
    else if command == [] then Text(AdminHelpText)
    else
      var (sub, param) := AdminParts(command);
      if sub == "broadcast" then
        (if param == [] then Text(BroadcastUsage) else Text(BroadcastSent(|Admin.ValidIds(ids)|, param)))
      else if sub == "stats" then Shows(SystemStats)
      else if sub == "users" then Shows(RecentUsers)
      else if sub == "user" then
        (if param == [] then Text(UserUsage)
         else if param !in profiles then Text("找不到用戶：" + param)
         else Shows(UserDetails(param)))
      else if sub == "config" then Text(ConfigNotImplemented)
      else if sub == "usage" then Text(UsageNotImplemented)
      else if sub == "today" then Shows(TodayStats)
      else Text(UnknownSubCommand(sub, AdminHelpText))
  }

  /**
   * A broadcast by an administrator, with the sub-command in any letter case,
   * reports every stored user with a non-empty id, whatever the pushes did.
   */
  lemma BroadcastReportsValidUsers(admins: seq<string>, userId: string, head: string, message: string,
                                   ids: seq<Option<string>>, profiles: T.Profiles)
    requires Admin.IsAdmin(admins, userId)
    requires ' ' !in head && ToLower(head) == "broadcast" && message != []
    ensures HandleAdminCommand(admins, userId, head + " " + message, ids, profiles)
      == Text(BroadcastSent(|Admin.ValidIds(ids)|, message))
  {
    SpaceSplitOfJoin(head, message);
  }
}

=== FILE: admin_service.dfy ===
/**
 * The administrator's service: the in-memory administrator list, the
 * broadcast count, and the setters that rewrite the running configuration.
 *
 * The administrator list is the ordered list read from the `admin.users`
 * setting; the settings are immutable records and each setter returns an
 * updated copy together with its reply.
 */
module Admin {
  import opened JavaString
  import opened UserProfiles
  import Settings
  import T = Translation

  /** `isAdmin`: list membership. */
  function IsAdmin(admins: seq<string>, userId: string): (r: bool)
    ensures r <==> exists i :: 0 <= i < |admins| && admins[i] == userId
  {
    userId in admins
  }

  /** `List.remove(Object)`: drop the first occurrence; `RemoveFirstSplits` shows the rest keeps its order. */
  function RemoveFirst(s: seq<string>, x: string): (r: seq<string>)
    ensures x in s ==> |r| == |s| - 1 && multiset(r) == multiset(s) - multiset{x}
    ensures x !in s ==> r == s
  {
    if s == [] then []
    else if s[0] == x then
      assert s == [x] + s[1..];
      s[1..]
    else
      assert s == [s[0]] + s[1..];
      [s[0]] + RemoveFirst(s[1..], x)
  }

  /** Only the first occurrence goes, and everything around it keeps its order. */
  lemma {:induction false} RemoveFirstSplits(a: seq<string>, x: string, b: seq<string>)
    requires x !in a
    ensures RemoveFirst(a + [x] + b, x) == a + b
  {
    var s := a + [x] + b;
    if a == [] {
      assert s == [x] + b && s[0] == x && s[1..] == b;
      assert a + b == b;
    } else {
      assert s[0] == a[0] && a[0] != x;
      assert s[1..] == a[1..] + [x] + b;
      calc {
        RemoveFirst(s, x);
        [a[0]] + RemoveFirst(a[1..] + [x] + b, x);
        { RemoveFirstSplits(a[1..], x, b); }
        [a[0]] + (a[1..] + b);
        { assert a == [a[0]] + a[1..]; }
        a + b;
      }
    }
  }

  /** The name shown for a user: the stored display name, else "用戶" and the id's last six characters. */
  function DisplayName(p: Profile): (r: string)
    ensures p.displayName.Some? ==> r == p.displayName.value
    ensures p.displayName.None? ==>
      && |r| == 2 + (if |p.userId| < 6 then |p.userId| else 6) && r[..2] == "用戶"
      && p.userId == p.userId[..|p.userId| - (|r| - 2)] + r[2..]
  {
    if p.displayName.Some? then p.displayName.value
    else
      var from := if |p.userId| < 6 then 0 else |p.userId| - 6;
      "用戶" + p.userId[from..]
  }

  /**
   * `addAdmin`: an unknown user or an existing administrator is refused with
   * the list unchanged; otherwise the id is appended.
   */
  function AddAdmin(profiles: T.Profiles, admins: seq<string>, userId: string): (r: (seq<string>, string))
    ensures userId !in profiles ==> r == (admins, "添加管理員失敗：找不到用戶 " + userId)
    ensures userId in profiles && userId in admins ==> r == (admins, "用戶 " + userId + " 已經是管理員")
    ensures userId in profiles && userId !in admins ==>
      && r.0 == admins + [userId]
      && r.1 == "成功添加管理員：" + DisplayName(profiles[userId]) + " (ID: " + userId + ")"
    ensures Distinct(admins) ==> Distinct(r.0)
  {
    if userId !in profiles then (admins, "添加管理員失敗：找不到用戶 " + userId)
    else if userId in admins then (admins, "用戶 " + userId + " 已經是管理員")
    else (admins + [userId], "成功添加管理員：" + DisplayName(profiles[userId]) + " (ID: " + userId + ")")
  }

  /**
   * `removeAdmin`: an unknown user or a non-administrator is refused, and so
   * is removing from a list of at most one; otherwise the first occurrence
   * of the id is removed.
   */
  function RemoveAdmin(profiles: T.Profiles, admins: seq<string>, userId: string): (r: (seq<string>, string))
    ensures userId !in profiles ==> r == (admins, "移除管理員失敗：找不到用戶 " + userId)
    ensures userId in profiles && userId !in admins ==> r == (admins, "用戶 " + userId + " 不是管理員")
    ensures userId in profiles && userId in admins && |admins| <= 1 ==>
      r == (admins, "移除管理員失敗：無法移除最後一個管理員")
    ensures userId in profiles && userId in admins && |admins| > 1 ==>
      && multiset(r.0) == multiset(admins) - multiset{userId}
      && r.1 == "成功移除管理員：" + DisplayName(profiles[userId]) + " (ID: " + userId + ")"
  {
    if userId !in profiles then (admins, "移除管理員失敗：找不到用戶 " + userId)
    else if userId !in admins then (admins, "用戶 " + userId + " 不是管理員")
    else if |admins| <= 1 then (admins, "移除管理員失敗：無法移除最後一個管理員")
    else (RemoveFirst(admins, userId), "成功移除管理員：" + DisplayName(profiles[userId]) + " (ID: " + userId + ")")
  }

  /** A non-empty administrator list stays non-empty whatever is removed. */
  lemma AdminListNeverEmptied(profiles: T.Profiles, admins: seq<string>, userId: string)
    requires admins != []
    ensures RemoveAdmin(profiles, admins, userId).0 != []
  {
    if userId in profiles && userId in admins && |admins| > 1 {
      assert |RemoveAdmin(profiles, admins, userId).0| == |admins| - 1;
    }
  }

  /** Removing from a list that holds each id once takes away exactly that id. */
  lemma RemovalRevokesOnlyThatUser(profiles: T.Profiles, admins: seq<string>, userId: string, other: string)
    requires Distinct(admins)
    ensures var after := RemoveAdmin(profiles, admins, userId).0;
      (other != userId ==> (IsAdmin(after, other) <==> IsAdmin(admins, other)))
      && (IsAdmin(after, userId) <==> after == admins && userId in admins)
  {
    var after := RemoveAdmin(profiles, admins, userId).0;
    if userId in profiles && userId in admins && |admins| > 1 {
      assert multiset(after) == multiset(admins) - multiset{userId};
      DistinctCountsOnce(admins, userId);
      assert multiset(after)[userId] == 0;
      assert other in after <==> multiset(after)[other] > 0;
      assert other in admins <==> multiset(admins)[other] > 0;
    }
  }

  /** In a list without repeats every member occurs once. */
  lemma {:induction false} DistinctCountsOnce(s: seq<string>, x: string)
    requires Distinct(s) && x in s
    ensures multiset(s)[x] == 1
  {
    if s[0] == x {
      assert x !in s[1..];
      assert s == [x] + s[1..];
    } else {
      assert s == [s[0]] + s[1..];
      DistinctCountsOnce(s[1..], x);
    }
  }

  /** Adding a new administrator and then removing them restores the list. */
  lemma AddThenRemoveRestores(profiles: T.Profiles, admins: seq<string>, userId: string)
    requires userId in profiles && userId !in admins && admins != []
    ensures RemoveAdmin(profiles, AddAdmin(profiles, admins, userId).0, userId).0 == admins
  {
    RemoveFirstAppended(admins, userId);
  }

  lemma {:induction false} RemoveFirstAppended(s: seq<string>, x: string)
    requires x !in s
    ensures RemoveFirst(s + [x], x) == s
  {
    if s != [] {
      assert (s + [x])[1..] == s[1..] + [x];
      RemoveFirstAppended(s[1..], x);
    }
  }

  /** Adding twice is adding once. */
  lemma AddAdminIdempotent(profiles: T.Profiles, admins: seq<string>, userId: string)
    ensures var once := AddAdmin(profiles, admins, userId).0;
      AddAdmin(profiles, once, userId).0 == once && (userId in profiles ==> IsAdmin(once, userId))
  {
  }

  // ---------------------------------------------------------------------------
  // Broadcast
  // ---------------------------------------------------------------------------

  /**
   * The ids of the stored users that are neither null nor empty, in order.
   * Each such id is kept as often as it occurs; nulls and empty ids are dropped.
   */
  function ValidIds(ids: seq<Option<string>>): (r: seq<string>)
    ensures |r| == |ids| - multiset(ids)[None] - multiset(ids)[Some([])]
    ensures [] !in r
    ensures forall u :: u != [] ==> multiset(r)[u] == multiset(ids)[Some(u)]
  {
    if ids == [] then []
    else
      assert ids == [ids[0]] + ids[1..];
      (if IsPresent(ids[0]) then [ids[0].value] else []) + ValidIds(ids[1..])
  }

  /** Filtering distributes over concatenation, so the kept ids stay in their relative order. */
  lemma {:induction false} ValidIdsOfConcat(a: seq<Option<string>>, b: seq<Option<string>>)
    ensures ValidIds(a + b) == ValidIds(a) + ValidIds(b)
  {
    if a == [] {
      assert a + b == b;
    } else {
      var head := if IsPresent(a[0]) then [a[0].value] else [];
      assert a + b == [a[0]] + (a[1..] + b);
      calc {
        ValidIds(a + b);
        head + ValidIds(a[1..] + b);
        { ValidIdsOfConcat(a[1..], b); }
        head + (ValidIds(a[1..]) + ValidIds(b));
        (head + ValidIds(a[1..])) + ValidIds(b);
        ValidIds(a) + ValidIds(b);
      }
    }
  }

  /** The number of users in `users` a push reaches. */
  function Accepted(users: seq<string>, push: string -> bool): (n: nat)
    ensures n <= |users|
    ensures (forall i :: 0 <= i < |users| ==> push(users[i])) ==> n == |users|
  {
    if users == [] then 0
    else Accepted(users[..|users| - 1], push) + (if push(users[|users| - 1]) then 1 else 0)
  }

  /**
   * `broadcastMessage`. In test mode every valid user counts as reached;
   * otherwise each push is tried and failures are skipped. The number
   * returned is the number of stored ids that are neither null nor empty,
   * duplicates included, whatever the pushes did.
   */
  method BroadcastMessage(ids: seq<Option<string>>, testMode: bool, push: string -> bool) returns (count: nat, reached: nat)
    ensures count == |ids| - multiset(ids)[None] - multiset(ids)[Some([])]
    ensures reached <= count
    ensures testMode ==> reached == count
    ensures !testMode ==> reached == Accepted(ValidIds(ids), push)
  {
    var valid := ValidIds(ids);
    reached := PushAll(valid, testMode, push);
    count := |valid|;
  }

  /** The push loop over the valid users: each success, or every user in test mode, is counted. */
  method PushAll(valid: seq<string>, testMode: bool, push: string -> bool) returns (reached: nat)
    ensures testMode ==> reached == |valid|
    ensures !testMode ==> reached == Accepted(valid, push)
  {
    reached := 0;
    var i := 0;
    while i < |valid|
      invariant 0 <= i <= |valid|
      invariant testMode ==> reached == i
      invariant !testMode ==> reached == Accepted(valid[..i], push)
    {
      AcceptedStep(valid, i, push);
      if testMode || push(valid[i]) {
        reached := reached + 1;
      }
      i := i + 1;
    }
    assert valid[..i] == valid;
  }

  lemma AcceptedStep(users: seq<string>, i: nat, push: string -> bool)
    requires i < |users|
    ensures Accepted(users[..i + 1], push) == Accepted(users[..i], push) + (if push(users[i]) then 1 else 0)
  {
    assert users[..i + 1][..i] == users[..i];
  }

  /** When every push succeeds, the live run reaches as many users as test mode. */
  lemma AllPushesSucceedLikeTestMode(ids: seq<Option<string>>, push: string -> bool)
    ensures (forall u :: u in ValidIds(ids) ==> push(u)) ==>
      Accepted(ValidIds(ids), push) == |ids| - multiset(ids)[None] - multiset(ids)[Some([])]
  {
  }

  // ---------------------------------------------------------------------------
  // Configuration setters
  // ---------------------------------------------------------------------------

  /** The settings an administrator may rewrite at run time. */
  datatype Config = Config(app: Settings.AppConfig, openAi: Settings.ProviderConfig, gemini: Settings.ProviderConfig)

  /** Every configured model is one of its vendor's listed models. */
  predicate ModelsListed(c: Config)
  {
    c.openAi.modelName in c.openAi.availableModels && c.gemini.modelName in c.gemini.availableModels
  }

  /** `setDefaultTargetLanguageForChinese`: stored as given, without validation. */
  function SetDefaultTargetLanguageForChinese(c: Config, language: string): (r: (Config, string))
    ensures r.0.app.defaultTargetLanguageForChinese == language
    ensures r.0 == c.(app := r.0.app) && r.0.app == c.app.(defaultTargetLanguageForChinese := language)
    ensures r.1 == "✅ 已將中文翻譯默認目標語言設置為: " + language
  {
    (c.(app := c.app.(defaultTargetLanguageForChinese := language)), "✅ 已將中文翻譯默認目標語言設置為: " + language)
  }

  /** `setDefaultTargetLanguageForOthers`: stored as given, without validation. */
  function SetDefaultTargetLanguageForOthers(c: Config, language: string): (r: (Config, string))
    ensures r.0.app.defaultTargetLanguageForOthers == language
    ensures r.0 == c.(app := r.0.app) && r.0.app == c.app.(defaultTargetLanguageForOthers := language)
    ensures r.1 == "✅ 已將其他語言翻譯默認目標語言設置為: " + language
  {
    (c.(app := c.app.(defaultTargetLanguageForOthers := language)), "✅ 已將其他語言翻譯默認目標語言設置為: " + language)
  }

  /**
   * A new Chinese default reaches text translation at once for users without
   * a Chinese target of their own, even when it is not a language the
   * registry knows.
   */
  lemma ChineseDefaultReachesTranslations(c: Config, language: string, source: string, p: Profile)
    requires T.IsChineseCode(source) && !IsPresent(p.preferredChineseTargetLanguage)
    requires !IsPresent(p.preferredLanguage) || T.IsChineseCode(p.preferredLanguage.value)
    ensures T.AutoTarget(source, p, SetDefaultTargetLanguageForChinese(c, language).0.app) == language
  {
    T.AutoTargetByBucket(source, p, SetDefaultTargetLanguageForChinese(c, language).0.app);
  }

  /** `setDefaultAiProvider`: either vendor name in any letter case, stored lower-cased. */
  function SetDefaultAiProvider(c: Config, provider: string): (r: (Config, string))
    ensures !EqualsIgnoreCase("openai", provider) && !EqualsIgnoreCase("gemini", provider) ==>
      r == (c, "❌ 無效的 AI 提供者。有效值為: openai, gemini")
    ensures EqualsIgnoreCase("openai", provider) || EqualsIgnoreCase("gemini", provider) ==>
      && r.0 == c.(app := c.app.(defaultAiProvider := r.0.app.defaultAiProvider))
      && (r.0.app.defaultAiProvider == "openai" || r.0.app.defaultAiProvider == "gemini")
      && EqualsIgnoreCase(r.0.app.defaultAiProvider, provider)
      && r.1 == "✅ 已將默認 AI 提供者設置為: " + r.0.app.defaultAiProvider
  {
    if !EqualsIgnoreCase("openai", provider) && !EqualsIgnoreCase("gemini", provider) then
      (c, "❌ 無效的 AI 提供者。有效值為: openai, gemini")
    else
      var lower := ToLower(provider);
      LowerOfVendorName(provider);
      (c.(app := c.app.(defaultAiProvider := lower)), "✅ 已將默認 AI 提供者設置為: " + lower)
  }

  lemma LowerOfVendorName(provider: string)
    requires EqualsIgnoreCase("openai", provider) || EqualsIgnoreCase("gemini", provider)
    ensures ToLower(provider) == "openai" || ToLower(provider) == "gemini"
    ensures EqualsIgnoreCase(ToLower(provider), provider)
  {
    ToLowerIdempotent(provider);
    VendorNamesArePlain();
    if EqualsIgnoreCase("openai", provider) {
      LowerOfPlainName("openai", provider);
    } else {
      LowerOfPlainName("gemini", provider);
    }
  }

  lemma VendorNamesArePlain()
    ensures NoUpper("openai") && NoUpper("gemini")
  {
  }

  /** A name without capitals that matches a text ignoring case is that text lower-cased. */
  lemma LowerOfPlainName(name: string, provider: string)
    requires NoUpper(name) && ToLower(name) == ToLower(provider)
    ensures ToLower(provider) == name
  {
    ToLowerNoUpper(name);
  }

  /** The reply of a model setter whose second reflective write names a field the settings record lacks. */
  const MissingFieldFailure := "❌ 設置失敗: "

  /**
   * `setOpenAiDefaultModel` / `setGeminiDefaultModel`: a model outside the
   * vendor's list is refused with the list in the reply. A listed model is
   * written into the vendor's settings; the second write, to a field of the
   * application settings that does not exist, then fails, so the reply
   * reports the failure with the missing field's name although the vendor's
   * model has changed.
   */
  function SetDefaultModel(pc: Settings.ProviderConfig, vendorLabel: string, appField: string, model: string): (r: (Settings.ProviderConfig, string))
    ensures model !in pc.availableModels ==>
      r == (pc, "❌ 無效的 " + vendorLabel + " 模型。可用模型: " + Join(pc.availableModels, ", "))
    ensures model in pc.availableModels ==>
      r.0 == pc.(modelName := model) && r.1 == MissingFieldFailure + appField
    ensures r.0.availableModels == pc.availableModels
    ensures pc.modelName in pc.availableModels ==> r.0.modelName in r.0.availableModels
  {
    if model !in pc.availableModels then
      (pc, "❌ 無效的 " + vendorLabel + " 模型。可用模型: " + Join(pc.availableModels, ", "))
    else (pc.(modelName := model), MissingFieldFailure + appField)
  }

  function SetOpenAiDefaultModel(c: Config, model: string): (r: (Config, string))
    ensures r.0 == c.(openAi := SetDefaultModel(c.openAi, "OpenAI", "openaiDefaultModel", model).0)
    ensures r.1 == SetDefaultModel(c.openAi, "OpenAI", "openaiDefaultModel", model).1
    ensures ModelsListed(c) ==> ModelsListed(r.0)
  {
    var (pc, reply) := SetDefaultModel(c.openAi, "OpenAI", "openaiDefaultModel", model);
    (c.(openAi := pc), reply)
  }

  function SetGeminiDefaultModel(c: Config, model: string): (r: (Config, string))
    ensures r.0 == c.(gemini := SetDefaultModel(c.gemini, "Gemini", "geminiDefaultModel", model).0)
    ensures r.1 == SetDefaultModel(c.gemini, "Gemini", "geminiDefaultModel", model).1
    ensures ModelsListed(c) ==> ModelsListed(r.0)
  {
    var (pc, reply) := SetDefaultModel(c.gemini, "Gemini", "geminiDefaultModel", model);
    (c.(gemini := pc), reply)
  }

  /** No model setter ever replies with success: a change and a refusal both start with the failure mark. */
  lemma ModelSetterNeverConfirms(c: Config, model: string)
    ensures StartsWith(SetOpenAiDefaultModel(c, model).1, "❌")
    ensures StartsWith(SetGeminiDefaultModel(c, model).1, "❌")
    ensures model in c.openAi.availableModels ==> SetOpenAiDefaultModel(c, model).0.openAi.modelName == model
    ensures model in c.gemini.availableModels ==> SetGeminiDefaultModel(c, model).0.gemini.modelName == model
  {
  }

  /** `setOcrEnabled`: the application switch is set and the reply names the new state. */
  function SetOcrEnabled(c: Config, enabled: bool): (r: (Config, string))
    ensures r.0 == c.(app := c.app.(ocrEnabled := enabled))
    ensures r.1 == "✅ 已" + (if enabled then "啟用" else "禁用") + " OCR 功能"
  {
    (c.(app := c.app.(ocrEnabled := enabled)), "✅ 已" + (if enabled then "啟用" else "禁用") + " OCR 功能")
  }
}

=== FILE: ai_services.dfy ===
/**
 * Choosing an AI backend. Two vendor services may exist, OpenAI and Gemini;
 * either is absent when its credentials are missing. The factory picks one by
 * provider name, falls back to the other, and as a last resort hands out a
 * service that answers every request with a fixed "not configured" text.
 *
 * What a present vendor answers is outside the model: the `Clients` record
 * carries the vendors' answers as functions, so every statement here holds
 * whatever the vendors reply.
 */
module AiServices {
  import opened JavaString
  import opened UserProfiles
  import Settings

  datatype Vendor = OpenAi | Gemini

  /** `getProviderName()` of a vendor service. */
  function ProviderId(v: Vendor): (r: string)
    ensures NoUpper(r) && |r| == 6
  {
    match v
    case OpenAi => "openai"
    case Gemini => "gemini"
  }

  /** Which vendor services were created at start-up. */
  datatype Availability = Availability(openAi: bool, gemini: bool)

  predicate Has(av: Availability, v: Vendor)
  {
    match v
    case OpenAi => av.openAi
    case Gemini => av.gemini
  }

  /**
   * A service as the factory hands it out: a vendor service itself, a vendor
   * service wrapped to report a user's preferred model, or the stand-in used
   * when no vendor is configured.
   */
  datatype Service = Base(vendor: Vendor) | UserPreferred(vendor: Vendor, model: string) | Unconfigured

  function VendorOf(s: Service): Option<Vendor>
  {
    if s.Unconfigured? then None else Some(s.vendor)
  }

  const UnconfiguredTranslation := "無法翻譯：所有 AI 服務都未正確配置。請檢查環境變數設置。"
  const UnconfiguredImage := "無法處理圖片：所有 AI 服務都未正確配置。請檢查環境變數設置。"
  const UnconfiguredGeneration := "無法生成文本：所有 AI 服務都未正確配置。請檢查環境變數設置。"

  // ---------------------------------------------------------------------------
  // Start-up: the effective default provider
  // ---------------------------------------------------------------------------

  /**
   * The constructor's choice of default: a configured "openai" whose service
   * is missing becomes "gemini" when Gemini exists, and symmetrically; any
   * other configured value is kept as it is.
   */
  function EffectiveDefault(configured: string, av: Availability): (r: string)
    ensures configured == "openai" ==> (r == "gemini" <==> !av.openAi && av.gemini)
    ensures configured == "gemini" ==> (r == "openai" <==> !av.gemini && av.openAi)
    ensures r == configured || r == "openai" || r == "gemini"
    ensures configured != "openai" && configured != "gemini" ==> r == configured
  {
    if configured == "openai" && !av.openAi then
      (if av.gemini then "gemini" else configured)
    else if configured == "gemini" && !av.gemini then
      (if av.openAi then "openai" else configured)
    else configured
  }

  /** Choosing the default again changes nothing. */
  lemma EffectiveDefaultStable(configured: string, av: Availability)
    ensures EffectiveDefault(EffectiveDefault(configured, av), av) == EffectiveDefault(configured, av)
  {
  }

  /** A known default names a service that exists whenever any service exists. */
  lemma EffectiveDefaultIsServed(configured: string, av: Availability)
    requires configured == "openai" || configured == "gemini"
    requires av.openAi || av.gemini
    ensures GetService(None, EffectiveDefault(configured, av), av) == Base(if EffectiveDefault(configured, av) == "openai" then OpenAi else Gemini)
  {
    var d := EffectiveDefault(configured, av);
    ToLowerNoUpper(ProviderId(OpenAi));
    ToLowerNoUpper(ProviderId(Gemini));
    assert ToLower(d) == d;
  }

  // ---------------------------------------------------------------------------
  // getService(String)
  // ---------------------------------------------------------------------------

  /** `getRequestedService`: the vendor whose id equals the lower-cased name, if it exists. */
  function Requested(provider: string, av: Availability): (r: Option<Vendor>)
    ensures r.Some? <==> exists v :: ToLower(provider) == ProviderId(v) && Has(av, v)
    ensures r.Some? ==> ToLower(provider) == ProviderId(r.value) && Has(av, r.value)
  {
    var key := ToLower(provider);
    assert ProviderId(OpenAi)[0] != ProviderId(Gemini)[0];
    if key == "openai" then (if av.openAi then Some(OpenAi) else None)
    else if key == "gemini" then (if av.gemini then Some(Gemini) else None)
    else None
  }

  /**
   * `getFallbackService`: Gemini for exactly "openai", OpenAI for every other
   * name, including "OpenAI" and unknown names.
   */
  function Fallback(provider: string, av: Availability): (r: Option<Vendor>)
    ensures provider == "openai" ==> (r.Some? <==> av.gemini) && (r.Some? ==> r.value == Gemini)
    ensures provider != "openai" ==> (r.Some? <==> av.openAi) && (r.Some? ==> r.value == OpenAi)
  {
    if provider == "openai" then (if av.gemini then Some(Gemini) else None)
    else if av.openAi then Some(OpenAi)
    else None
  }

  /** The name `getService(String)` looks up: the argument, or the default when it is null. */
  function ActualProvider(provider: Option<string>, defaultProvider: string): string
  {
    if provider.Some? then provider.value else defaultProvider
  }

  /** `getService(String)`: the requested vendor, else the fallback vendor, else the stand-in. */
  function GetService(provider: Option<string>, defaultProvider: string, av: Availability): (s: Service)
    ensures s.Base? || s.Unconfigured?
    ensures s.Base? ==> Has(av, s.vendor)
    ensures !av.openAi && !av.gemini ==> s == Unconfigured
    ensures forall v :: ToLower(ActualProvider(provider, defaultProvider)) == ProviderId(v) && Has(av, v) ==> s == Base(v)
    ensures var actual := ActualProvider(provider, defaultProvider);
      Requested(actual, av).None? && actual == "openai" ==> s == (if av.gemini then Base(Gemini) else Unconfigured)
    ensures var actual := ActualProvider(provider, defaultProvider);
      Requested(actual, av).None? && actual != "openai" ==> s == (if av.openAi then Base(OpenAi) else Unconfigured)
  {
    var actual := ActualProvider(provider, defaultProvider);
    match Requested(actual, av)
    case Some(v) => Base(v)
    case None =>
      match Fallback(actual, av)
      case Some(v) => Base(v)
      case None => Unconfigured
  }

  /** A name neither backend answers to goes to OpenAI when it is configured, even with Gemini present. */
  lemma UnknownNameFallsBackToOpenAi(name: string, defaultProvider: string, av: Availability)
    requires ToLower(name) != "openai" && ToLower(name) != "gemini" && av.openAi
    ensures GetService(Some(name), defaultProvider, av) == Base(OpenAi)
  {
  }

  /**
   * Exactly when the stand-in is handed out: OpenAI is missing and either
   * Gemini is missing too, or the name is neither exactly "openai" nor, in
   * any case, "gemini".
   */
  lemma UnconfiguredExactly(provider: Option<string>, defaultProvider: string, av: Availability)
    ensures var actual := ActualProvider(provider, defaultProvider);
      GetService(provider, defaultProvider, av) == Unconfigured
      <==> !av.openAi && (!av.gemini || (actual != "openai" && ToLower(actual) != "gemini"))
  {
    var actual := ActualProvider(provider, defaultProvider);
    ToLowerNoUpper(ProviderId(OpenAi));
    assert actual == "openai" ==> ToLower(actual) == ProviderId(OpenAi);
  }

  /** The two exact provider names always reach a vendor when one exists. */
  lemma ExactNameIsServed(provider: string, defaultProvider: string, av: Availability)
    requires provider == "openai" || provider == "gemini"
    requires av.openAi || av.gemini
    ensures GetService(Some(provider), defaultProvider, av).Base?
  {
    UnconfiguredExactly(Some(provider), defaultProvider, av);
    ToLowerNoUpper(ProviderId(Gemini));
  }

  /**
   * A name the factory does not know, or "OpenAI" spelled with capitals, never
   * falls back to Gemini: with only Gemini configured, the stand-in answers.
   */
  lemma OtherNamesNeverReachGemini(name: string, defaultProvider: string)
    requires name != "openai" && ToLower(name) != "gemini"
    ensures GetService(Some(name), defaultProvider, Availability(false, true)) == Unconfigured
  {
    UnconfiguredExactly(Some(name), defaultProvider, Availability(false, true));
  }

  /** A stored provider name in any case reaches the vendor it names, when that vendor exists. */
  lemma CaseInsensitiveRequest(name: string, defaultProvider: string, av: Availability, v: Vendor)
    requires EqualsIgnoreCase(name, ProviderId(v)) && Has(av, v)
    ensures GetService(Some(name), defaultProvider, av) == Base(v)
  {
    ToLowerNoUpper(ProviderId(v));
  }

  // ---------------------------------------------------------------------------
  // getService(UserProfile)
  // ---------------------------------------------------------------------------

  /**
   * `getModelName(UserProfile)`: the user's preferred model when it is set,
   * non-empty and one of the configured choices, else the configured model.
   */
  function PreferredModel(userModel: Option<string>, config: Settings.ProviderConfig): (r: string)
    ensures r == config.modelName || r in config.availableModels
    ensures r != config.modelName ==> userModel == Some(r)
    ensures userModel.Some? && userModel.value != [] && userModel.value in config.availableModels ==> r == userModel.value
  {
    if userModel.Some? && userModel.value != [] && userModel.value in config.availableModels then userModel.value
    else config.modelName
  }

  /** The profile's provider when set and non-empty, else the default. */
  function ProfileProvider(p: Profile, defaultProvider: string): (r: string)
    ensures IsPresent(p.preferredAiProvider) ==> r == p.preferredAiProvider.value
    ensures !IsPresent(p.preferredAiProvider) ==> r == defaultProvider
  {
    if p.preferredAiProvider.Some? && p.preferredAiProvider.value != [] then p.preferredAiProvider.value
    else defaultProvider
  }

  /**
   * `getService(UserProfile)`: an exact "openai" or "gemini" whose vendor
   * exists is wrapped to report the user's model; anything else goes through
   * `getService(String)`.
   */
  function GetServiceForProfile(p: Profile, defaultProvider: string, av: Availability,
                                openAiConfig: Settings.ProviderConfig, geminiConfig: Settings.ProviderConfig): (s: Service)
    ensures VendorOf(s) == VendorOf(GetService(Some(ProfileProvider(p, defaultProvider)), defaultProvider, av))
    ensures s.UserPreferred? ==> s.model == PreferredModel(if s.vendor == OpenAi then p.openaiPreferredModel else p.geminiPreferredModel,
                                                        if s.vendor == OpenAi then openAiConfig else geminiConfig)
    ensures ProfileProvider(p, defaultProvider) == "openai" && av.openAi ==>
      s == UserPreferred(OpenAi, PreferredModel(p.openaiPreferredModel, openAiConfig))
    ensures ProfileProvider(p, defaultProvider) == "gemini" && av.gemini ==>
      s == UserPreferred(Gemini, PreferredModel(p.geminiPreferredModel, geminiConfig))
    ensures s.UserPreferred? <==>
      (ProfileProvider(p, defaultProvider) == "openai" && av.openAi) || (ProfileProvider(p, defaultProvider) == "gemini" && av.gemini)
  {
    var actual := ProfileProvider(p, defaultProvider);
    ToLowerNoUpper(ProviderId(OpenAi));
    ToLowerNoUpper(ProviderId(Gemini));
    if actual == "openai" && av.openAi then
      assert ToLower(actual) == ProviderId(OpenAi);
      UserPreferred(OpenAi, PreferredModel(p.openaiPreferredModel, openAiConfig))
    else if actual == "gemini" && av.gemini then
      assert ToLower(actual) == ProviderId(Gemini);
      UserPreferred(Gemini, PreferredModel(p.geminiPreferredModel, geminiConfig))
    else GetService(Some(actual), defaultProvider, av)
  }

  // ---------------------------------------------------------------------------
  // The service operations
  // ---------------------------------------------------------------------------

  /**
   * What the present vendor services answer, and the model each was created
   * with. Their network calls are outside the model.
   */
  datatype Clients = Clients(
    translate: (Vendor, string, string) -> string,
    describeImage: (Vendor, string, string) -> string,
    generate: (Vendor, string) -> string,
    configuredModel: Vendor -> string)

  function Translate(s: Service, c: Clients, text: string, target: string): (r: string)
    ensures s.Unconfigured? ==> r == UnconfiguredTranslation
    ensures !s.Unconfigured? ==> r == c.translate(s.vendor, text, target)
  {
    if s.Unconfigured? then UnconfiguredTranslation else c.translate(s.vendor, text, target)
  }

  function ProcessImage(s: Service, c: Clients, prompt: string, imageUrl: string): (r: string)
    ensures s.Unconfigured? ==> r == UnconfiguredImage
    ensures !s.Unconfigured? ==> r == c.describeImage(s.vendor, prompt, imageUrl)
  {
    if s.Unconfigured? then UnconfiguredImage else c.describeImage(s.vendor, prompt, imageUrl)
  }

  function GenerateText(s: Service, c: Clients, prompt: string): (r: string)
    ensures s.Unconfigured? ==> r == UnconfiguredGeneration
    ensures !s.Unconfigured? ==> r == c.generate(s.vendor, prompt)
  {
    if s.Unconfigured? then UnconfiguredGeneration else c.generate(s.vendor, prompt)
  }

  function ProviderName(s: Service): (r: string)
    ensures s.Unconfigured? <==> r == "fallback"
  {
    if s.Unconfigured? then "fallback" else ProviderId(s.vendor)
  }

  function ModelName(s: Service, c: Clients): string
  {
    match s
    case Base(v) => c.configuredModel(v)
    case UserPreferred(_, model) => model
    case Unconfigured => "none"
  }

  /**
   * The user-preference wrapper changes only the reported model name: every
   * request still goes to the vendor service, which uses the model it was
   * created with.
   */
  lemma WrapperOnlyRenamesModel(v: Vendor, model: string, c: Clients, text: string, target: string, prompt: string, url: string)
    ensures Translate(UserPreferred(v, model), c, text, target) == Translate(Base(v), c, text, target)
    ensures ProcessImage(UserPreferred(v, model), c, prompt, url) == ProcessImage(Base(v), c, prompt, url)
    ensures GenerateText(UserPreferred(v, model), c, prompt) == GenerateText(Base(v), c, prompt)
    ensures ProviderName(UserPreferred(v, model)) == ProviderName(Base(v))
    ensures ModelName(UserPreferred(v, model), c) == model
  {
  }

  /**
   * Two profiles that differ only in their preferred models get the same
   * translation: the preference is reported, never used.
   */
  lemma PreferredModelNeverTranslates(p: Profile, q: Profile, defaultProvider: string, av: Availability,
                                      openAiConfig: Settings.ProviderConfig, geminiConfig: Settings.ProviderConfig,
                                      c: Clients, text: string, target: string)
    requires q == p.(openaiPreferredModel := q.openaiPreferredModel, geminiPreferredModel := q.geminiPreferredModel)
    ensures Translate(GetServiceForProfile(p, defaultProvider, av, openAiConfig, geminiConfig), c, text, target)
         == Translate(GetServiceForProfile(q, defaultProvider, av, openAiConfig, geminiConfig), c, text, target)
  {
    assert ProfileProvider(p, defaultProvider) == ProfileProvider(q, defaultProvider);
  }

  /** With no vendor configured every request is answered by the fixed texts, whatever the name. */
  lemma NothingConfiguredFailsClosed(provider: Option<string>, defaultProvider: string, c: Clients, text: string, target: string)
    ensures var s := GetService(provider, defaultProvider, Availability(false, false));
      && Translate(s, c, text, target) == UnconfiguredTranslation
      && GenerateText(s, c, text) == UnconfiguredGeneration
      && ProviderName(s) == "fallback"
      && ModelName(s, c) == "none"
  {
  }
}

=== FILE: bot_controller.dfy ===
/**
 * The LINE webhook's text handler: routing a message to a command, a quick
 * translation or an ordinary translation, the command dispatch with its
 * administrator gate, and the administrator sub-command dispatch.
 *
 * Replies that are pure formatting (help, about, the model list, the status
 * and profile reports, the language menu, the administrator reports) are
 * named by a `View` rather than spelled out.
 */
module BotController {
  import opened JavaString
  import opened UserProfiles
  import opened CommandSplit
  import LanguageUtils
  import AiServices
  import Admin
  import AdminCommands
  import T = Translation

  // ---------------------------------------------------------------------------
  // Routing
  // ---------------------------------------------------------------------------

  const QuickPrefixAscii := "快速翻譯:"
  const QuickPrefixWide := "快速翻譯："

  /** Where a text message goes, with what is left once the marker is taken off. */
  datatype Route = Command(body: string) | Quick(content: string) | Plain(text: string)

  /** `handleTextMessageEvent`: a leading "/" wins over the quick-translation prefixes, which win over plain text. */
  function RouteText(text: string): (r: Route)
    ensures r.Command? <==> StartsWith(text, "/")
    ensures r.Command? ==> text == "/" + r.body
    ensures r.Quick? ==> text == QuickPrefixAscii + r.content || text == QuickPrefixWide + r.content
    ensures r.Quick? <==> !StartsWith(text, "/") && (StartsWith(text, QuickPrefixAscii) || StartsWith(text, QuickPrefixWide))
    ensures r.Plain? ==> r.text == text
  {
    if StartsWith(text, "/") then
      assert text == "/" + text[1..];
      Command(text[1..])
    else if StartsWith(text, QuickPrefixAscii) then
      assert text == QuickPrefixAscii + text[|QuickPrefixAscii|..];
      Quick(text[|QuickPrefixAscii|..])
    else if StartsWith(text, QuickPrefixWide) then
      assert text == QuickPrefixWide + text[|QuickPrefixWide|..];
      Quick(text[|QuickPrefixWide|..])
    else Plain(text)
  }

  // ---------------------------------------------------------------------------
  // Quick translation
  // ---------------------------------------------------------------------------

  const QuickFormatError := "快速翻譯格式錯誤。正確格式：快速翻譯:[語言代碼] [文本]\n例如：快速翻譯:en 你好"

  /** What a quick-translation request asks for: nothing well-formed, an unsupported code, or a translation. */
  datatype QuickRequest = Malformed | Unsupported(code: string) | QuickCall(code: string, text: string)

  /**
   * `handleQuickTranslation`'s parsing: the content is trimmed and cut at its
   * first white space; the code and the text are each trimmed, and the code
   * must be supported.
   */
  function ParseQuick(content: string): (r: QuickRequest)
    ensures r.Malformed? <==> SplitOnWhitespace(Trim(content)).Whole?
    ensures r.Unsupported? ==> !LanguageUtils.IsSupported(Some(r.code))
    ensures r.QuickCall? ==> LanguageUtils.IsSupported(Some(r.code))
    ensures !r.Malformed? ==> r.code == Trim(SplitOnWhitespace(Trim(content)).head)
    ensures r.QuickCall? ==> r.text == Trim(SplitOnWhitespace(Trim(content)).rest)
  {
    match SplitOnWhitespace(Trim(content))
    case Whole(_) => Malformed
    case Pair(head, rest) =>
      var code := Trim(head);
      if !LanguageUtils.IsSupported(Some(code)) then Unsupported(code) else QuickCall(code, Trim(rest))
  }

  /** A well-formed quick request always carries some text: the trimmed content ends in a visible character. */
  lemma QuickTextNeverEmpty(content: string)
    requires SplitOnWhitespace(Trim(content)).Pair?
    ensures Trim(SplitOnWhitespace(Trim(content)).rest) != []
  {
    var t := Trim(content);
    TrimEnds(content);
    var rest := SplitOnWhitespace(t).rest;
    assert rest == t[|t| - |rest|..];
    assert t != [] && !IsTrimmed(t[|t| - 1]);
    assert !IsRegexSpace(t[|t| - 1]);
    assert rest != [];
    assert rest[|rest| - 1] == t[|t| - 1];
    TrimEmptyIff(rest);
  }

  // ---------------------------------------------------------------------------
  // Administrator sub-commands of "/admin"
  // ---------------------------------------------------------------------------

  /** What an administrator sub-command asks for. */
  datatype AdminAction =
    | AdminHelp
    | ConfirmAdmin
    | BroadcastUsage
    | Broadcast(message: string)
    | UserUsage
    | ShowUser(userId: string)
    | ShowConfig
    | UsageNotImplemented
    | TodayStats
    | UnknownAdmin(subCommand: string)

  /** The sub-commands the bot's administrator handler knows. */
  const BotSubCommands: set<string> := {"isadmin", "broadcast", "user", "config", "usage", "today"}

  /**
   * `handleAdminCommand`: an empty command asks for help; otherwise the
   * sub-command picks the action, and broadcast and user need a parameter.
   * There is no "stats" or "users" case here.
   */
  function AdminDispatch(command: string): (r: AdminAction)
    ensures command == [] <==> r == AdminHelp
    ensures r.UnknownAdmin? ==> r.subCommand == AdminCommands.AdminParts(command).0
    ensures r.Broadcast? ==> AdminCommands.AdminParts(command) == ("broadcast", r.message) && r.message != []
    ensures r.ShowUser? ==> AdminCommands.AdminParts(command) == ("user", r.userId) && r.userId != []
    ensures command != [] ==>
      var (sub, param) := AdminCommands.AdminParts(command);
      && (r == ConfirmAdmin <==> sub == "isadmin")
      && (r == BroadcastUsage <==> sub == "broadcast" && param == [])
      && (r.Broadcast? <==> sub == "broadcast" && param != [])
      && (r == UserUsage <==> sub == "user" && param == [])
      && (r.ShowUser? <==> sub == "user" && param != [])
      && (r == ShowConfig <==> sub == "config")
      && (r == UsageNotImplemented <==> sub == "usage")
      && (r == TodayStats <==> sub == "today")
      && (r.UnknownAdmin? <==> sub !in BotSubCommands)
  {
    if command == [] then AdminHelp
    else
      var (sub, param) := AdminCommands.AdminParts(command);
      if sub == "isadmin" then ConfirmAdmin
      else if sub == "broadcast" then (if param == [] then BroadcastUsage else Broadcast(param))
      else if sub == "user" then (if param == [] then UserUsage else ShowUser(param))
      else if sub == "config" then ShowConfig
      else if sub == "usage" then UsageNotImplemented
      else if sub == "today" then TodayStats
      else UnknownAdmin(sub)
  }

  /** A sub-command without spaces is the whole command, lower-cased. */
  lemma SpaceFreeSubCommand(command: string)
    requires ' ' !in ToLower(command)
    ensures AdminCommands.AdminParts(command) == (ToLower(command), "")
  {
    AdminCommands.LowerKeepsSpaces(command);
  }

  lemma FixedSubCommandsHaveNoSpaces()
    ensures ' ' !in "config" && ' ' !in "stats" && ' ' !in "users"
  {
  }

  /**
   * The statistics and user-list sub-commands that both help texts list are
   * reports for the stand-alone handler but unknown to the bot's.
   */
  lemma StatsAndUsersAreUnknown(admins: seq<string>, userId: string, command: string,
                                ids: seq<Option<string>>, profiles: T.Profiles)
    requires Admin.IsAdmin(admins, userId)
    requires ToLower(command) == "stats" || ToLower(command) == "users"
    ensures AdminDispatch(command) == UnknownAdmin(ToLower(command))
    ensures AdminCommands.HandleAdminCommand(admins, userId, command, ids, profiles).Shows?
  {
    FixedSubCommandsHaveNoSpaces();
    SpaceFreeSubCommand(command);
  }

  /** The configuration report the bot shows is "not implemented" in the stand-alone handler. */
  lemma ConfigOnlyInBot(admins: seq<string>, userId: string, command: string,
                        ids: seq<Option<string>>, profiles: T.Profiles)
    requires Admin.IsAdmin(admins, userId)
    requires ToLower(command) == "config"
    ensures AdminDispatch(command) == ShowConfig
    ensures AdminCommands.HandleAdminCommand(admins, userId, command, ids, profiles)
      == AdminCommands.Text(AdminCommands.ConfigNotImplemented)
  {
    FixedSubCommandsHaveNoSpaces();
    SpaceFreeSubCommand(command);
  }

  /** The sub-command is matched in any letter case; the parameter keeps its own. */
  lemma SubCommandCaseInsensitive(head: string, param: string)
    requires ' ' !in head && ToLower(head) == "broadcast" && param != []
    ensures AdminDispatch(head + " " + param) == Broadcast(param)
  {
    SpaceSplitOfJoin(head, param);
  }

  // ---------------------------------------------------------------------------
  // Replies
  // ---------------------------------------------------------------------------

  /** A reply made by formatting stored data or fixed menus. */
  datatype View =
    | HelpText
    | AboutText
    | ModelList
    | ProfileInfo
    | StatusReport
    | LanguageMenu
    | AdminReport(action: AdminAction)

  /** What the bot sends back: a text given here, or a formatted view. */
  datatype Outcome = Says(text: string) | Shows(view: View)

  /** The bot's administrator help: the stand-alone handler's text plus the "isadmin" line. */
  const BotAdminHelp := AdminCommands.AdminHelpText + "\n🔐 /admin isadmin - 檢查您是否是管理員"

  const UnknownCommand := "未知命令。發送 /help 獲取可用命令列表。"
  const SetAiUsage := "請指定 AI 提供者 (openai 或 gemini)。例如：/setai openai"
  const SetModelUsage := "請指定 AI 模型名稱。例如：/setmodel gpt-4o"
  const SetLangUsage := "請指定語言代碼或名稱。例如：/setlang en 或 /setlang 日文"
  const C2LangUsage := "請指定中文翻譯的預設目標語言。例如：/c2lang vi 或 /c2lang 越南文"

  /**
   * The reply to an administrator's sub-command: fixed texts are given, the
   * reports are views; a user who is not stored is reported missing.
   */
  function AdminOutcome(a: AdminAction, profiles: T.Profiles): (r: Outcome)
    ensures r.Shows? ==> a.Broadcast? || a.ShowUser? || a.ShowConfig? || a.TodayStats?
    ensures a.ShowUser? ==> (r.Shows? <==> a.userId in profiles)
    ensures r.Shows? ==> r.view == AdminReport(a)
    ensures a.Broadcast? || a.ShowConfig? || a.TodayStats? ==> r == Shows(AdminReport(a))
    ensures a.ShowUser? && a.userId in profiles ==> r == Shows(AdminReport(a))
    ensures a.ShowUser? && a.userId !in profiles ==> r == Says("找不到用戶: " + a.userId)
    ensures a == AdminHelp ==> r == Says(BotAdminHelp)
    ensures a == ConfirmAdmin ==> r == Says("您是管理員。")
    ensures a == BroadcastUsage ==> r == Says(AdminCommands.BroadcastUsage)
    ensures a == UserUsage ==> r == Says(AdminCommands.UserUsage)
    ensures a == UsageNotImplemented ==> r == Says(AdminCommands.UsageNotImplemented)
    ensures a.UnknownAdmin? ==> r == Says(AdminCommands.UnknownSubCommand(a.subCommand, BotAdminHelp))
  {
    match a
    case AdminHelp => Says(BotAdminHelp)
    case ConfirmAdmin => Says("您是管理員。")
    case BroadcastUsage => Says(AdminCommands.BroadcastUsage)
    case UserUsage => Says(AdminCommands.UserUsage)
    case UsageNotImplemented => Says(AdminCommands.UsageNotImplemented)
    case UnknownAdmin(sub) => Says(AdminCommands.UnknownSubCommand(sub, BotAdminHelp))
    case ShowUser(u) => if u in profiles then Shows(AdminReport(a)) else Says("找不到用戶: " + u)
    case _ => Shows(AdminReport(a))
  }

  // ---------------------------------------------------------------------------
  // Commands
  // ---------------------------------------------------------------------------

  /** The provider the stored profile names; a user without a stored profile has none. */
  function StoredProvider(m: T.Profiles, userId: string): Option<string>
  {
    if userId in m then m[userId].preferredAiProvider else None
  }

  /**
   * `handleSetModelCommand`: the stored provider (OpenAI when none) is set
   * again first, then the model. Setting the provider first means the model
   * setter always finds one, so its null-provider failure cannot happen here;
   * an unrecognised model goes to the OpenAI field exactly when no provider
   * or "openai" was stored.
   */
  function SetModelCommand(m: T.Profiles, userId: string, model: string): (r: (T.Profiles, T.Answer))
    ensures r.1.Says?
    ensures userId in r.0
    ensures T.ModelVendor(model).Some? ==>
      && r.0[userId].preferredAiProvider == Some(AiServices.ProviderId(T.ModelVendor(model).value))
      && T.PreferredModelOf(r.0[userId], T.ModelVendor(model).value) == Some(model)
    ensures T.ModelVendor(model).None? ==>
      var field := if StoredProvider(m, userId) == None || StoredProvider(m, userId) == Some("openai")
                   then AiServices.OpenAi else AiServices.Gemini;
      T.PreferredModelOf(r.0[userId], field) == Some(model)
    ensures T.Sound(m) ==> T.Sound(r.0)
    ensures T.OnlyTouches(m, r.0, userId)
  {
    var provider := if StoredProvider(m, userId).Some? then StoredProvider(m, userId).value else "openai";
    var m1 := T.SetPreferredProvider(m, userId, provider).0;
    ProviderStoredBeforeModel(m, userId, provider);
    T.SetPreferredModel(m1, userId, model)
  }

  /** After the provider step the profile exists and names a provider, the one stored or OpenAI. */
  lemma ProviderStoredBeforeModel(m: T.Profiles, userId: string, provider: string)
    requires provider == if StoredProvider(m, userId).Some? then StoredProvider(m, userId).value else "openai"
    ensures var m1 := T.SetPreferredProvider(m, userId, provider).0;
      && userId in m1
      && m1[userId].preferredAiProvider == Some(provider)
      && (m1[userId].preferredAiProvider == Some("openai") <==> StoredProvider(m, userId) == None || StoredProvider(m, userId) == Some("openai"))
      && T.OnlyTouches(m, m1, userId)
  {
    var m1 := T.SetPreferredProvider(m, userId, provider).0;
    if provider == "openai" || provider == "gemini" {
      T.EnsureThenReplaceOnlyTouches(m, userId, T.Ensure(m, userId)[userId].(preferredAiProvider := Some(provider)));
    } else {
      assert m1 == m;
    }
  }

  /** The command word: the part before the first white space, lower-cased. */
  function CommandName(body: string): string
  {
    var parts := SplitOnWhitespace(body);
    ToLower(if parts.Whole? then parts.text else parts.head)
  }

  /** The command's argument: everything after the first white-space run, when there is one. */
  function CommandArg(body: string): Option<string>
  {
    var parts := SplitOnWhitespace(body);
    if parts.Pair? then Some(parts.rest) else None
  }

  /** The cases `handleCommand` switches on, and its default branch. */
  datatype Command =
    | HelpCase | AboutCase | SetAiCase | SetModelCase | ModelsCase | SetLangCase
    | ProfileCase | StatusCase | LangCase | C2LangCase | AdminHelpCase | AdminCase
    | IsAdminCase | DefaultCase

  /** The case label of each command. */
  function Label(c: Command): string
  {
    match c
    case HelpCase => "help"
    case AboutCase => "about"
    case SetAiCase => "setai"
    case SetModelCase => "setmodel"
    case ModelsCase => "models"
    case SetLangCase => "setlang"
    case ProfileCase => "profile"
    case StatusCase => "status"
    case LangCase => "lang"
    case C2LangCase => "c2lang"
    case AdminHelpCase => "adminhelp"
    case AdminCase => "admin"
    case IsAdminCase => "isadmin"
    case DefaultCase => ""
  }

  /** Every label the switch knows. */
  const CommandNames: set<string> := {"help", "about", "setai", "setmodel", "models", "setlang", "profile",
                                      "status", "lang", "c2lang", "adminhelp", "admin", "isadmin"}

  /** The `switch`: the case whose label the word is, or the default. */
  function CommandOf(word: string): (c: Command)
    ensures c != DefaultCase ==> Label(c) == word
    ensures c == DefaultCase <==> word !in CommandNames
  {
    if word == "help" then HelpCase
    else if word == "about" then AboutCase
    else if word == "setai" then SetAiCase
    else if word == "setmodel" then SetModelCase
    else if word == "models" then ModelsCase
    else if word == "setlang" then SetLangCase
    else if word == "profile" then ProfileCase
    else if word == "status" then StatusCase
    else if word == "lang" then LangCase
    else if word == "c2lang" then C2LangCase
    else if word == "adminhelp" then AdminHelpCase
    else if word == "admin" then AdminCase
    else if word == "isadmin" then IsAdminCase
    else DefaultCase
  }

  /** The labels are distinct: each one selects its own case. */
  lemma LabelsSelectTheirCase(c: Command)
    ensures c != DefaultCase ==> CommandOf(Label(c)) == c
  {
    match c
    case HelpCase =>
    case AboutCase =>
    case SetAiCase =>
    case SetModelCase =>
    case ModelsCase =>
    case SetLangCase =>
    case ProfileCase =>
    case StatusCase =>
    case LangCase =>
    case C2LangCase =>
    case AdminHelpCase =>
    case AdminCase =>
    case IsAdminCase =>
    case DefaultCase =>
  }

  /** The setters, whose argument may be missing. */
  predicate IsSetter(c: Command)
  {
    c == SetAiCase || c == SetModelCase || c == SetLangCase || c == C2LangCase
  }

  /** The administrator cases. */
  predicate IsAdminGate(c: Command)
  {
    c == AdminHelpCase || c == AdminCase || c == IsAdminCase
  }

  /**
   * The setter cases: without an argument the usage is the reply and nothing
   * changes; with one, the argument (lower-cased for the provider, trimmed for
   * the model) goes to the service and its reply is the bot's.
   */
  function SetterReply(m: T.Profiles, userId: string, c: Command, arg: Option<string>): (r: (T.Profiles, Outcome))
    requires IsSetter(c)
    ensures T.Sound(m) ==> T.Sound(r.0)
    ensures T.OnlyTouches(m, r.0, userId)
    ensures r.1.Says?
    ensures arg.None? ==> r.0 == m
    ensures c == SetAiCase && arg.Some? ==>
      var out := T.SetPreferredProvider(m, userId, ToLower(arg.value));
      r == (out.0, Says(out.1))
    ensures c == SetLangCase && arg.Some? ==>
      var out := T.SetPreferredLanguage(m, userId, arg.value);
      r == (out.0, Says(out.1))
    ensures c == C2LangCase && arg.Some? ==>
      var out := T.SetPreferredChineseTargetLanguage(m, userId, arg.value);
      r == (out.0, Says(out.1))
    ensures c == SetModelCase && arg.Some? ==>
      var out := SetModelCommand(m, userId, Trim(arg.value));
      r == (out.0, Says(out.1.text))
  {
    match c
    case SetAiCase =>
      if arg.None? then (m, Says(SetAiUsage))
      else
        var (m1, reply) := T.SetPreferredProvider(m, userId, ToLower(arg.value));
        ProviderSetterOnlyTouches(m, userId, ToLower(arg.value));
        (m1, Says(reply))
    case SetModelCase =>
      if arg.None? then (m, Says(SetModelUsage))
      else
        var (m1, answer) := SetModelCommand(m, userId, Trim(arg.value));
        (m1, Says(answer.text))
    case SetLangCase =>
      if arg.None? then (m, Says(SetLangUsage))
      else
        var (m1, reply) := T.SetPreferredLanguage(m, userId, arg.value);
        LanguageSetterOnlyTouches(m, userId, arg.value);
        (m1, Says(reply))
    case C2LangCase =>
      if arg.None? then (m, Says(C2LangUsage))
      else
        var (m1, reply) := T.SetPreferredChineseTargetLanguage(m, userId, arg.value);
        ChineseTargetSetterOnlyTouches(m, userId, arg.value);
        (m1, Says(reply))
  }

  /**
   * The administrator cases, which change no profile: help and the check
   * answer by membership in the administrator list, and a sub-command (empty
   * when none is given) is carried out only for an administrator.
   */
  function AdminGateReply(m: T.Profiles, admins: seq<string>, userId: string, c: Command, arg: Option<string>): (r: Outcome)
    requires IsAdminGate(c)
    ensures c == AdminHelpCase ==> r == Says(if Admin.IsAdmin(admins, userId) then BotAdminHelp else AdminCommands.NoPermission)
    ensures c == IsAdminCase ==> r == Says(if Admin.IsAdmin(admins, userId) then "您是管理員。" else "您不是管理員。")
    ensures c == AdminCase && !Admin.IsAdmin(admins, userId) ==> r == Says(AdminCommands.NoPermission)
    ensures c == AdminCase && Admin.IsAdmin(admins, userId) ==>
      r == AdminOutcome(AdminDispatch(if arg.Some? then arg.value else ""), m)
    ensures !Admin.IsAdmin(admins, userId) ==> r.Says?
  {
    match c
    case AdminHelpCase => Says(if Admin.IsAdmin(admins, userId) then BotAdminHelp else AdminCommands.NoPermission)
    case AdminCase =>
      if Admin.IsAdmin(admins, userId) then AdminOutcome(AdminDispatch(if arg.Some? then arg.value else ""), m)
      else Says(AdminCommands.NoPermission)
    case IsAdminCase => Says(if Admin.IsAdmin(admins, userId) then "您是管理員。" else "您不是管理員。")
  }

  /**
   * The remaining cases: the help, about, model-list, profile, status and
   * language views, and the unknown-command reply. Only the status view
   * creates the sender's profile when it is missing.
   */
  function ViewReply(m: T.Profiles, userId: string, c: Command): (r: (T.Profiles, Outcome))
    requires !IsSetter(c) && !IsAdminGate(c)
    ensures T.Sound(m) ==> T.Sound(r.0)
    ensures T.OnlyTouches(m, r.0, userId)
    ensures c != StatusCase ==> r.0 == m
    ensures c == DefaultCase <==> r.1 == Says(UnknownCommand)
    ensures !(r.1.Shows? && r.1.view.AdminReport?)
  {
    match c
    case HelpCase => (m, Shows(HelpText))
    case AboutCase => (m, Shows(AboutText))
    case ModelsCase => (m, Shows(ModelList))
    case ProfileCase => (m, Shows(ProfileInfo))
    case StatusCase =>
      T.EnsureThenReplaceOnlyTouches(m, userId, T.Ensure(m, userId)[userId]);
      (T.Ensure(m, userId), Shows(StatusReport))
    case LangCase => (m, Shows(LanguageMenu))
    case DefaultCase => (m, Says(UnknownCommand))
  }

  /**
   * `handleCommand`: the text after "/" is cut at its first white space; the
   * lower-cased first piece names the command and the rest, when there is
   * one, is its argument. Setters and administrator commands are answered as
   * above; the rest are views or the unknown-command reply.
   */
  function HandleCommand(m: T.Profiles, admins: seq<string>, userId: string, body: string): (r: (T.Profiles, Outcome))
    ensures T.Sound(m) ==> T.Sound(r.0)
    ensures T.OnlyTouches(m, r.0, userId)
    ensures !Admin.IsAdmin(admins, userId) ==> !(r.1.Shows? && r.1.view.AdminReport?)
  {
    var c := CommandOf(CommandName(body));
    if IsSetter(c) then SetterReply(m, userId, c, CommandArg(body))
    else if IsAdminGate(c) then (m, AdminGateReply(m, admins, userId, c, CommandArg(body)))
    else ViewReply(m, userId, c)
  }

  /** A setter word goes to the setter, with the argument. */
  lemma SetterDispatch(m: T.Profiles, admins: seq<string>, userId: string, body: string)
    ensures var c := CommandOf(CommandName(body));
      IsSetter(c) ==> HandleCommand(m, admins, userId, body) == SetterReply(m, userId, c, CommandArg(body))
  {
  }

  /** An administrator word goes to the administrator gate and touches no profile. */
  lemma AdminGateDispatch(m: T.Profiles, admins: seq<string>, userId: string, body: string)
    ensures var c := CommandOf(CommandName(body));
      IsAdminGate(c) ==> HandleCommand(m, admins, userId, body) == (m, AdminGateReply(m, admins, userId, c, CommandArg(body)))
  {
    var c := CommandOf(CommandName(body));
    if IsAdminGate(c) {
      assert !IsSetter(c);
    }
  }

  /** A word the switch does not know gets the unknown-command reply and changes nothing. */
  lemma UnknownCommandAnswered(m: T.Profiles, admins: seq<string>, userId: string, body: string)
    ensures CommandName(body) !in CommandNames ==> HandleCommand(m, admins, userId, body) == (m, Says(UnknownCommand))
  {
    var c := CommandOf(CommandName(body));
    if c == DefaultCase {
      assert HandleCommand(m, admins, userId, body) == ViewReply(m, userId, c);
    }
  }

  /** A command typed as a word, a white-space run, and an argument that does not start with white space. */
  predicate CommandForm(word: string, sep: string, arg: string)
  {
    && (forall k :: 0 <= k < |word| ==> !IsRegexSpace(word[k]))
    && sep != [] && (forall k :: 0 <= k < |sep| ==> IsRegexSpace(sep[k]))
    && (arg == [] || !IsRegexSpace(arg[0]))
  }

  /** A word, a white-space run and an argument split back into the lower-cased word and the argument. */
  lemma CommandOfJoin(word: string, sep: string, arg: string)
    requires CommandForm(word, sep, arg)
    ensures CommandName(word + sep + arg) == ToLower(word) && CommandArg(word + sep + arg) == Some(arg)
  {
    WhitespaceSplitOfJoin(word, sep, arg);
  }

  /** The word "setlang", in any letter case, selects the language setter with the argument. */
  lemma SetLangSelected(word: string, sep: string, arg: string)
    requires CommandForm(word, sep, arg)
    requires ToLower(word) == "setlang"
    ensures CommandOf(CommandName(word + sep + arg)) == SetLangCase && CommandArg(word + sep + arg) == Some(arg)
  {
    CommandOfJoin(word, sep, arg);
    LabelsSelectTheirCase(SetLangCase);
  }

  /**
   * A command typed with its word in any letter case and any white space
   * before its argument sets the preferred language from that argument.
   */
  lemma SetLangInAnyCase(m: T.Profiles, admins: seq<string>, userId: string, word: string, sep: string, language: string)
    requires CommandForm(word, sep, language)
    requires ToLower(word) == "setlang"
    ensures HandleCommand(m, admins, userId, word + sep + language)
      == (T.SetPreferredLanguage(m, userId, language).0, Says(T.SetPreferredLanguage(m, userId, language).1))
  {
    var body := word + sep + language;
    SetLangSelected(word, sep, language);
    SetterDispatch(m, admins, userId, body);
  }

  /** The provider setter a command forwards to touches the sender's profile alone. */
  lemma ProviderSetterOnlyTouches(m: T.Profiles, userId: string, provider: string)
    ensures T.OnlyTouches(m, T.SetPreferredProvider(m, userId, provider).0, userId)
  {
    var p := T.Ensure(m, userId)[userId];
    T.EnsureThenReplaceOnlyTouches(m, userId, p.(preferredAiProvider := Some(provider)));
  }

  /** So does the preferred-language setter. */
  lemma LanguageSetterOnlyTouches(m: T.Profiles, userId: string, language: string)
    ensures T.OnlyTouches(m, T.SetPreferredLanguage(m, userId, language).0, userId)
  {
    var p := T.Ensure(m, userId)[userId];
    var code := LanguageUtils.ToLanguageCode(Some(language));
    T.EnsureThenReplaceOnlyTouches(m, userId, p.(preferredLanguage := Some(code)));
  }

  /** So does the Chinese-target setter. */
  lemma ChineseTargetSetterOnlyTouches(m: T.Profiles, userId: string, language: string)
    ensures T.OnlyTouches(m, T.SetPreferredChineseTargetLanguage(m, userId, language).0, userId)
  {
    var p := T.Ensure(m, userId)[userId];
    var code := LanguageUtils.ToLanguageCode(Some(language));
    T.EnsureThenReplaceOnlyTouches(m, userId, p.(preferredChineseTargetLanguage := Some(code)));
  }

  // ---------------------------------------------------------------------------
  // Text messages
  // ---------------------------------------------------------------------------

  /** The reply to a quick request whose code is not supported. */
  function QuickUnsupported(code: string): string
  {
    "不支持的語言代碼：" + code + "\n請使用有效的語言代碼，例如：en, ja, zh-tw 等"
  }

  /**
   * A "!" message: a malformed or unsupported request is answered with the
   * matching error and changes nothing; a well-formed one is translated into
   * the code given, leaves one record of its text, and the translation alone
   * is the reply.
   */
  function QuickReply(s: T.State, env: T.Env, userId: string, content: string): (r: (T.State, Outcome))
    ensures T.Sound(s.profiles) ==> T.Sound(r.0.profiles)
    ensures T.OnlyTouches(s.profiles, r.0.profiles, userId)
    ensures |s.records| <= |r.0.records| <= |s.records| + 1 && r.0.records[..|s.records|] == s.records
    ensures !ParseQuick(content).QuickCall? ==> r.0 == s && r.1.Says?
    ensures ParseQuick(content).QuickCall? ==>
      && |r.0.records| == |s.records| + 1
      && r.0.records[|s.records|].sourceText == ParseQuick(content).text
      && r.0.records[|s.records|].targetLanguage == LanguageUtils.ToLanguageCode(Some(ParseQuick(content).code))
      && r.1 == Says(r.0.records[|s.records|].translatedText)
  {
    QuickAnswer(s, env, userId, ParseQuick(content))
  }

  /** The answer to a parsed quick request: its error, or one record of its text answered with the bare translation. */
  function QuickAnswer(s: T.State, env: T.Env, userId: string, q: QuickRequest): (r: (T.State, Outcome))
    requires q.QuickCall? ==> LanguageUtils.IsSupported(Some(q.code))
    ensures T.Sound(s.profiles) ==> T.Sound(r.0.profiles)
    ensures T.OnlyTouches(s.profiles, r.0.profiles, userId)
    ensures |s.records| <= |r.0.records| <= |s.records| + 1 && r.0.records[..|s.records|] == s.records
    ensures !q.QuickCall? ==> r.0 == s && r.1 == Says(if q.Malformed? then QuickFormatError else QuickUnsupported(q.code))
    ensures q.QuickCall? ==>
      && |r.0.records| == |s.records| + 1
      && r.0.records[|s.records|].sourceText == q.text
      && r.0.records[|s.records|].targetLanguage == LanguageUtils.ToLanguageCode(Some(q.code))
      && r.1 == Says(r.0.records[|s.records|].translatedText)
  {
    if !q.QuickCall? then
      assert s.records[..|s.records|] == s.records;
      (s, Says(if q.Malformed? then QuickFormatError else QuickUnsupported(q.code)))
    else
      var out := T.QuickTranslate(s, env, userId, q.text, q.code);
      (out.0, Says(out.1))
  }


  /**
   * `handleTextMessageEvent`: a command, a quick translation, or an ordinary
   * translation request. Commands never translate; a malformed or
   * unsupported quick request changes nothing; every path keeps the stored
   * records as a prefix and touches the sender's profile alone.
   */
  function HandleTextMessage(s: T.State, env: T.Env, admins: seq<string>, userId: string, text: string): (r: (T.State, Outcome))
    ensures T.Sound(s.profiles) ==> T.Sound(r.0.profiles)
    ensures T.OnlyTouches(s.profiles, r.0.profiles, userId)
    ensures |s.records| <= |r.0.records| <= |s.records| + 1 && r.0.records[..|s.records|] == s.records
    ensures StartsWith(text, "/") ==> r.0.records == s.records
    ensures RouteText(text).Quick? && !ParseQuick(RouteText(text).content).QuickCall? ==> r.0 == s && r.1.Says?
    ensures RouteText(text).Quick? && ParseQuick(RouteText(text).content).QuickCall? ==>
      && |r.0.records| == |s.records| + 1
      && r.0.records[|s.records|].sourceText == ParseQuick(RouteText(text).content).text
      && r.1 == Says(r.0.records[|s.records|].translatedText)
  {
    match RouteText(text)
    case Command(body) =>
      var (m, outcome) := HandleCommand(s.profiles, admins, userId, body);
      (T.State(m, s.records), outcome)
    case Quick(content) => QuickReply(s, env, userId, content)
    case Plain(t) =>
      var (s1, reply) := T.ProcessTranslationRequest(s, env, userId, t);
      assert s1.records[..|s.records|] == s.records;
      (s1, Says(reply))
  }

  /** A text starting with "/" is a command without its slash; the translation records stay as they were. */
  lemma CommandTextIsHandled(s: T.State, env: T.Env, admins: seq<string>, userId: string, text: string)
    requires StartsWith(text, "/")
    ensures var handled := HandleCommand(s.profiles, admins, userId, text[1..]);
      HandleTextMessage(s, env, admins, userId, text) == (T.State(handled.0, s.records), handled.1)
  {
  }

  /** A text with a quick-translation prefix and no leading "/" is answered by the quick translation of the rest. */
  lemma QuickTextIsQuickTranslated(s: T.State, env: T.Env, admins: seq<string>, userId: string, text: string, prefix: string)
    requires prefix == QuickPrefixAscii || prefix == QuickPrefixWide
    requires !StartsWith(text, "/") && StartsWith(text, prefix)
    ensures HandleTextMessage(s, env, admins, userId, text) == QuickReply(s, env, userId, text[|prefix|..])
  {
  }

  /** Any other text goes whole to the translation request, whose reply is sent back. */
  lemma PlainTextIsTranslated(s: T.State, env: T.Env, admins: seq<string>, userId: string, text: string)
    requires !StartsWith(text, "/") && !StartsWith(text, QuickPrefixAscii) && !StartsWith(text, QuickPrefixWide)
    ensures var translated := T.ProcessTranslationRequest(s, env, userId, text);
      HandleTextMessage(s, env, admins, userId, text) == (translated.0, Says(translated.1))
  {
  }
}

=== FILE: command_split.dfy ===
/**
 * The two ways the controllers cut a command in two: `split("\\s+", 2)`,
 * which cuts at the first run of regular-expression white space, and
 * `split(" ", 2)`, which cuts at the first single space. Both keep a leading
 * empty piece when the input starts with a separator, and neither cuts an
 * input without one.
 */
module CommandSplit {
  import opened JavaString

  /** The pieces of a split with limit 2: the whole input, or the text before the first separator and everything after it. */
  datatype Split = Whole(text: string) | Pair(head: string, rest: string)

  /** The first position holding a character that satisfies `p`, or `|s|` when none does. */
  function FirstWhere(s: string, p: char -> bool): (r: nat)
    ensures r <= |s|
    ensures forall k :: 0 <= k < r ==> !p(s[k])
    ensures r < |s| ==> p(s[r])
  {
    if s == [] then 0
    else if p(s[0]) then 0
    else 1 + FirstWhere(s[1..], p)
  }

  predicate NotRegexSpace(c: char)
  {
    !IsRegexSpace(c)
  }

  /**
   * `s.split("\\s+", 2)`: no white space leaves the input whole; otherwise
   * the head is the text before the first white space, and the rest begins
   * after the whole run of white space that starts there.
   */
  function SplitOnWhitespace(s: string): (r: Split)
    ensures r.Whole? <==> forall k :: 0 <= k < |s| ==> !IsRegexSpace(s[k])
    ensures r.Whole? ==> r.text == s
    ensures r.Pair? ==>
      && |r.head| + |r.rest| < |s|
      && s[..|r.head|] == r.head && s[|s| - |r.rest|..] == r.rest
      && (forall k :: |r.head| <= k < |s| - |r.rest| ==> IsRegexSpace(s[k]))
      && (forall k :: 0 <= k < |r.head| ==> !IsRegexSpace(r.head[k]))
      && (r.rest == [] || !IsRegexSpace(r.rest[0]))
  {
    var i := FirstWhere(s, IsRegexSpace);
    if i == |s| then Whole(s)
    else
      var j := i + FirstWhere(s[i..], NotRegexSpace);
      assert forall k :: i <= k < j ==> IsRegexSpace(s[k]) by {
        forall k | i <= k < j ensures IsRegexSpace(s[k]) {
          assert s[k] == s[i..][k - i];
        }
      }
      Pair(s[..i], s[j..])
  }

  /** The pieces of a white-space split put back together around the separator run they came from. */
  lemma WhitespaceSplitRoundTrip(s: string)
    ensures var r := SplitOnWhitespace(s);
      r.Pair? ==> s == r.head + s[|r.head|..|s| - |r.rest|] + r.rest
  {
    var r := SplitOnWhitespace(s);
    if r.Pair? {
      assert s == s[..|r.head|] + s[|r.head|..|s| - |r.rest|] + s[|s| - |r.rest|..];
    }
  }

  /**
   * A head followed by a separator run and a rest that does not start with
   * white space is split back into exactly that head and rest.
   */
  lemma WhitespaceSplitOfJoin(head: string, sep: string, rest: string)
    requires forall k :: 0 <= k < |head| ==> !IsRegexSpace(head[k])
    requires sep != [] && forall k :: 0 <= k < |sep| ==> IsRegexSpace(sep[k])
    requires rest == [] || !IsRegexSpace(rest[0])
    ensures SplitOnWhitespace(head + sep + rest) == Pair(head, rest)
  {
    var s := head + sep + rest;
    var i := FirstWhere(s, IsRegexSpace);
    assert s[|head|] == sep[0];
    assert i == |head|;
    var t := s[i..];
    assert t == sep + rest;
    assert forall k :: 0 <= k < |sep| ==> t[k] == sep[k];
    assert rest != [] ==> t[|sep|] == rest[0];
    var n := FirstWhere(t, NotRegexSpace);
    assert n == |sep|;
    assert s[..i] == head;
    assert s[i + n..] == rest;
  }

  predicate IsSpaceChar(c: char)
  {
    c == ' '
  }

  /** `s.split(" ", 2)`: cut at the first single space, which is dropped; further spaces stay in the rest. */
  function SplitOnSpace(s: string): (r: Split)
    ensures r.Whole? <==> ' ' !in s
    ensures r.Whole? ==> r.text == s
    ensures r.Pair? ==> s == r.head + " " + r.rest && ' ' !in r.head
  {
    var i := FirstWhere(s, IsSpaceChar);
    if i == |s| then Whole(s)
    else
      assert s == s[..i] + " " + s[i + 1..];
      assert forall c :: c in s[..i] ==> c != ' ';
      Pair(s[..i], s[i + 1..])
  }

  /** A space-free head, a space and any rest are split back into exactly that head and rest. */
  lemma SpaceSplitOfJoin(head: string, rest: string)
    requires ' ' !in head
    ensures SplitOnSpace(head + " " + rest) == Pair(head, rest)
  {
    var s := head + " " + rest;
    assert s[|head|] == ' ';
    assert forall k :: 0 <= k < |head| ==> s[k] == head[k];
    assert FirstWhere(s, IsSpaceChar) == |head|;
    assert s[..|head|] == head && s[|head| + 1..] == rest;
  }
}

=== FILE: config.dfy ===
/**
 * The configuration records the services read: the application settings and
 * the per-vendor settings. Each is a plain immutable record; the administrator
 * setters produce an updated copy instead of writing a field by reflection.
 */
module Settings {

  /** `AppConfig`: default targets, the OCR switch and the default AI provider name. */
  datatype AppConfig = AppConfig(
    defaultTargetLanguageForChinese: string,
    defaultTargetLanguageForOthers: string,
    ocrEnabled: bool,
    defaultAiProvider: string)

  /**
   * `OpenAiConfig` / `GeminiConfig`: the configured model name and the list of
   * models a user or administrator may choose from.
   */
  datatype ProviderConfig = ProviderConfig(modelName: string, availableModels: seq<string>)
}

=== FILE: gemini.dfy ===
/**
 * The Gemini service: how it builds its three requests (translation, image
 * description, free generation), and how it turns the HTTP outcome into the
 * single string every call returns. It never throws for vendor trouble: a
 * failed status, an unreadable body or an I/O failure becomes a text that
 * starts with the operation's failure prefix. The one exception that escapes
 * is the out-of-range index in the data-URL split of `processImage`.
 */
module Gemini {
  import opened JavaString

  // ---------------------------------------------------------------------------
  // JSON trees, as Jackson's `JsonNode`
  // ---------------------------------------------------------------------------

  /**
   * A parsed JSON value. `Missing` is Jackson's missing node, what `path`
   * answers for an absent field; numbers are carried as their text.
   */
  datatype Json =
    | Missing
    | Null
    | Bool(b: bool)
    | Number(text: string)
    | Text(s: string)
    | Array(items: seq<Json>)
    | Object(fields: map<string, Json>)

  /** `node.path(name)`: the field of an object, else the missing node. */
  function Path(node: Json, name: string): (r: Json)
    ensures !node.Object? ==> r == Missing
    ensures node.Object? && name !in node.fields ==> r == Missing
  {
    if node.Object? && name in node.fields then node.fields[name] else Missing
  }

  /** `node.asText()`: text for scalar nodes, "" for containers and the missing node. */
  function AsText(node: Json): (r: string)
    ensures node.Text? ==> r == node.s
    ensures node.Missing? || node.Array? || node.Object? ==> r == []
  {
    match node
    case Missing => ""
    case Null => "null"
    case Bool(b) => if b then "true" else "false"
    case Number(t) => t
    case Text(s) => s
    case Array(_) => ""
    case Object(_) => ""
  }

  /**
   * The reply text: `candidates[0].content.parts[0].text`, when `candidates`
   * and `parts` are non-empty arrays; absent otherwise.
   */
  function ExtractText(reply: Json): Option<string>
  {
    var candidates := Path(reply, "candidates");
    if candidates.Array? && |candidates.items| > 0 then
      var parts := Path(Path(candidates.items[0], "content"), "parts");
      if parts.Array? && |parts.items| > 0 then Some(AsText(Path(parts.items[0], "text")))
      else None
    else None
  }

  /** The smallest reply that carries `text` as its one candidate's one part. */
  function ReplyCarrying(text: string): Json
  {
    Object(map["candidates" := Array([Object(map["content" := Object(map["parts" := Array([Object(map["text" := Text(text)])])])])])])
  }

  /** What `ExtractText` reads is what the reply carries. */
  lemma ExtractReadsCarriedText(text: string)
    ensures ExtractText(ReplyCarrying(text)) == Some(text)
  {
  }

  /** Only the first candidate and its first part are read; the rest of the reply is ignored. */
  lemma ExtractReadsFirstOnly(first: Json, others: seq<Json>, extra: map<string, Json>)
    requires "candidates" !in extra
    ensures ExtractText(Object(extra["candidates" := Array([first] + others)]))
         == ExtractText(Object(map["candidates" := Array([first])]))
  {
  }

  // ---------------------------------------------------------------------------
  // Requests
  // ---------------------------------------------------------------------------

  /** The generation settings of a request; decimals are written out as Jackson renders them. */
  datatype GenerationConfig = GenerationConfig(temperature: string, topK: nat, topP: string, maxOutputTokens: nat)

  const TranslationSettings := GenerationConfig("0.2", 40, "0.95", 1024)
  const ImageSettings := GenerationConfig("0.1", 32, "0.95", 1024)
  const GenerationSettings := GenerationConfig("0.7", 40, "0.95", 1024)

  /** The two halves of the translation prompt around the target language. */
  const PromptLead := "請將以下文本翻譯成"
  const PromptTrail := "。只需返回翻譯結果，不要添加任何解釋或額外信息：\n\n"

  /** The translation prompt: the instruction naming the target, a blank line, then the text. */
  function TranslationPrompt(text: string, target: string): (prompt: string)
    ensures StartsWith(prompt, PromptLead)
    ensures |prompt| == |PromptLead| + |target| + |PromptTrail| + |text|
    ensures prompt[|PromptLead|..|PromptLead| + |target|] == target
    ensures prompt[|PromptLead| + |target| + |PromptTrail|..] == text
  {
    PromptLead + target + PromptTrail + text
  }

  /** Different texts or targets make different prompts: the prompt loses nothing. */
  lemma TranslationPromptInjective(text1: string, target1: string, text2: string, target2: string)
    requires |target1| == |target2|
    requires TranslationPrompt(text1, target1) == TranslationPrompt(text2, target2)
    ensures text1 == text2 && target1 == target2
  {
    var p := TranslationPrompt(text1, target1);
    assert target1 == p[|PromptLead|..|PromptLead| + |target1|] == target2;
    assert text1 == p[|PromptLead| + |target1| + |PromptTrail|..] == text2;
  }

  /** The request body: one content with the given parts, and the generation settings. */
  function RequestBody(parts: seq<Json>, config: GenerationConfig): Json
  {
    Object(map[
      "contents" := Array([Object(map["parts" := Array(parts)])]),
      "generationConfig" := Object(map[
        "temperature" := Number(config.temperature),
        "topK" := Number(NatToString(config.topK)),
        "topP" := Number(config.topP),
        "maxOutputTokens" := Number(NatToString(config.maxOutputTokens))])])
  }

  /** The prompt a request body carries in its first part. */
  function SentPrompt(body: Json): Option<string>
  {
    var contents := Path(body, "contents");
    if contents.Array? && |contents.items| > 0 then
      var parts := Path(contents.items[0], "parts");
      if parts.Array? && |parts.items| > 0 then Some(AsText(Path(parts.items[0], "text")))
      else None
    else None
  }

  function TextPart(text: string): Json
  {
    Object(map["text" := Text(text)])
  }

  /** The image part: the payload cut out of the data URL, declared as JPEG. */
  function ImagePart(payload: string): Json
  {
    Object(map["inlineData" := Object(map["data" := Text(payload), "mimeType" := Text("image/jpeg")])])
  }

  /** The translation request carries exactly the translation prompt. */
  lemma TranslationRequestCarriesPrompt(text: string, target: string)
    ensures SentPrompt(RequestBody([TextPart(TranslationPrompt(text, target))], TranslationSettings))
         == Some(TranslationPrompt(text, target))
  {
  }

  /** The image request sends the caller's prompt first and the picture second. */
  lemma ImageRequestCarriesPrompt(prompt: string, payload: string)
    ensures SentPrompt(RequestBody([TextPart(prompt), ImagePart(payload)], ImageSettings)) == Some(prompt)
  {
  }

  /** The endpoint: the model name and the key are spliced into the URL. */
  function Endpoint(model: string, apiKey: string): string
  {
    "https://generativelanguage.googleapis.com/v1beta/models/" + model + ":generateContent?key=" + apiKey
  }

  // ---------------------------------------------------------------------------
  // Replies
  // ---------------------------------------------------------------------------

  /** The body of an answered request: a parsed tree, or a parse failure with its message. */
  datatype Body = Parsed(tree: Json) | Unparsable(message: string)

  /**
   * How the HTTP exchange ended: a status and a body, or an I/O failure with
   * its message (`getMessage()`, written "null" when it has none).
   */
  datatype HttpOutcome = Answered(status: nat, body: Body) | IoFailure(message: string)

  predicate IsSuccessful(status: nat)
  {
    200 <= status < 300
  }

  /** The failure prefixes of the three operations. */
  const TranslationFailed := "翻譯失敗"
  const ImageFailed := "圖片處理失敗"
  const GenerationFailed := "文本生成失敗"

  function Failure(prefix: string, detail: string): string
  {
    prefix + ": " + detail
  }

  /**
   * The shared tail of `translateText`, `processImage` and `generateText`:
   * a non-2xx status names its code, an unreadable reply says so, an I/O or
   * parse failure passes its message on, and a readable reply is trimmed.
   */
  function Reply(prefix: string, outcome: HttpOutcome): (r: string)
    ensures outcome.Answered? && IsSuccessful(outcome.status) && outcome.body.Parsed? && ExtractText(outcome.body.tree).Some?
            ==> r == Trim(ExtractText(outcome.body.tree).value)
    ensures outcome.Answered? && !IsSuccessful(outcome.status) ==> r == Failure(prefix, "Gemini API 請求錯誤 " + NatToString(outcome.status))
    ensures outcome.IoFailure? ==> r == Failure(prefix, outcome.message)
    ensures outcome.Answered? && IsSuccessful(outcome.status) && outcome.body.Unparsable?
            ==> r == Failure(prefix, outcome.body.message)
    ensures outcome.Answered? && IsSuccessful(outcome.status) && outcome.body.Parsed? && ExtractText(outcome.body.tree).None?
            ==> r == Failure(prefix, "無法解析回應")
    ensures !(outcome.Answered? && IsSuccessful(outcome.status) && outcome.body.Parsed? && ExtractText(outcome.body.tree).Some?)
            ==> StartsWith(r, prefix + ": ")
  {
    match outcome
    case IoFailure(message) => Failure(prefix, message)
    case Answered(status, body) =>
      if !IsSuccessful(status) then Failure(prefix, "Gemini API 請求錯誤 " + NatToString(status))
      else match body
        case Unparsable(message) => Failure(prefix, message)
        case Parsed(tree) =>
          match ExtractText(tree)
          case Some(text) => Trim(text)
          case None => Failure(prefix, "無法解析回應")
  }

  /** A successful reply carrying a text yields that text, trimmed: the request-reply round trip. */
  lemma ReplyRoundTrip(prefix: string, status: nat, text: string)
    requires IsSuccessful(status)
    ensures Reply(prefix, Answered(status, Parsed(ReplyCarrying(text)))) == Trim(text)
  {
    ExtractReadsCarriedText(text);
  }

  /** A reply never carries surrounding white space, whatever the vendor sends. */
  lemma SuccessfulReplyIsTrimmed(prefix: string, status: nat, tree: Json)
    requires IsSuccessful(status) && ExtractText(tree).Some?
    ensures var r := Reply(prefix, Answered(status, Parsed(tree)));
      r == [] || (!IsTrimmed(r[0]) && !IsTrimmed(r[|r| - 1]))
  {
    var r := Reply(prefix, Answered(status, Parsed(tree)));
    TrimIdempotent(ExtractText(tree).value);
    TrimEnds(r);
  }

  // ---------------------------------------------------------------------------
  // The data-URL split of processImage
  // ---------------------------------------------------------------------------

  const Base64Marker := ";base64,"

  /**
   * Whether `s` is the marker repeated zero or more times: exactly the texts
   * that `split` turns entirely into trailing empty strings.
   */
  predicate OnlyMarkers(s: string)
    decreases |s|
  {
    s == [] || (StartsWith(s, Base64Marker) && OnlyMarkers(s[|Base64Marker|..]))
  }

  /** The text up to the first marker, or all of it. */
  function FirstPiece(s: string): (r: string)
    ensures r <= s && !Contains(r, Base64Marker)
  {
    match IndexOf(s, Base64Marker)
    case Some(i) =>
      assert forall j :: 0 <= j <= i ==> (OccursAt(s[..i], j, Base64Marker) ==> OccursAt(s, j, Base64Marker));
      s[..i]
    case None =>
      assert forall j :: 0 <= j <= |s| ==> !OccursAt(s, j, Base64Marker);
      s
  }

  /**
   * `imageUrl.contains(";base64,") ? imageUrl.split(";base64,")[1] : imageUrl`.
   * Java's split drops trailing empty pieces, so when nothing but markers
   * follows the first one there is no second piece and the index throws:
   * that case is `None`.
   */
  function Base64Payload(url: string): (r: Option<string>)
    ensures !Contains(url, Base64Marker) ==> r == Some(url)
    ensures r.Some? && Contains(url, Base64Marker) ==> !Contains(r.value, Base64Marker)
  {
    match IndexOf(url, Base64Marker)
    case None => Some(url)
    case Some(i) =>
      var rest := url[i + |Base64Marker|..];
      if OnlyMarkers(rest) then None else Some(FirstPiece(rest))
  }

  /** A data URL with one marker and a non-empty payload yields the payload. */
  lemma DataUrlPayload(header: string, payload: string)
    requires !Contains(header, Base64Marker) && !Contains(payload, Base64Marker) && payload != []
    ensures Base64Payload(header + Base64Marker + payload) == Some(payload)
  {
    var url := header + Base64Marker + payload;
    FirstMarkerAfterHeader(header, payload);
    assert url[|header| + |Base64Marker|..] == payload;
    assert !OnlyMarkers(payload) by {
      if StartsWith(payload, Base64Marker) {
        assert OccursAt(payload, 0, Base64Marker);
      }
    }
    assert FirstPiece(payload) == payload by {
      assert IndexOf(payload, Base64Marker).None?;
    }
  }

  /** A data URL whose payload is empty makes `processImage` throw. */
  lemma EmptyPayloadThrows(header: string)
    requires !Contains(header, Base64Marker)
    ensures Base64Payload(header + Base64Marker) == None
  {
    var url := header + Base64Marker;
    FirstMarkerAfterHeader(header, []);
    assert url + [] == url;
    assert url[|header| + |Base64Marker|..] == [];
  }

  /**
   * The first marker of `header + marker + payload` is the one after the
   * header: an earlier one would end inside the marker, yet the marker's
   * closing ',' appears nowhere else in it.
   */
  lemma FirstMarkerAfterHeader(header: string, payload: string)
    requires !Contains(header, Base64Marker)
    ensures IndexOf(header + Base64Marker + payload, Base64Marker) == Some(|header|)
  {
    var url := header + Base64Marker + payload;
    assert url[|header|..|header| + |Base64Marker|] == Base64Marker;
    assert OccursAt(url, |header|, Base64Marker);
    forall i | 0 <= i < |header|
      ensures !OccursAt(url, i, Base64Marker)
    {
      NoMarkerInsideHeader(header, payload, i);
    }
  }

  lemma NoMarkerInsideHeader(header: string, payload: string, i: nat)
    requires !Contains(header, Base64Marker) && i < |header|
    ensures !OccursAt(header + Base64Marker + payload, i, Base64Marker)
  {
    var url := header + Base64Marker + payload;
    var m := Base64Marker;
    if i + |m| <= |header| {
      assert url[i..i + |m|] == header[i..i + |m|];
      assert !OccursAt(header, i, m);
    } else {
      var q := i + |m| - 1;
      assert url[q] == m[q - |header|];
      assert m[q - |header|] != m[|m| - 1];
    }
  }
}

=== FILE: image_translation.dfy ===
/**
 * Image translation: the picture a user sends is downloaded and stored, its
 * text is recognised (by the OCR service when one is wired in, else by the
 * user's AI backend), and the text is translated like a message, with its own
 * rule for the default target.
 *
 * The download from LINE and the upload to object storage are one given
 * outcome; the OCR service's answer is a function of the encoded image.
 */
module ImageTranslation {
  import opened JavaString
  import opened UserProfiles
  import LanguageUtils
  import AiServices
  import Settings
  import T = Translation

  /** The picture fetched and stored, or the message of the exception that stopped it. */
  datatype Download = Downloaded(base64: string, imageUrl: string) | DownloadFailed(message: string)

  /** What a recogniser gave back: a text (`None` for Java's null), or the message of its exception. */
  datatype Recognition = Recognized(text: Option<string>) | RecognitionFailed(message: string)

  const OcrDisabled := "OCR 功能目前已停用。請稍後再試。"
  const NoTextFound := "未能識別到圖片中的文字。請確保圖片中包含清晰可見的文字。"
  const RecognitionPrompt := "請識別這張圖片中的所有文字，只返回文字內容，不要添加任何其他描述或解釋。"
  const JpegDataUrlHead := "data:image/jpeg;base64,"

  /**
   * Step one: recognise the picture's text. With an OCR service the service
   * reads the image; without one the user's AI backend is asked to describe
   * it as a JPEG data URL. Any failure is reported with the image-processing prefix.
   */
  function Recognize(download: Download, ocr: Option<string -> Recognition>, service: AiServices.Service,
                     clients: AiServices.Clients): (r: Recognition)
    ensures download.DownloadFailed? ==> r == RecognitionFailed(download.message)
    ensures download.Downloaded? && ocr.None? ==>
      r == Recognized(Some(AiServices.ProcessImage(service, clients, RecognitionPrompt, JpegDataUrlHead + download.base64)))
    ensures download.Downloaded? && ocr.Some? ==> r == ocr.value(download.base64)
  {
    match download
    case DownloadFailed(message) => RecognitionFailed(message)
    case Downloaded(base64, _) =>
      match ocr
      case Some(read) => read(base64)
      case None => Recognized(Some(AiServices.ProcessImage(service, clients, RecognitionPrompt, JpegDataUrlHead + base64)))
  }

  /**
   * The image path's own default target: Chinese text goes to the Chinese
   * target; every other text goes to the configured default, whatever the
   * user prefers.
   */
  function ImageDefaultTarget(source: string, p: Profile, config: Settings.AppConfig): (r: string)
    ensures T.IsChineseCode(source) ==> r == T.ChineseTarget(p, config)
    ensures !T.IsChineseCode(source) ==> r == config.defaultTargetLanguageForOthers
  {
    if T.IsChineseCode(source) then T.ChineseTarget(p, config) else config.defaultTargetLanguageForOthers
  }

  /** The image path's choice of target: the preferred language, unless the source already is it or both are Chinese. */
  function ImageTarget(source: string, p: Profile, config: Settings.AppConfig): string
  {
    if IsPresent(p.preferredLanguage) then
      var preferred := p.preferredLanguage.value;
      if source == preferred || (T.IsChineseCode(source) && T.IsChineseCode(preferred)) then ImageDefaultTarget(source, p, config)
      else preferred
    else ImageDefaultTarget(source, p, config)
  }

  /**
   * Text in a picture and text in a message go to the same language, except
   * when a non-Chinese source already is the preferred language: the message
   * keeps that language, the picture goes to the configured default.
   */
  lemma ImageAndTextTargetsAgree(source: string, p: Profile, config: Settings.AppConfig)
    ensures !T.IsChineseCode(source) && p.preferredLanguage == Some(source) && source != [] ==>
      && ImageTarget(source, p, config) == config.defaultTargetLanguageForOthers
      && T.AutoTarget(source, p, config) == source
    ensures !(!T.IsChineseCode(source) && p.preferredLanguage == Some(source) && source != []) ==>
      ImageTarget(source, p, config) == T.AutoTarget(source, p, config)
  {
    T.AutoTargetByBucket(source, p, config);
    if IsPresent(p.preferredLanguage) && T.IsChineseCode(source) && source == p.preferredLanguage.value {
      assert T.IsChineseCode(p.preferredLanguage.value);
    }
  }

  /** The reply for a translated picture: the recognised text, the translation, the language tag. */
  function ImageReply(recognized: string, translated: string, detected: string, target: string): string
  {
    "【圖片文字辨識結果】\n\n" + "識別的文字：\n" + recognized + "\n\n" + "翻譯結果：\n" + translated
      + T.LanguageTag(detected, target)
  }

  /**
   * `processImageTranslation`. `ocrEnabled` is the service's own switch,
   * read once at start-up. A disabled switch refuses before anything is
   * stored; after that the profile is ensured, and a failed download or
   * recognition, or a blank text, answers without a record; otherwise one
   * image record is appended and the image counters rise.
   */
  function ProcessImageTranslation(s: T.State, env: T.Env, ocrEnabled: bool, ocr: Option<string -> Recognition>,
                                   userId: string, download: Download): (r: (T.State, string))
    ensures !ocrEnabled ==> r == (s, OcrDisabled)
    ensures ocrEnabled ==> userId in r.0.profiles && r.0.profiles.Keys == s.profiles.Keys + {userId}
    ensures ocrEnabled ==> forall u :: u in s.profiles && u != userId ==> r.0.profiles[u] == s.profiles[u]
    ensures T.Sound(s.profiles) ==> T.Sound(r.0.profiles)
    ensures ocrEnabled && download.DownloadFailed? ==>
      r == (T.State(T.Ensure(s.profiles, userId), s.records), "圖片處理失敗: " + download.message)
    ensures |r.0.records| == |s.records| || |r.0.records| == |s.records| + 1
    ensures r.0.records[..|s.records|] == s.records
    ensures |r.0.records| == |s.records| + 1 ==>
      var rec := r.0.records[|s.records|];
      && download.Downloaded? && rec.isImageTranslation && rec.imageUrl == Some(download.imageUrl)
      && !IsNullOrTrimEmpty(Some(rec.sourceText))
      && rec.sourceLanguage == env.detect(rec.sourceText, 0)
      && rec.targetLanguage == ImageTarget(rec.sourceLanguage, T.Ensure(s.profiles, userId)[userId], env.config)
      && r.0.profiles[userId] == AfterImageTranslation(T.Ensure(s.profiles, userId)[userId])
      && r.1 == ImageReply(rec.sourceText, rec.translatedText, rec.sourceLanguage, rec.targetLanguage)
    ensures ocrEnabled ==>
      var service := T.ServiceFor(T.Ensure(s.profiles, userId)[userId], env);
      var seen := Recognize(download, ocr, service, env.clients);
      && (seen.RecognitionFailed? ==>
            r == (T.State(T.Ensure(s.profiles, userId), s.records), "圖片處理失敗: " + seen.message))
      && (seen.Recognized? && IsNullOrTrimEmpty(seen.text) ==>
            r == (T.State(T.Ensure(s.profiles, userId), s.records), NoTextFound))
      && (seen.Recognized? && !IsNullOrTrimEmpty(seen.text) ==>
            && |r.0.records| == |s.records| + 1
            && r.0.records[|s.records|].sourceText == seen.text.value
            && r.0.records[|s.records|].translatedText
                 == AiServices.Translate(service, env.clients, seen.text.value, r.0.records[|s.records|].targetLanguage)
            && r.0.records[|s.records|].aiProvider == AiServices.ProviderName(service))
  {
    if !ocrEnabled then (s, OcrDisabled)
    else
      var m := T.Ensure(s.profiles, userId);
      var p := m[userId];
      var service := T.ServiceFor(p, env);
      match Recognize(download, ocr, service, env.clients)
      case RecognitionFailed(message) => (T.State(m, s.records), "圖片處理失敗: " + message)
      case Recognized(text) =>
        if IsNullOrTrimEmpty(text) then (T.State(m, s.records), NoTextFound)
        else
          var recognized := text.value;
          var detected := env.detect(recognized, 0);
          var target := ImageTarget(detected, p, env.config);
          var translated := AiServices.Translate(service, env.clients, recognized, target);
          var rec := T.Record(userId, recognized, detected, target, translated,
                              AiServices.ProviderName(service), AiServices.ModelName(service, env.clients),
                              true, Some(download.imageUrl));
          (T.State(T.Store(m, userId, AfterImageTranslation(p)), s.records + [rec]),
           ImageReply(recognized, translated, detected, target))
  }

  /**
   * The administrator's OCR switch lives in the application settings, which
   * this operation never reads: two settings that differ only in that switch
   * give the same outcome.
   */
  lemma AdminOcrSwitchNotConsulted(s: T.State, env: T.Env, ocrEnabled: bool, ocr: Option<string -> Recognition>,
                                   userId: string, download: Download, flag: bool)
    ensures var env2 := env.(config := env.config.(ocrEnabled := flag));
      ProcessImageTranslation(s, env2, ocrEnabled, ocr, userId, download)
        == ProcessImageTranslation(s, env, ocrEnabled, ocr, userId, download)
  {
    var env2 := env.(config := env.config.(ocrEnabled := flag));
    assert forall src, p :: ImageTarget(src, p, env2.config) == ImageTarget(src, p, env.config);
  }

  /**
   * Without an OCR service, a picture recognised while every backend is
   * unconfigured is "translated" from the backend's fixed refusal text.
   */
  lemma UnconfiguredBackendReadsItsOwnRefusal(s: T.State, env: T.Env, userId: string, base64: string, url: string)
    requires !env.av.openAi && !env.av.gemini
    ensures var r := ProcessImageTranslation(s, env, true, None, userId, Downloaded(base64, url));
      |r.0.records| == |s.records| + 1 && r.0.records[|s.records|].sourceText == AiServices.UnconfiguredImage
  {
    var p := T.Ensure(s.profiles, userId)[userId];
    var service := AiServices.GetService(p.preferredAiProvider, env.defaultProvider, env.av);
    assert service == AiServices.Unconfigured;
    assert Trim(AiServices.UnconfiguredImage) != [] by {
      assert !IsTrimmed(AiServices.UnconfiguredImage[0]);
      TrimEmptyIff(AiServices.UnconfiguredImage);
    }
  }

  /**
   * The converse for an OCR service: a stored picture whose text the service
   * reads as non-blank always yields one image record of that text, and the
   * reply shows it with its translation.
   */
  lemma ReadableImageIsTranslated(s: T.State, env: T.Env, read: string -> Recognition, userId: string,
                                  base64: string, url: string, text: string)
    requires read(base64) == Recognized(Some(text)) && Trim(text) != []
    ensures var r := ProcessImageTranslation(s, env, true, Some(read), userId, Downloaded(base64, url));
      && |r.0.records| == |s.records| + 1
      && var rec := r.0.records[|s.records|];
      && rec.sourceText == text && rec.isImageTranslation && rec.imageUrl == Some(url)
      && r.1 == ImageReply(text, rec.translatedText, rec.sourceLanguage, rec.targetLanguage)
  {
  }
}

=== FILE: java_string.dfy ===
/**
 * The small part of java.lang.String (and of the regex classes it leans on)
 * that the translation bot uses, stated over Dafny strings.
 *
 * A Dafny `char` is a Unicode scalar value, so a string here is a sequence of
 * code points. Java measures `length()` in UTF-16 code units; `Utf16Len`
 * gives that measure where it matters.
 */
module JavaString {

  datatype Option<T> = None | Some(value: T)

  /** A Java reference that may be null, rendered the way string concatenation renders it. */
  function OrNull(s: Option<string>): string
  {
    match s
    case None => "null"
    case Some(v) => v
  }

  // ---------------------------------------------------------------------------
  // Character classes
  // ---------------------------------------------------------------------------

  /** Characters removed by `String.trim()`: every code point up to U+0020. */
  predicate IsTrimmed(c: char)
  {
    c <= ' '
  }

  /** `Character.isWhitespace`, as used by `StringUtils.isBlank`. */
  predicate IsJavaWhitespace(c: char)
  {
    ('\t' <= c <= '\r') || ('\U{001C}' <= c <= ' ')
    || c == '\U{1680}'
    || ('\U{2000}' <= c <= '\U{200A}' && c != '\U{2007}')
    || c == '\U{2028}' || c == '\U{2029}' || c == '\U{205F}' || c == '\U{3000}'
  }

  /** The regular-expression class `\s`: space, tab, newline, vertical tab, form feed, carriage return. */
  predicate IsRegexSpace(c: char)
  {
    c == ' ' || ('\t' <= c <= '\r')
  }

  /** Line terminators, which the regular-expression `.` does not match. */
  predicate IsLineTerminator(c: char)
  {
    c == '\n' || c == '\r' || c == '\U{0085}' || c == '\U{2028}' || c == '\U{2029}'
  }

  predicate IsAsciiUpper(c: char)
  {
    'A' <= c <= 'Z'
  }

  predicate IsAsciiLetter(c: char)
  {
    'A' <= c <= 'Z' || 'a' <= c <= 'z'
  }

  // ---------------------------------------------------------------------------
  // trim / isBlank
  // ---------------------------------------------------------------------------

  /** Drops the leading run of trimmed characters. */
  function TrimStart(s: string): (r: string)
    ensures |r| <= |s| && r == s[|s| - |r|..]
    ensures forall i :: 0 <= i < |s| - |r| ==> IsTrimmed(s[i])
    ensures r == [] || !IsTrimmed(r[0])
  {
    if |s| > 0 && IsTrimmed(s[0]) then TrimStart(s[1..]) else s
  }

  /** Drops the trailing run of trimmed characters. */
  function TrimEnd(s: string): (r: string)
    ensures |r| <= |s| && r == s[..|r|]
    ensures forall i :: |r| <= i < |s| ==> IsTrimmed(s[i])
    ensures r == [] || !IsTrimmed(r[|r| - 1])
  {
    if |s| > 0 && IsTrimmed(s[|s| - 1]) then TrimEnd(s[..|s| - 1]) else s
  }

  /** `String.trim()`. */
  function Trim(s: string): (r: string)
  {
    TrimEnd(TrimStart(s))
  }

  /**
   * `trim()` yields the slice of its input that starts after the leading
   * padding, and only trimmed characters lie outside that slice.
   */
  lemma TrimSlice(s: string)
    ensures var i := |s| - |TrimStart(s)|;
      && i + |Trim(s)| <= |s| && Trim(s) == s[i..i + |Trim(s)|]
      && (forall k :: 0 <= k < i ==> IsTrimmed(s[k]))
      && (forall k :: i + |Trim(s)| <= k < |s| ==> IsTrimmed(s[k]))
  {
    TrimIsSlice(s);
    TrimDropsOnlyPadding(s);
  }

  lemma TrimIsSlice(s: string)
    ensures var i := |s| - |TrimStart(s)|;
      i + |Trim(s)| <= |s| && Trim(s) == s[i..i + |Trim(s)|]
  {
    var t := TrimStart(s);
    var i := |s| - |t|;
    var r := TrimEnd(t);
    assert t == s[i..] && r == t[..|r|];
  }

  lemma TrimDropsOnlyPadding(s: string)
    ensures var i := |s| - |TrimStart(s)|;
      && (forall k :: 0 <= k < i ==> IsTrimmed(s[k]))
      && (forall k :: i + |Trim(s)| <= k < |s| ==> IsTrimmed(s[k]))
  {
    var t := TrimStart(s);
    var i := |s| - |t|;
    var r := TrimEnd(t);
    forall k | i + |r| <= k < |s| ensures IsTrimmed(s[k]) {
      assert s[k] == t[k - i];
    }
  }

  /** The result of `trim()` has no trimmed character at either end. */
  lemma TrimEnds(s: string)
    ensures Trim(s) == [] || (!IsTrimmed(Trim(s)[0]) && !IsTrimmed(Trim(s)[|Trim(s)| - 1]))
  {
    var t := TrimStart(s);
    if Trim(s) != [] {
      assert Trim(s)[0] == t[0];
    }
  }

  /** Trimming removes exactly the blank padding around a word with non-blank ends. */
  lemma {:induction false} TrimPadded(pre: string, core: string, post: string)
    requires forall k :: 0 <= k < |pre| ==> IsTrimmed(pre[k])
    requires forall k :: 0 <= k < |post| ==> IsTrimmed(post[k])
    requires core != [] && !IsTrimmed(core[0]) && !IsTrimmed(core[|core| - 1])
    ensures Trim(pre + core + post) == core
  {
    var s := pre + core + post;
    assert s == pre + (core + post);
    assert (core + post)[0] == core[0];
    TrimStartPadded(pre, core + post);
    assert TrimStart(s) == core + post;
    TrimEndPadded(core, post);
  }

  /** A word with non-blank ends is its own trim. */
  lemma TrimPlain(v: string)
    requires v != [] && !IsTrimmed(v[0]) && !IsTrimmed(v[|v| - 1])
    ensures Trim(v) == v
  {
    TrimPadded("", v, "");
    assert "" + v + "" == v;
  }

  lemma {:induction false} TrimStartPadded(pre: string, t: string)
    requires forall k :: 0 <= k < |pre| ==> IsTrimmed(pre[k])
    requires t == [] || !IsTrimmed(t[0])
    ensures TrimStart(pre + t) == t
    decreases |pre|
  {
    if pre != [] {
      assert (pre + t)[1..] == pre[1..] + t;
      TrimStartPadded(pre[1..], t);
    }
  }

  lemma {:induction false} TrimEndPadded(t: string, post: string)
    requires forall k :: 0 <= k < |post| ==> IsTrimmed(post[k])
    requires t == [] || !IsTrimmed(t[|t| - 1])
    ensures TrimEnd(t + post) == t
    decreases |post|
  {
    if post != [] {
      assert (t + post)[..|t + post| - 1] == t + post[..|post| - 1];
      TrimEndPadded(t, post[..|post| - 1]);
    }
  }

  /** `trim()` empties a string exactly when every character of it is at or below U+0020. */
  lemma TrimEmptyIff(s: string)
    ensures Trim(s) == [] <==> forall k :: 0 <= k < |s| ==> IsTrimmed(s[k])
  {
    TrimSlice(s);
    if Trim(s) != [] {
      assert !IsTrimmed(Trim(s)[0]) by { TrimEnds(s); }
    }
  }

  /** Trimming twice changes nothing further. */
  lemma TrimIdempotent(s: string)
    ensures Trim(Trim(s)) == Trim(s)
  {
    var t := Trim(s);
    TrimEnds(s);
    if t != [] {
      assert !IsTrimmed(t[0]) && !IsTrimmed(t[|t| - 1]);
      TrimPlain(t);
    }
  }

  /** `StringUtils.isBlank` on a non-null string: every character is Java whitespace. */
  predicate IsBlank(s: string)
  {
    forall k :: 0 <= k < |s| ==> IsJavaWhitespace(s[k])
  }

  /** `s == null || s.trim().isEmpty()`. */
  predicate IsNullOrTrimEmpty(s: Option<string>)
  {
    s.None? || Trim(s.value) == []
  }

  /** `s != null && !s.isEmpty()`. */
  predicate IsPresent(s: Option<string>)
  {
    s.Some? && s.value != []
  }

  // ---------------------------------------------------------------------------
  // Case folding, prefixes, search
  // ---------------------------------------------------------------------------

  function LowerChar(c: char): (d: char)
    ensures IsAsciiUpper(c) ==> 'a' <= d <= 'z' && d as int == c as int + 32
    ensures !IsAsciiUpper(c) ==> d == c
  {
    if IsAsciiUpper(c) then (c as int + 32) as char else c
  }

  /** `String.toLowerCase()` restricted to ASCII letters. */
  function ToLower(s: string): (r: string)
    ensures |r| == |s|
    ensures forall i :: 0 <= i < |s| ==> r[i] == LowerChar(s[i])
  {
    if s == [] then [] else [LowerChar(s[0])] + ToLower(s[1..])
  }

  /** No ASCII capital appears. */
  predicate NoUpper(s: string)
  {
    forall i :: 0 <= i < |s| ==> !IsAsciiUpper(s[i])
  }

  lemma ToLowerNoUpper(s: string)
    ensures NoUpper(ToLower(s))
    ensures NoUpper(s) ==> ToLower(s) == s
  {
  }

  lemma ToLowerIdempotent(s: string)
    ensures ToLower(ToLower(s)) == ToLower(s)
  {
    ToLowerNoUpper(s);
    ToLowerNoUpper(ToLower(s));
  }

  lemma ToLowerConcat(a: string, b: string)
    ensures ToLower(a + b) == ToLower(a) + ToLower(b)
  {
    var l := ToLower(a + b);
    var r := ToLower(a) + ToLower(b);
    forall i | 0 <= i < |l| ensures l[i] == r[i] {
      if i < |a| {
        assert (a + b)[i] == a[i];
      } else {
        assert (a + b)[i] == b[i - |a|];
      }
    }
    assert l == r;
  }

  /** `s.equalsIgnoreCase(t)` for the ASCII folding used here. */
  predicate EqualsIgnoreCase(s: string, t: string)
  {
    ToLower(s) == ToLower(t)
  }

  predicate StartsWith(s: string, p: string)
  {
    |p| <= |s| && s[..|p|] == p
  }

  predicate OccursAt(s: string, i: nat, p: string)
  {
    i + |p| <= |s| && s[i..i + |p|] == p
  }

  predicate Contains(s: string, p: string)
  {
    exists i :: 0 <= i <= |s| && OccursAt(s, i, p)
  }

  /** `s.indexOf(p, from)`: the first occurrence of `p` at or after `from`. */
  function IndexOfFrom(s: string, p: string, from: nat): (r: Option<nat>)
    requires from <= |s|
    ensures r.Some? ==> from <= r.value <= |s| && OccursAt(s, r.value, p)
    ensures r.Some? ==> forall i :: from <= i < r.value ==> !OccursAt(s, i, p)
    ensures r.None? ==> forall i :: from <= i <= |s| ==> !OccursAt(s, i, p)
    decreases |s| - from
  {
    if OccursAt(s, from, p) then Some(from)
    else if from == |s| then None
    else IndexOfFrom(s, p, from + 1)
  }

  function IndexOf(s: string, p: string): (r: Option<nat>)
    ensures r.Some? <==> Contains(s, p)
    ensures r.Some? ==> r.value <= |s| && OccursAt(s, r.value, p)
    ensures r.Some? ==> forall i :: 0 <= i < r.value ==> !OccursAt(s, i, p)
  {
    IndexOfFrom(s, p, 0)
  }

  /** Java `length()`: characters outside the Basic Multilingual Plane take two UTF-16 units. */
  function Utf16Units(c: char): nat
  {
    if c as int >= 0x1_0000 then 2 else 1
  }

  function Utf16Len(s: string): (n: nat)
    ensures |s| <= n <= 2 * |s|
  {
    if s == [] then 0 else Utf16Units(s[0]) + Utf16Len(s[1..])
  }

  lemma {:induction false} Utf16LenConcat(a: string, b: string)
    ensures Utf16Len(a + b) == Utf16Len(a) + Utf16Len(b)
  {
    if a != [] {
      assert (a + b)[1..] == a[1..] + b;
      Utf16LenConcat(a[1..], b);
    } else {
      assert a + b == b;
    }
  }

  /** The characters of `s` that satisfy `keep`, in order; models a `replaceAll("[^...]", "")`. */
  function Filter(s: string, keep: char -> bool): (r: string)
    ensures |r| <= |s|
    ensures forall i :: 0 <= i < |r| ==> keep(r[i])
    ensures (forall i :: 0 <= i < |s| ==> keep(s[i])) ==> r == s
    ensures r == [] <==> forall i :: 0 <= i < |s| ==> !keep(s[i])
  {
    if s == [] then []
    else (if keep(s[0]) then [s[0]] else []) + Filter(s[1..], keep)
  }

  lemma {:induction false} FilterConcat(a: string, b: string, keep: char -> bool)
    ensures Filter(a + b, keep) == Filter(a, keep) + Filter(b, keep)
  {
    if a != [] {
      assert (a + b)[1..] == a[1..] + b;
      FilterConcat(a[1..], b, keep);
    } else {
      assert a + b == b;
    }
  }

  lemma FilterNone(s: string, keep: char -> bool)
    requires forall i :: 0 <= i < |s| ==> !keep(s[i])
    ensures Filter(s, keep) == []
  {
  }

  /** Joins with a separator, as `String.join`. */
  function Join(parts: seq<string>, sep: string): string
  {
    if parts == [] then ""
    else if |parts| == 1 then parts[0]
    else parts[0] + sep + Join(parts[1..], sep)
  }

  /** Decimal rendering of a non-negative integer, as `String.valueOf`. */
  function NatToString(n: nat): (r: string)
    ensures r != []
    ensures forall i :: 0 <= i < |r| ==> '0' <= r[i] <= '9'
  {
    if n < 10 then [Digit(n)] else NatToString(n / 10) + [Digit(n % 10)]
  }

  function Digit(d: nat): (c: char)
    requires d < 10
    ensures '0' <= c <= '9'
  {
    ['0', '1', '2', '3', '4', '5', '6', '7', '8', '9'][d]
  }

  // ---------------------------------------------------------------------------
  // Java int counters
  // ---------------------------------------------------------------------------

  const IntMax: int := 0x7FFF_FFFF
  const IntMin: int := -0x8000_0000

  /** A Java `int`. */
  type Int32 = i: int | IntMin <= i <= IntMax

  /** `x + 1` on a Java `int`: two's-complement wrap-around at the top. */
  function Inc32(x: Int32): (r: Int32)
    ensures x < IntMax ==> r == x + 1
    ensures x == IntMax ==> r == IntMin
  {
    if x == IntMax then IntMin else x + 1
  }
}

=== FILE: language_detection.dfy ===
/**
 * Deciding which language a text is in, by fusing three signals in a fixed
 * order: an AI model's answer (sanitised), the share of Han characters, and an
 * n-gram classifier's verdict. The AI model and the classifier are outside the
 * model: their outcomes are inputs.
 */
module LanguageDetection {
  import opened JavaString
  import LanguageUtils

  // ---------------------------------------------------------------------------
  // Sanitising the AI model's answer
  // ---------------------------------------------------------------------------

  /** How many UTF-16 units of the answer's first line are examined. */
  const AnswerWindow: nat := 10

  /** The characters a language code may consist of: `[a-zA-Z\-]`. */
  predicate IsCodeChar(c: char)
  {
    IsAsciiLetter(c) || c == '-'
  }

  /** A cleaned code: non-empty, short, lower-case letters and '-' only. */
  predicate IsCleanCode(s: string)
  {
    0 < |s| <= AnswerWindow && forall k :: 0 <= k < |s| ==> ('a' <= s[k] <= 'z' || s[k] == '-')
  }

  /** The text before the first '\n' (all of it when there is none). */
  function FirstLine(s: string): (r: string)
    ensures r <= s && '\n' !in r
    ensures |r| < |s| ==> s[|r|] == '\n'
  {
    if s == [] || s[0] == '\n' then [] else [s[0]] + FirstLine(s[1..])
  }

  /**
   * `substring(0, n)` when the string is longer than `n` UTF-16 units: the
   * longest prefix of whole code points within `n` units. When a supplementary
   * character straddles the cut, Java keeps its high surrogate; that lone unit
   * is never a code character, so the filter that follows removes it anyway.
   */
  function Utf16Prefix(s: string, n: nat): (r: string)
    ensures r <= s && Utf16Len(r) <= n
    ensures Utf16Len(s) <= n ==> r == s
    ensures |r| < |s| ==> Utf16Len(r) + Utf16Units(s[|r|]) > n
  {
    if s == [] || Utf16Units(s[0]) > n then []
    else [s[0]] + Utf16Prefix(s[1..], n - Utf16Units(s[0]))
  }

  /**
   * The part of the answer that is examined: the trimmed answer's first line,
   * cut to its longest prefix of whole code points within ten UTF-16 units.
   */
  function AnswerHead(response: string): (r: string)
    ensures r <= FirstLine(Trim(response)) && Utf16Len(r) <= AnswerWindow
    ensures Utf16Len(FirstLine(Trim(response))) <= AnswerWindow ==> r == FirstLine(Trim(response))
    ensures var line := FirstLine(Trim(response));
      |r| < |line| ==> Utf16Len(r) + Utf16Units(line[|r|]) > AnswerWindow
    ensures |r| <= AnswerWindow
  {
    var head := Utf16Prefix(FirstLine(Trim(response)), AnswerWindow);
    assert |head| <= Utf16Len(head);
    head
  }

  /** `replaceAll("[^a-zA-Z\\-]", "")` followed by `toLowerCase()`. */
  function CodeLetters(head: string): (r: string)
    ensures |r| <= |head|
    ensures forall k :: 0 <= k < |r| ==> ('a' <= r[k] <= 'z' || r[k] == '-')
    ensures r == [] <==> forall k :: 0 <= k < |head| ==> !IsCodeChar(head[k])
  {
    ToLower(Filter(head, IsCodeChar))
  }

  /**
   * Character by character: a letter or '-' survives lower-cased, anything
   * else is dropped, and what survives keeps its order.
   */
  lemma CodeLettersOfChar(c: char)
    ensures IsCodeChar(c) ==> CodeLetters([c]) == [LowerChar(c)]
    ensures !IsCodeChar(c) ==> CodeLetters([c]) == []
  {
    assert [c][1..] == [];
  }

  lemma CodeLettersConcat(a: string, b: string)
    ensures CodeLetters(a + b) == CodeLetters(a) + CodeLetters(b)
  {
    FilterConcat(a, b, IsCodeChar);
    ToLowerConcat(Filter(a, IsCodeChar), Filter(b, IsCodeChar));
  }

  /**
   * `cleanResponse`: null or empty gives "unknown"; otherwise trim, keep the
   * first line, keep ten UTF-16 units, drop every character outside
   * `[a-zA-Z\-]`, lower-case; an empty result is "unknown" and any "zh..."
   * code becomes the configured Chinese variant.
   */
  function CleanResponse(response: Option<string>, defaultChinese: string): (r: string)
    ensures response.None? || response.value == [] ==> r == LanguageUtils.Unknown
    ensures r == LanguageUtils.Unknown || r == defaultChinese || (IsCleanCode(r) && !StartsWith(r, "zh"))
  {
    if response.None? || response.value == [] then LanguageUtils.Unknown
    else
      var code := CodeLetters(AnswerHead(response.value));
      if code == [] then LanguageUtils.Unknown
      else if StartsWith(code, "zh") then defaultChinese
      else code
  }

  /** A bare code fits in the examined head unchanged. */
  lemma BareCodeIsItsOwnHead(code: string)
    requires 0 < |code| <= AnswerWindow && forall k :: 0 <= k < |code| ==> IsCodeChar(code[k])
    ensures AnswerHead(code) == code
    ensures CodeLetters(code) == ToLower(code)
  {
    PlainHead(code);
    assert Filter(code, IsCodeChar) == code;
  }

  /** A short single-line word with visible characters is its own examined head. */
  lemma PlainHead(s: string)
    requires 0 < |s| <= AnswerWindow
    requires forall k :: 0 <= k < |s| ==> IsAsciiLetter(s[k]) || s[k] == '-'
    ensures AnswerHead(s) == s
  {
    assert !IsTrimmed(s[0]) && !IsTrimmed(s[|s| - 1]);
    TrimPlain(s);
    assert '\n' !in s;
    FirstLineWithoutNewline(s);
    AllBmpUtf16Len(s);
    assert Utf16Prefix(s, AnswerWindow) == s;
  }

  /** A clean code, as the model is asked to answer, passes through unchanged. */
  lemma CleanCodePassesThrough(code: string, defaultChinese: string)
    requires IsCleanCode(code) && !StartsWith(code, "zh")
    ensures CleanResponse(Some(code), defaultChinese) == code
  {
    BareCodeIsItsOwnHead(code);
    ToLowerNoUpper(code);
  }

  /** Any answer that is a Chinese code, "zh" or "zh-tw" or "ZH-CN", becomes the configured variant. */
  lemma ChineseAnswerBecomesDefault(code: string, defaultChinese: string)
    requires 2 <= |code| <= AnswerWindow && forall k :: 0 <= k < |code| ==> IsCodeChar(code[k])
    requires ToLower(code[..2]) == "zh"
    ensures CleanResponse(Some(code), defaultChinese) == defaultChinese
  {
    BareCodeIsItsOwnHead(code);
    var c := CodeLetters(AnswerHead(code));
    var z := ToLower(code[..2]);
    assert z[0] == 'z' && z[1] == 'h';
    assert c[0] == z[0] && c[1] == z[1];
    OpensWithZh(c);
  }

  lemma OpensWithZh(c: string)
    requires |c| >= 2 && c[0] == 'z' && c[1] == 'h'
    ensures StartsWith(c, "zh")
  {
    assert c[..2] == ['z', 'h'];
  }

  /**
   * A text that opens with a fixed ten-unit prefix, starting with a visible
   * character, without a newline, and followed somewhere by another visible
   * character, has exactly that prefix as its examined head.
   */
  lemma HeadOfPrefixed(p: string, tail: string, j: nat)
    requires p != [] && !IsTrimmed(p[0]) && '\n' !in p && Utf16Len(p) == AnswerWindow
    requires |p| <= j + 1 && j < |p + tail| && !IsTrimmed((p + tail)[j])
    ensures AnswerHead(p + tail) == p
  {
    var s := p + tail;
    PrefixSurvivesTrim(p, tail, j);
    PrefixSurvivesFirstLine(p, Trim(s));
    PrefixIsUtf16Head(p, FirstLine(Trim(s)));
  }

  /** Trimming keeps a prefix that starts visibly and is followed, at or after its last character, by a visible character. */
  lemma PrefixSurvivesTrim(p: string, tail: string, j: nat)
    requires p != [] && !IsTrimmed(p[0])
    requires |p| <= j + 1 && j < |p + tail| && !IsTrimmed((p + tail)[j])
    ensures p <= Trim(p + tail)
  {
    var s := p + tail;
    assert s[0] == p[0];
    assert TrimStart(s) == s;
    var t := TrimEnd(s);
    assert t == s[..|t|];
    assert j < |t|;
    assert forall k :: 0 <= k < |p| ==> t[k] == p[k];
  }

  /** Keeping the first line keeps a prefix without a newline. */
  lemma PrefixSurvivesFirstLine(p: string, t: string)
    requires p <= t && '\n' !in p
    ensures p <= FirstLine(t)
  {
    var line := FirstLine(t);
    assert forall k :: 0 <= k < |p| ==> t[k] == p[k] && t[k] != '\n';
    assert |line| == |t| || t[|line|] == '\n';
    assert |p| <= |line|;
    assert forall k :: 0 <= k < |p| ==> line[k] == p[k];
  }

  /** A prefix of exactly ten UTF-16 units is what `substring(0, 10)` keeps. */
  lemma PrefixIsUtf16Head(p: string, line: string)
    requires p <= line && Utf16Len(p) == AnswerWindow
    ensures Utf16Prefix(line, AnswerWindow) == p
  {
    var head := Utf16Prefix(line, AnswerWindow);
    if |head| < |p| {
      assert head == p[..|head|];
      assert p == head + [p[|head|]] + p[|head| + 1..];
      Utf16LenConcat(head + [p[|head|]], p[|head| + 1..]);
      Utf16LenConcat(head, [p[|head|]]);
      assert false;
    } else if |head| > |p| {
      assert head == p + head[|p|..];
      Utf16LenConcat(p, head[|p|..]);
      assert false;
    }
    assert head == line[..|p|] == p;
  }

  /**
   * A Gemini generation error, "文本生成失敗: Gemini API 請求錯誤 <code>" or
   * any other error whose message starts with "Ge", is cleaned like an answer
   * and reads as the code "ge", not as "unknown".
   */
  lemma GeminiErrorReadsAsGe(p: string, tail: string, defaultChinese: string)
    requires p == "文本生成失敗: Ge"
    ensures CleanResponse(Some(p + tail), defaultChinese) == "ge"
  {
    GeminiErrorHead(p);
    HeadOfPrefixed(p, tail, |p| - 1);
    assert "ge"[0] != "zh"[0];
  }

  lemma GeminiErrorHead(p: string)
    requires p == "文本生成失敗: Ge"
    ensures p != [] && !IsTrimmed(p[0]) && '\n' !in p && Utf16Len(p) == AnswerWindow
    ensures !IsTrimmed(p[|p| - 1]) && CodeLetters(p) == "ge"
  {
    GeminiErrorShape(p);
    assert CodeLetters(p) == "ge" by {
      assert p == p[..8] + p[8..];
      GeminiErrorLetters(p[..8], p[8..]);
    }
  }

  lemma GeminiErrorShape(p: string)
    requires p == "文本生成失敗: Ge"
    ensures p != [] && !IsTrimmed(p[0]) && !IsTrimmed(p[|p| - 1]) && '\n' !in p
    ensures Utf16Len(p) == AnswerWindow
  {
    AllBmpUtf16Len(p);
  }

  lemma GeminiErrorLetters(lead: string, code: string)
    requires lead == "文本生成失敗: " && code == "Ge"
    ensures CodeLetters(lead + code) == "ge"
  {
    FilterConcat(lead, code, IsCodeChar);
    GenerationFailedLead(lead);
    assert Filter(code, IsCodeChar) == code;
    assert ToLower(code) == [LowerChar('G'), LowerChar('e')];
  }

  lemma GenerationFailedLead(lead: string)
    requires lead == "文本生成失敗: "
    ensures Filter(lead, IsCodeChar) == []
  {
    FilterNone(lead, IsCodeChar);
  }

  /** The unconfigured-service reply to a generation request reads as "unknown". */
  lemma FallbackReplyReadsAsUnknown(p: string, tail: string, defaultChinese: string)
    requires p == "無法生成文本：所有 " && tail == "AI 服務都未正確配置。請檢查環境變數設置。"
    ensures CleanResponse(Some(p + tail), defaultChinese) == LanguageUtils.Unknown
  {
    FallbackHead(p);
    assert !IsTrimmed(tail[0]);
    HeadOfPrefixed(p, tail, |p|);
  }

  lemma FallbackHead(p: string)
    requires p == "無法生成文本：所有 "
    ensures p != [] && !IsTrimmed(p[0]) && '\n' !in p && Utf16Len(p) == AnswerWindow
    ensures CodeLetters(p) == []
  {
    AllBmpUtf16Len(p);
    FilterNone(p, IsCodeChar);
  }

  lemma FirstLineWithoutNewline(s: string)
    requires '\n' !in s
    ensures FirstLine(s) == s
  {
    if s != [] {
      assert '\n' !in s[1..];
      FirstLineWithoutNewline(s[1..]);
      assert s == [s[0]] + s[1..];
    }
  }

  lemma AllBmpUtf16Len(s: string)
    requires forall k :: 0 <= k < |s| ==> s[k] as int < 0x1_0000
    ensures Utf16Len(s) == |s|
  {
    if s != [] {
      AllBmpUtf16Len(s[1..]);
    }
  }

  /** How the AI detector's call ended: a reply (possibly null) or an exception. */
  datatype AiOutcome = Replied(reply: Option<string>) | Threw

  /** `AiLanguageDetectionService.detectLanguage`: exceptions give "unknown", replies are cleaned. */
  function AiDetectLanguage(outcome: AiOutcome, defaultChinese: string): (r: string)
    ensures outcome.Threw? ==> r == LanguageUtils.Unknown
    ensures r == LanguageUtils.Unknown || r == defaultChinese || (IsCleanCode(r) && !StartsWith(r, "zh"))
  {
    match outcome
    case Threw => LanguageUtils.Unknown
    case Replied(reply) => CleanResponse(reply, defaultChinese)
  }

  // ---------------------------------------------------------------------------
  // The Han-character share
  // ---------------------------------------------------------------------------

  /** Code points whose Unicode script is Han (the ranges of Unicode 15.1's Scripts.txt). */
  predicate IsHan(c: char)
  {
    var n := c as int;
    || (0x2E80 <= n <= 0x2E99) || (0x2E9B <= n <= 0x2EF3) || (0x2F00 <= n <= 0x2FD5)
    || n == 0x3005 || n == 0x3007 || (0x3021 <= n <= 0x3029) || (0x3038 <= n <= 0x303B)
    || (0x3400 <= n <= 0x4DBF) || (0x4E00 <= n <= 0x9FFF)
    || (0xF900 <= n <= 0xFA6D) || (0xFA70 <= n <= 0xFAD9)
    || n == 0x16FE2 || n == 0x16FE3 || (0x16FF0 <= n <= 0x16FF1)
    || (0x20000 <= n <= 0x2A6DF) || (0x2A700 <= n <= 0x2B739) || (0x2B740 <= n <= 0x2B81D)
    || (0x2B820 <= n <= 0x2CEA1) || (0x2CEB0 <= n <= 0x2EBE0) || (0x2EBF0 <= n <= 0x2EE5D)
    || (0x2F800 <= n <= 0x2FA1D) || (0x30000 <= n <= 0x3134A) || (0x31350 <= n <= 0x323AF)
  }

  /** The number of Han code points. */
  function HanCount(s: string): (n: nat)
    ensures n <= |s|
  {
    if s == [] then 0 else (if IsHan(s[0]) then 1 else 0) + HanCount(s[1..])
  }

  /**
   * The ratio test `hanCount / length() > 0.3`, with `length()` in UTF-16 units,
   * as the exact integer inequality. For lengths below 2^31 the double division
   * and comparison decide the same way.
   */
  predicate IsMostlyChinese(text: string)
  {
    10 * HanCount(text) > 3 * Utf16Len(text)
  }

  // ---------------------------------------------------------------------------
  // Fusing the signals
  // ---------------------------------------------------------------------------

  /** How the n-gram classifier's call ended: a verdict (possibly absent) or an exception. */
  datatype NgramOutcome = Verdict(language: Option<string>) | Failed

  /**
   * `LanguageDetectionService.detectLanguage`: blank text is "unknown"; an AI
   * answer other than "unknown" wins; then a Han share above 30% gives the
   * Chinese variant; then the n-gram verdict, "en" when absent, with Chinese
   * variants collapsed; an exception gives "unknown".
   */
  function DetectLanguage(text: string, useAi: bool, ai: AiOutcome, ngram: NgramOutcome, defaultChinese: string): (r: string)
    ensures IsBlank(text) ==> r == LanguageUtils.Unknown
    ensures !IsBlank(text) && useAi && AiDetectLanguage(ai, defaultChinese) != LanguageUtils.Unknown ==> r == AiDetectLanguage(ai, defaultChinese)
    ensures !IsBlank(text) && !(useAi && AiDetectLanguage(ai, defaultChinese) != LanguageUtils.Unknown) ==>
      && (IsMostlyChinese(text) ==> r == defaultChinese)
      && (!IsMostlyChinese(text) && ngram.Verdict? && ngram.language.Some? && !StartsWith(ngram.language.value, "zh") ==>
            r == ngram.language.value)
    ensures StartsWith(r, "zh") ==> r == defaultChinese
  {
    UnknownIsNotChinese();
    if IsBlank(text) then LanguageUtils.Unknown
    else if useAi && AiDetectLanguage(ai, defaultChinese) != LanguageUtils.Unknown then AiDetectLanguage(ai, defaultChinese)
    else if IsMostlyChinese(text) then defaultChinese
    else
      match ngram
      case Failed => LanguageUtils.Unknown
      case Verdict(language) =>
        var detected := if language.None? then "en" else language.value;
        if StartsWith(detected, "zh") then defaultChinese else detected
  }

  lemma UnknownIsNotChinese()
    ensures !StartsWith(LanguageUtils.Unknown, "zh") && !StartsWith("en", "zh")
  {
    assert LanguageUtils.Unknown[0] == 'u';
    assert "en"[0] == 'e';
  }

  /** Once the AI has answered, neither the Han share nor the classifier is consulted. */
  lemma AiAnswerIsFinal(text: string, ai: AiOutcome, n1: NgramOutcome, n2: NgramOutcome, defaultChinese: string)
    requires !IsBlank(text)
    ensures AiDetectLanguage(ai, defaultChinese) != LanguageUtils.Unknown ==>
      && DetectLanguage(text, true, ai, n1, defaultChinese) == DetectLanguage(text, true, ai, n2, defaultChinese)
      && DetectLanguage(text, true, ai, n1, defaultChinese) == AiDetectLanguage(ai, defaultChinese)
  {
  }

  /** Without an AI answer, a mostly-Han text is the Chinese variant whatever the classifier says. */
  lemma HanShareDecides(text: string, useAi: bool, ai: AiOutcome, ngram: NgramOutcome, defaultChinese: string)
    requires !IsBlank(text) && IsMostlyChinese(text)
    requires !useAi || AiDetectLanguage(ai, defaultChinese) == LanguageUtils.Unknown
    ensures DetectLanguage(text, useAi, ai, ngram, defaultChinese) == defaultChinese
  {
  }

  /**
   * Without an AI answer or a Han majority the classifier decides: a non-Chinese
   * verdict is the answer as it stands, any "zh..." verdict becomes the
   * configured variant, an absent verdict means English and a failure means
   * "unknown".
   */
  lemma NgramFallback(text: string, useAi: bool, ai: AiOutcome, v: string, defaultChinese: string)
    requires !IsBlank(text) && !IsMostlyChinese(text)
    requires !useAi || AiDetectLanguage(ai, defaultChinese) == LanguageUtils.Unknown
    ensures !StartsWith(v, "zh") ==> DetectLanguage(text, useAi, ai, Verdict(Some(v)), defaultChinese) == v
    ensures StartsWith(v, "zh") ==> DetectLanguage(text, useAi, ai, Verdict(Some(v)), defaultChinese) == defaultChinese
    ensures DetectLanguage(text, useAi, ai, Verdict(None), defaultChinese) == "en"
    ensures DetectLanguage(text, useAi, ai, Failed, defaultChinese) == LanguageUtils.Unknown
  {
    UnknownIsNotChinese();
  }

  /**
   * `determineTargetLanguage`: only the exact answer "zh" selects the Chinese
   * default; every other answer, "zh-tw" included, selects the other default.
   */
  function DetermineTargetLanguage(detected: string, forChinese: string, forOthers: string): (r: string)
    ensures r == forChinese || r == forOthers
    ensures detected != "zh" ==> r == forOthers
  {
    if detected == "zh" then forChinese else forOthers
  }

  /**
   * Because detection collapses every Chinese variant to the configured one,
   * `determineTargetLanguage` picks the Chinese default only when that
   * configured variant is exactly "zh"; with the shipped "zh-tw" it never does.
   */
  lemma ChineseDefaultNeedsPlainZh(text: string, useAi: bool, ai: AiOutcome, ngram: NgramOutcome, defaultChinese: string, forChinese: string, forOthers: string)
    requires defaultChinese != "zh"
    ensures DetermineTargetLanguage(DetectLanguage(text, useAi, ai, ngram, defaultChinese), forChinese, forOthers) == forOthers
  {
    var d := DetectLanguage(text, useAi, ai, ngram, defaultChinese);
    if d == "zh" {
      assert StartsWith(d, "zh");
    }
  }
}

=== FILE: language_utils.dfy ===
/**
 * The language registry: the static tables of language names and codes and
 * the three lookups built on them (code normalisation, Chinese display name,
 * support test).
 *
 * The name table is filled by a sequence of `put` calls, so a key written
 * twice keeps the value of its last write. Each group of `put` calls is a
 * lookup function of its own below, and `NameToCode` consults the groups from
 * the last to the first, which gives exactly the last-write-wins contents.
 */
module LanguageUtils {
  import opened JavaString

  const Unknown := "unknown"
  const UnknownLanguageName := "未知語言"

  /** Entries put into the name table for the names registered together with their codes. */
  function AddedNames(k: string): Option<string>
  {
    match k
    case "中文" => Some("zh")
    case "英文" => Some("en")
    case "日文" => Some("ja")
    case "韓文" => Some("ko")
    case "法文" => Some("fr")
    case "德文" => Some("de")
    case "西班牙文" => Some("es")
    case "葡萄牙文" => Some("pt")
    case "義大利文" => Some("it")
    case "俄文" => Some("ru")
    case "阿拉伯文" => Some("ar")
    case "泰文" => Some("th")
    case "越南文" => Some("vi")
    case "印尼文" => Some("id")
    case "馬來文" => Some("ms")
    case "繁體中文" => Some("zh-TW")
    case "簡體中文" => Some("zh-CN")
    case "荷蘭文" => Some("nl")
    case "希臘文" => Some("el")
    case "波蘭文" => Some("pl")
    case "土耳其文" => Some("tr")
    case "捷克文" => Some("cs")
    case "瑞典文" => Some("sv")
    case "丹麥文" => Some("da")
    case "芬蘭文" => Some("fi")
    case "印地文" => Some("hi")
    case _ => None
  }

  /** Entries put into the name table for Chinese aliases and romanised nicknames. */
  function Aliases(k: string): Option<string>
  {
    match k
    case "英語" => Some("en")
    case "日語" => Some("ja")
    case "韓語" => Some("ko")
    case "法語" => Some("fr")
    case "德語" => Some("de")
    case "西班牙語" => Some("es")
    case "葡萄牙語" => Some("pt")
    case "義大利語" => Some("it")
    case "俄語" => Some("ru")
    case "阿拉伯語" => Some("ar")
    case "泰語" => Some("th")
    case "越南語" => Some("vi")
    case "印尼語" => Some("id")
    case "馬來語" => Some("ms")
    case "荷蘭語" => Some("nl")
    case "希臘語" => Some("el")
    case "波蘭語" => Some("pl")
    case "土耳其語" => Some("tr")
    case "捷克語" => Some("cs")
    case "瑞典語" => Some("sv")
    case "丹麥語" => Some("da")
    case "芬蘭語" => Some("fi")
    case "印地語" => Some("hi")
    case "jp" => Some("ja")
    case "jap" => Some("ja")
    case "japan" => Some("ja")
    case "cn" => Some("zh-CN")
    case "tw" => Some("zh-TW")
    case "kr" => Some("ko")
    case _ => None
  }

  /** Entries put into the name table for country codes of Europe and the Middle East. */
  function EuropeCountries(k: string): Option<string>
  {
    match k
    case "no" => Some("nb")
    case "nor" => Some("nb")
    case "se" => Some("sv")
    case "swe" => Some("sv")
    case "dk" => Some("da")
    case "den" => Some("da")
    case "fi" => Some("fi")
    case "fin" => Some("fi")
    case "is" => Some("is")
    case "ice" => Some("is")
    case "nl" => Some("nl")
    case "net" => Some("nl")
    case "be" => Some("nl")
    case "de" => Some("de")
    case "ger" => Some("de")
    case "at" => Some("de")
    case "ch" => Some("de")
    case "fr" => Some("fr")
    case "fra" => Some("fr")
    case "it" => Some("it")
    case "ita" => Some("it")
    case "es" => Some("es")
    case "spa" => Some("es")
    case "pt" => Some("pt")
    case "por" => Some("pt")
    case "br" => Some("pt")
    case "gr" => Some("el")
    case "gre" => Some("el")
    case "pl" => Some("pl")
    case "pol" => Some("pl")
    case "cz" => Some("cs")
    case "cze" => Some("cs")
    case "hu" => Some("hu")
    case "hun" => Some("hu")
    case "ru" => Some("ru")
    case "rus" => Some("ru")
    case "ua" => Some("uk")
    case "ukr" => Some("uk")
    case "tr" => Some("tr")
    case "tur" => Some("tr")
    case "il" => Some("he")
    case "he" => Some("he")
    case "heb" => Some("he")
    case "sa" => Some("ar")
    case "ar" => Some("ar")
    case "ara" => Some("ar")
    case _ => None
  }

  /** Entries put into the name table for country codes of Asia. */
  function AsiaCountries(k: string): Option<string>
  {
    match k
    case "cn" => Some("zh-CN")
    case "zh" => Some("zh")
    case "chi" => Some("zh")
    case "tw" => Some("zh-TW")
    case "hk" => Some("zh-TW")
    case "mo" => Some("zh-TW")
    case "sg" => Some("zh-CN")
    case "jp" => Some("ja")
    case "ja" => Some("ja")
    case "jap" => Some("ja")
    case "kr" => Some("ko")
    case "ko" => Some("ko")
    case "kor" => Some("ko")
    case "th" => Some("th")
    case "tha" => Some("th")
    case "vn" => Some("vi")
    case "vi" => Some("vi")
    case "vie" => Some("vi")
    case "id" => Some("id")
    case "ind" => Some("id")
    case "my" => Some("ms")
    case "ms" => Some("ms")
    case "may" => Some("ms")
    case "ph" => Some("tl")
    case "tl" => Some("tl")
    case "in" => Some("hi")
    case "hi" => Some("hi")
    case "hin" => Some("hi")
    case _ => None
  }

  /** Entries put into the name table for country codes of North America. */
  function NorthAmericaCountries(k: string): Option<string>
  {
    match k
    case "us" => Some("en")
    case "usa" => Some("en")
    case "en" => Some("en")
    case "eng" => Some("en")
    case "ca" => Some("en")
    case "can" => Some("en")
    case "mx" => Some("es")
    case _ => None
  }

  /** Entries put into the name table for country codes of South America. */
  function SouthAmericaCountries(k: string): Option<string>
  {
    match k
    case "br" => Some("pt")
    case "bra" => Some("pt")
    case "ar" => Some("es")
    case "arg" => Some("es")
    case _ => None
  }

  /** Entries put into the name table for country codes of Oceania. */
  function OceaniaCountries(k: string): Option<string>
  {
    match k
    case "au" => Some("en")
    case "aus" => Some("en")
    case "nz" => Some("en")
    case _ => None
  }

  /** The code table: every registered code and its Chinese name. */
  function CodeToName(c: string): Option<string>
  {
    match c
    case "zh" => Some("中文")
    case "en" => Some("英文")
    case "ja" => Some("日文")
    case "ko" => Some("韓文")
    case "fr" => Some("法文")
    case "de" => Some("德文")
    case "es" => Some("西班牙文")
    case "pt" => Some("葡萄牙文")
    case "it" => Some("義大利文")
    case "ru" => Some("俄文")
    case "ar" => Some("阿拉伯文")
    case "th" => Some("泰文")
    case "vi" => Some("越南文")
    case "id" => Some("印尼文")
    case "ms" => Some("馬來文")
    case "zh-TW" => Some("繁體中文")
    case "zh-CN" => Some("簡體中文")
    case "nl" => Some("荷蘭文")
    case "el" => Some("希臘文")
    case "pl" => Some("波蘭文")
    case "tr" => Some("土耳其文")
    case "cs" => Some("捷克文")
    case "sv" => Some("瑞典文")
    case "da" => Some("丹麥文")
    case "fi" => Some("芬蘭文")
    case "hi" => Some("印地文")
    case _ => None
  }

  /** The final contents of the name table: the group written last decides. */
  function NameToCode(k: string): Option<string>
  {
    var oceania := OceaniaCountries(k);
    if oceania.Some? then oceania else
    var southAmerica := SouthAmericaCountries(k);
    if southAmerica.Some? then southAmerica else
    var northAmerica := NorthAmericaCountries(k);
    if northAmerica.Some? then northAmerica else
    var asia := AsiaCountries(k);
    if asia.Some? then asia else
    var europe := EuropeCountries(k);
    if europe.Some? then europe else
    var aliases := Aliases(k);
    if aliases.Some? then aliases else
    AddedNames(k)
  }

  /** Some key of the name table compares equal to `n` once the key is lower-cased. */
  ghost predicate HasKeyIgnoringCase(n: string)
  {
    exists k :: NameToCode(k).Some? && ToLower(k) == n
  }

  // ---------------------------------------------------------------------------
  // Facts about the key sets
  // ---------------------------------------------------------------------------

  /** No key of the name table carries a capital letter: the codes with capitals are only ever values there. */
  lemma NameKeysLowerCase(k: string)
    requires NameToCode(k).Some?
    ensures NoUpper(k)
  {
    if OceaniaCountries(k).Some? { OceaniaCountriesKeysLowerCase(k); }
    if SouthAmericaCountries(k).Some? { SouthAmericaCountriesKeysLowerCase(k); }
    if NorthAmericaCountries(k).Some? { NorthAmericaCountriesKeysLowerCase(k); }
    if AsiaCountries(k).Some? { AsiaCountriesKeysLowerCase(k); }
    if EuropeCountries(k).Some? { EuropeCountriesKeysLowerCase(k); }
    if Aliases(k).Some? { AliasesKeysLowerCase(k); }
    if AddedNames(k).Some? { AddedNamesKeysLowerCase(k); }
  }

  lemma OceaniaCountriesKeysLowerCase(k: string)
    requires OceaniaCountries(k).Some?
    ensures NoUpper(k) && !IsChineseName(k)
  {
  }

  lemma SouthAmericaCountriesKeysLowerCase(k: string)
    requires SouthAmericaCountries(k).Some?
    ensures NoUpper(k) && !IsChineseName(k)
  {
  }

  lemma NorthAmericaCountriesKeysLowerCase(k: string)
    requires NorthAmericaCountries(k).Some?
    ensures NoUpper(k) && !IsChineseName(k)
  {
  }

  lemma AsiaCountriesKeysLowerCase(k: string)
    requires AsiaCountries(k).Some?
    ensures NoUpper(k) && !IsChineseName(k)
  {
  }

  lemma EuropeCountriesKeysLowerCase(k: string)
    requires EuropeCountries(k).Some?
    ensures NoUpper(k) && !IsChineseName(k)
  {
  }

  lemma AliasesKeysLowerCase(k: string)
    requires Aliases(k).Some?
    ensures NoUpper(k) && !IsChineseName(k)
  {
  }

  lemma AddedNamesKeysLowerCase(k: string)
    requires AddedNames(k).Some?
    ensures NoUpper(k)
  {
  }

  /** The registered Chinese names all end in 文, and no other key does. */
  predicate IsChineseName(k: string)
  {
    |k| > 0 && k[|k| - 1] == '文'
  }

  /** No key of either table is longer than five characters. */
  lemma KeysAreShort(k: string)
    requires NameToCode(k).Some? || CodeToName(k).Some?
    ensures |k| <= 5
  {
  }

  /** A word longer than five characters is in neither table. */
  lemma LongWordsAreNotKeys(k: string)
    requires |k| > 5
    ensures NameToCode(k) == None && CodeToName(k) == None
  {
    if NameToCode(k).Some? || CodeToName(k).Some? {
      KeysAreShort(k);
    }
  }

  /**
   * The case-insensitive scan over the name-table keys. Since no key has a
   * capital, the scan finds at most the key equal to its lower-case input, so
   * the table's iteration order cannot change the answer (`ScanIgnoringCaseSpec`).
   */
  function ScanIgnoringCase(n: string): Option<string>
  {
    NameToCode(n)
  }

  lemma ScanIgnoringCaseSpec(n: string)
    requires NoUpper(n)
    ensures ScanIgnoringCase(n).Some? <==> HasKeyIgnoringCase(n)
    ensures forall k :: NameToCode(k).Some? && ToLower(k) == n ==> ScanIgnoringCase(n) == NameToCode(k)
  {
    forall k | NameToCode(k).Some? && ToLower(k) == n
      ensures k == n
    {
      NameKeysLowerCase(k);
      ToLowerNoUpper(k);
    }
    if ScanIgnoringCase(n).Some? {
      ToLowerNoUpper(n);
      assert NameToCode(n).Some? && ToLower(n) == n;
    }
  }

  /** Each registered code's Chinese name is a name-table key leading back to that code, and is not itself a code. */
  lemma RegisteredNamesLeadBack(c: string)
    requires CodeToName(c).Some?
    ensures NameToCode(CodeToName(c).value) == Some(c)
    ensures CodeToName(CodeToName(c).value) == None
  {
    var name := CodeToName(c).value;
    CodeAndNameRegisteredTogether(c);
    if OceaniaCountries(name).Some? { OceaniaCountriesKeysLowerCase(name); }
    if SouthAmericaCountries(name).Some? { SouthAmericaCountriesKeysLowerCase(name); }
    if NorthAmericaCountries(name).Some? { NorthAmericaCountriesKeysLowerCase(name); }
    if AsiaCountries(name).Some? { AsiaCountriesKeysLowerCase(name); }
    if EuropeCountries(name).Some? { EuropeCountriesKeysLowerCase(name); }
    if Aliases(name).Some? { AliasesKeysLowerCase(name); }
    if CodeToName(name).Some? {
      CodesAreNotChineseNames(name);
    }
  }

  lemma CodeAndNameRegisteredTogether(c: string)
    requires CodeToName(c).Some?
    ensures AddedNames(CodeToName(c).value) == Some(c)
    ensures IsChineseName(CodeToName(c).value)
  {
  }

  lemma CodesAreNotChineseNames(c: string)
    requires CodeToName(c).Some?
    ensures !IsChineseName(c)
  {
  }

  /** Registered Chinese names are non-empty, without capitals, and without blanks at either end. */
  lemma RegisteredNamesArePlain(c: string)
    requires CodeToName(c).Some?
    ensures var n := CodeToName(c).value;
              n != [] && NoUpper(n) && !IsTrimmed(n[0]) && !IsTrimmed(n[|n| - 1])
  {
    CodeAndNameRegisteredTogether(c);
    RegisteredNamesHaveNoCapitals(c);
    RegisteredNamesStartWithALetter(c);
  }

  lemma RegisteredNamesHaveNoCapitals(c: string)
    requires CodeToName(c).Some?
    ensures NoUpper(CodeToName(c).value)
  {
  }

  lemma RegisteredNamesStartWithALetter(c: string)
    requires CodeToName(c).Some?
    ensures CodeToName(c).value != [] && !IsTrimmed(CodeToName(c).value[0])
  {
  }

  /** The trimmed, lower-cased form every lookup starts from. */
  function Normalize(s: string): (n: string)
    ensures NoUpper(n)
  {
    ToLowerNoUpper(Trim(s));
    ToLower(Trim(s))
  }

  /** A lower-case word without surrounding blanks is its own normal form. */
  lemma NormalizePlain(v: string)
    requires v != [] && NoUpper(v) && !IsTrimmed(v[0]) && !IsTrimmed(v[|v| - 1])
    ensures Normalize(v) == v
  {
    assert TrimStart(v) == v;
    assert TrimEnd(v) == v;
    ToLowerNoUpper(v);
  }

  /**
   * `toLanguageCode`: a registered code is returned in its normalised form, a
   * name or alias is replaced by its code (`ToLanguageCodeByName`), and
   * anything else comes back as given, untrimmed.
   */
  function ToLanguageCode(input: Option<string>): (r: string)
    ensures IsNullOrTrimEmpty(input) ==> r == Unknown
    ensures !IsNullOrTrimEmpty(input) && CodeToName(Normalize(input.value)).Some? ==> r == Normalize(input.value)
  {
    if IsNullOrTrimEmpty(input) then Unknown
    else
      var n := Normalize(input.value);
      if CodeToName(n).Some? then n
      else match ScanIgnoringCase(n)
        case Some(code) => code
        case None => input.value
  }

  /** When the input is not a code, a key equal to it ignoring case supplies the code; without one the input is returned as given. */
  lemma ToLanguageCodeByName(input: Option<string>)
    requires !IsNullOrTrimEmpty(input) && CodeToName(Normalize(input.value)).None?
    ensures forall k :: NameToCode(k).Some? && ToLower(k) == Normalize(input.value) ==>
                          ToLanguageCode(input) == NameToCode(k).value
    ensures !HasKeyIgnoringCase(Normalize(input.value)) ==> ToLanguageCode(input) == input.value
  {
    ScanIgnoringCaseSpec(Normalize(input.value));
  }

  /** `toChineseName`: the Chinese name of a registered code, otherwise the input as given. */
  function ToChineseName(input: Option<string>): (r: string)
    ensures IsNullOrTrimEmpty(input) ==> r == UnknownLanguageName
    ensures !IsNullOrTrimEmpty(input) && CodeToName(Normalize(input.value)).Some? ==>
              r == CodeToName(Normalize(input.value)).value
    ensures !IsNullOrTrimEmpty(input) && CodeToName(Normalize(input.value)).None? ==> r == input.value
  {
    if IsNullOrTrimEmpty(input) then UnknownLanguageName
    else
      match CodeToName(Normalize(input.value))
      case Some(name) => name
      case None => input.value
  }

  /** `isSupported`: a registered code, a name-table key, or a key that matches ignoring case. */
  function IsSupported(input: Option<string>): (r: bool)
    ensures IsNullOrTrimEmpty(input) ==> !r
    ensures !IsNullOrTrimEmpty(input) && CodeToName(Normalize(input.value)).Some? ==> r
  {
    if IsNullOrTrimEmpty(input) then false
    else
      var n := Normalize(input.value);
      if CodeToName(n).Some? then true
      else if NameToCode(n).Some? then true
      else ScanIgnoringCase(n).Some?
  }

  /** Support means: a registered code, or equal to some name-table key once that key is lower-cased. */
  lemma IsSupportedSpec(input: Option<string>)
    ensures IsSupported(input) <==>
              && !IsNullOrTrimEmpty(input)
              && (CodeToName(Normalize(input.value)).Some? || HasKeyIgnoringCase(Normalize(input.value)))
  {
    if !IsNullOrTrimEmpty(input) {
      var n := Normalize(input.value);
      ScanIgnoringCaseSpec(n);
      if NameToCode(n).Some? {
        ToLowerNoUpper(n);
        assert ToLower(n) == n;
      }
    }
  }

  // ---------------------------------------------------------------------------
  // Properties
  // ---------------------------------------------------------------------------

  /** Every value the name table can yield: a registered code, or one of six codes that only the country groups produce. */
  predicate IsTableValue(v: string)
  {
    CodeToName(v).Some? || v == "nb" || v == "is" || v == "hu" || v == "uk" || v == "he" || v == "tl"
  }

  lemma NameTableValues(k: string)
    requires NameToCode(k).Some?
    ensures IsTableValue(NameToCode(k).value)
  {
    if OceaniaCountries(k).Some? { OceaniaCountriesValues(k); }
    if SouthAmericaCountries(k).Some? { SouthAmericaCountriesValues(k); }
    if NorthAmericaCountries(k).Some? { NorthAmericaCountriesValues(k); }
    if AsiaCountries(k).Some? { AsiaCountriesValues(k); }
    if EuropeCountries(k).Some? { EuropeCountriesValues(k); }
    if Aliases(k).Some? { AliasesValues(k); }
    if AddedNames(k).Some? { AddedNamesValues(k); }
  }

  lemma OceaniaCountriesValues(k: string)
    requires OceaniaCountries(k).Some?
    ensures IsTableValue(OceaniaCountries(k).value)
  {
  }

  lemma SouthAmericaCountriesValues(k: string)
    requires SouthAmericaCountries(k).Some?
    ensures IsTableValue(SouthAmericaCountries(k).value)
  {
  }

  lemma NorthAmericaCountriesValues(k: string)
    requires NorthAmericaCountries(k).Some?
    ensures IsTableValue(NorthAmericaCountries(k).value)
  {
  }

  lemma AsiaCountriesValues(k: string)
    requires AsiaCountries(k).Some?
    ensures IsTableValue(AsiaCountries(k).value)
  {
  }

  lemma EuropeCountriesValues(k: string)
    requires EuropeCountries(k).Some?
    ensures IsTableValue(EuropeCountries(k).value)
  {
  }

  lemma AliasesValues(k: string)
    requires Aliases(k).Some?
    ensures IsTableValue(Aliases(k).value)
  {
  }

  lemma AddedNamesValues(k: string)
    requires AddedNames(k).Some?
    ensures IsTableValue(AddedNames(k).value)
  {
  }

  /** Only the two script-qualified Chinese codes carry capitals among the registered codes. */
  lemma CodesWithCapitals(c: string)
    requires CodeToName(c).Some? && !NoUpper(c)
    ensures c == "zh-TW" || c == "zh-CN"
  {
  }

  /** A five-character lower-case word with a hyphen in the middle is in neither table. */
  lemma HyphenatedWordsAreNotKeys(k: string)
    requires |k| == 5 && k[2] == '-' && NoUpper(k)
    ensures NameToCode(k) == None && CodeToName(k) == None
  {
    HyphenatedWordsAreNotNames(k);
    HyphenatedWordsAreNotCodes(k);
  }

  lemma HyphenatedWordsAreNotNames(k: string)
    requires |k| == 5 && k[2] == '-'
    ensures NameToCode(k) == None
  {
    assert k != "japan" by { assert "japan"[2] != '-'; }
  }

  lemma HyphenatedWordsAreNotCodes(k: string)
    requires |k| == 5 && NoUpper(k)
    ensures CodeToName(k) == None
  {
    assert k != "zh-TW" by { assert IsAsciiUpper("zh-TW"[3]); }
    assert k != "zh-CN" by { assert IsAsciiUpper("zh-CN"[3]); }
  }

  /** A supported input always resolves through the tables: to a registered code or to a value of the name table. */
  lemma SupportedInputsResolveThroughTables(input: Option<string>)
    requires IsSupported(input)
    ensures CodeToName(ToLanguageCode(input)).Some? || IsTableValue(ToLanguageCode(input))
  {
    IsSupportedSpec(input);
    var n := Normalize(input.value);
    if CodeToName(n).None? {
      var k :| NameToCode(k).Some? && ToLower(k) == n;
      NameTableValues(k);
      ToLanguageCodeByName(input);
    }
  }

  /** A registered lower-case code normalises to itself. */
  lemma RegisteredCodeIsFixedPoint(v: string)
    requires CodeToName(v).Some? && NoUpper(v)
    ensures ToLanguageCode(Some(v)) == v
  {
    assert v != [] && !IsTrimmed(v[0]) && !IsTrimmed(v[|v| - 1]);
    NormalizePlain(v);
  }

  /**
   * The script-qualified Chinese codes are not recognised by `toLanguageCode`:
   * normalising lower-cases them, and neither table has the lower-case spelling.
   * They come back unchanged, and `isSupported` rejects them.
   */
  lemma CapitalisedCodesPassThrough(v: string)
    requires v == "zh-TW" || v == "zh-CN"
    ensures ToLanguageCode(Some(v)) == v
    ensures !IsSupported(Some(v))
    ensures ToChineseName(Some(v)) == v
  {
    CapitalisedCodesAreNotKeysOnceLowered(v);
  }

  lemma CapitalisedCodesAreNotKeysOnceLowered(v: string)
    requires v == "zh-TW" || v == "zh-CN"
    ensures !IsNullOrTrimEmpty(Some(v))
    ensures NameToCode(Normalize(v)) == None && CodeToName(Normalize(v)) == None
  {
    assert TrimStart(v) == v && TrimEnd(v) == v;
    var n := Normalize(v);
    assert n == ToLower(v);
    assert |n| == 5 && n[2] == '-';
    HyphenatedWordsAreNotKeys(n);
  }

  /** Every value of the name table is already in normal form: normalising it again changes nothing. */
  lemma TableValuesAreFixedPoints(v: string)
    requires IsTableValue(v)
    ensures ToLanguageCode(Some(v)) == v
  {
    if CodeToName(v).Some? {
      if NoUpper(v) {
        RegisteredCodeIsFixedPoint(v);
      } else {
        CodesWithCapitals(v);
        CapitalisedCodesPassThrough(v);
      }
    } else {
      CountryOnlyCodeIsFixedPoint(v);
    }
  }

  /** The six codes that only country groups produce are fixed points too. */
  lemma CountryOnlyCodeIsFixedPoint(v: string)
    requires v == "nb" || v == "is" || v == "hu" || v == "uk" || v == "he" || v == "tl"
    ensures ToLanguageCode(Some(v)) == v
  {
    NormalizePlain(v);
    CountryOnlyCodeLookups(v);
  }

  lemma CountryOnlyCodeLookups(v: string)
    requires v == "nb" || v == "is" || v == "hu" || v == "uk" || v == "he" || v == "tl"
    ensures CodeToName(v) == None
    ensures NameToCode(v) == None || NameToCode(v) == Some(v)
  {
    CountryOnlyCodesInCountryGroups(v);
    CountryOnlyCodesInNameGroups(v);
  }

  lemma CountryOnlyCodesInCountryGroups(v: string)
    requires v == "nb" || v == "is" || v == "hu" || v == "uk" || v == "he" || v == "tl"
    ensures OceaniaCountries(v) == None && SouthAmericaCountries(v) == None && NorthAmericaCountries(v) == None
    ensures AsiaCountries(v) == None || AsiaCountries(v) == Some(v)
    ensures EuropeCountries(v) == None || EuropeCountries(v) == Some(v)
  {
  }

  lemma CountryOnlyCodesInNameGroups(v: string)
    requires v == "nb" || v == "is" || v == "hu" || v == "uk" || v == "he" || v == "tl"
    ensures CodeToName(v) == None && Aliases(v) == None && AddedNames(v) == None
  {
  }

  /** "unknown" is not a language: normalising it returns it unchanged. */
  lemma UnknownIsUnsupported()
    ensures !IsSupported(Some(Unknown))
    ensures ToLanguageCode(Some(Unknown)) == Unknown
  {
    UnsupportedLongWord(Unknown);
  }

  /** A word longer than five characters, with no blanks around it and no capitals, is unsupported and returned as given. */
  lemma UnsupportedLongWord(w: string)
    requires |w| > 5 && NoUpper(w) && !IsTrimmed(w[0]) && !IsTrimmed(w[|w| - 1])
    ensures !IsSupported(Some(w))
    ensures ToLanguageCode(Some(w)) == w
  {
    NormalizePlain(w);
    LongWordsAreNotKeys(w);
  }

  /** Normalising is idempotent: applying `toLanguageCode` to its own result changes nothing. */
  lemma ToLanguageCodeIdempotent(input: Option<string>)
    ensures ToLanguageCode(Some(ToLanguageCode(input))) == ToLanguageCode(input)
  {
    var r := ToLanguageCode(input);
    if IsNullOrTrimEmpty(input) {
      UnknownIsUnsupported();
    } else {
      var n := Normalize(input.value);
      if CodeToName(n).Some? {
        RegisteredCodeIsFixedPoint(n);
      } else if HasKeyIgnoringCase(n) {
        var k :| NameToCode(k).Some? && ToLower(k) == n;
        NameTableValues(k);
        ToLanguageCodeByName(input);
        TableValuesAreFixedPoints(r);
      } else {
        ToLanguageCodeByName(input);
        assert r == input.value;
      }
    }
  }

  /** A registered Chinese name normalises to the code it was registered with. */
  lemma NameToCodeRoundTrip(code: string)
    requires CodeToName(code).Some?
    ensures ToLanguageCode(Some(CodeToName(code).value)) == code
  {
    var name := CodeToName(code).value;
    RegisteredNamesArePlain(code);
    RegisteredNamesLeadBack(code);
    NormalizePlain(name);
  }

  /**
   * A registered code's Chinese name is found again from the code, except for
   * the two script-qualified Chinese codes, whose capitals normalisation loses.
   */
  lemma CodeToNameRoundTrip(code: string)
    requires CodeToName(code).Some?
    ensures NoUpper(code) ==> ToChineseName(Some(code)) == CodeToName(code).value
    ensures !NoUpper(code) ==> (code == "zh-TW" || code == "zh-CN") && ToChineseName(Some(code)) == code
  {
    if NoUpper(code) {
      assert code != [] && !IsTrimmed(code[0]) && !IsTrimmed(code[|code| - 1]);
      NormalizePlain(code);
    } else {
      CodesWithCapitals(code);
      CapitalisedCodesPassThrough(code);
    }
  }

  /** Country codes and romanised nicknames resolve, whatever their case and surrounding blanks, to the code of their last registration. */
  lemma CountryCodeExample(jp: string)
    requires jp == " JP "
    ensures ToLanguageCode(Some(jp)) == "ja"
  {
    TrimPadded(" ", "JP", " ");
    assert jp == " " + "JP" + " ";
    var n := Normalize(jp);
    assert |n| == 2 && n[0] == 'j' && n[1] == 'p';
    assert n == "jp";
    assert CodeToName("jp") == None && NameToCode("jp") == Some("ja");
  }

  /** A later registration overrides an earlier one: "arg" is Argentina, hence Spanish. */
  lemma LaterRegistrationExample(arg: string)
    requires arg == "arg"
    ensures ToLanguageCode(Some(arg)) == "es"
  {
    NormalizePlain(arg);
    assert CodeToName(arg) == None && NameToCode(arg) == Some("es");
  }

  /** A nickname in mixed case is supported and yields the script-qualified code. */
  lemma MixedCaseNicknameExample(tw: string)
    requires tw == "Tw"
    ensures IsSupported(Some(tw)) && ToLanguageCode(Some(tw)) == "zh-TW"
  {
    TrimPadded("", tw, "");
    assert "" + tw + "" == tw;
    var n := Normalize(tw);
    assert |n| == 2 && n[0] == 't' && n[1] == 'w';
    assert n == "tw";
    assert CodeToName("tw") == None && NameToCode("tw") == Some("zh-TW");
  }

  /** "ar" is registered as the code for Arabic, so it stays "ar" even though its country entry was overwritten to Spanish. */
  lemma ArabicCodeWinsOverCountry(ar: string)
    requires ar == "ar"
    ensures NameToCode(ar) == Some("es")
    ensures ToLanguageCode(Some(ar)) == "ar"
    ensures ToChineseName(Some(ar)) == "阿拉伯文"
  {
    RegisteredCodeIsFixedPoint(ar);
    NormalizePlain(ar);
  }
}

=== FILE: translation_command.dfy ===
/**
 * Recognising an explicit translation instruction in a chat message.
 *
 * Four patterns are tried in order: a multi-line form with a Chinese language
 * name, a multi-line form with a language code, and, for messages that start
 * with the keyword, a single-line form with a Chinese name and one with a code.
 * The regular expressions are modelled by the scans a backtracking matcher
 * performs for them; the lemmas then characterise each scan declaratively.
 */
module TranslationCommand {
  import opened JavaString
  import LanguageUtils

  /** The instruction keyword, "translate into". */
  const Keyword: string := "翻譯成"

  /** The two language-token classes: CJK ideographs U+4E00..U+9FA5, or ASCII letters and '-'. */
  datatype TokenClass = ChineseName | LetterCode

  predicate InClass(cls: TokenClass, c: char)
  {
    match cls
    case ChineseName => '\U{4E00}' <= c <= '\U{9FA5}'
    case LetterCode => IsAsciiLetter(c) || c == '-'
  }

  // ---------------------------------------------------------------------------
  // Runs used by the greedy parts of the patterns
  // ---------------------------------------------------------------------------

  /** End of the maximal run of `cls` characters starting at `i` (greedy `[...]+` / `[...]*`). */
  function ClassRunEnd(text: string, i: nat, cls: TokenClass): (j: nat)
    requires i <= |text|
    ensures i <= j <= |text|
    ensures j == |text| || !InClass(cls, text[j])
    decreases |text| - i
  {
    if i < |text| && InClass(cls, text[i]) then ClassRunEnd(text, i + 1, cls) else i
  }

  lemma ClassRunIsInClass(text: string, i: nat, cls: TokenClass)
    requires i <= |text|
    ensures forall k :: i <= k < ClassRunEnd(text, i, cls) ==> InClass(cls, text[k])
    decreases |text| - i
  {
    if i < |text| && InClass(cls, text[i]) {
      ClassRunIsInClass(text, i + 1, cls);
    }
  }

  /** End of the maximal run of `\s` characters starting at `i` (greedy `\s*`). */
  function SpaceRunEnd(text: string, i: nat): (j: nat)
    requires i <= |text|
    ensures i <= j <= |text|
    ensures j == |text| || !IsRegexSpace(text[j])
    decreases |text| - i
  {
    if i < |text| && IsRegexSpace(text[i]) then SpaceRunEnd(text, i + 1) else i
  }

  /** The first line terminator at or after `i`, or the end of the text (greedy `.*` stops there). */
  function NextTerminator(text: string, i: nat): (j: nat)
    requires i <= |text|
    ensures i <= j <= |text|
    ensures forall k :: i <= k < j ==> !IsLineTerminator(text[k])
    ensures j == |text| || IsLineTerminator(text[j])
    decreases |text| - i
  {
    if i < |text| && !IsLineTerminator(text[i]) then NextTerminator(text, i + 1) else i
  }

  // ---------------------------------------------------------------------------
  // The common tail: 翻譯成(token+)\s*(.*)
  // ---------------------------------------------------------------------------

  /** The captures of the tail: the language token and the rest of its line. */
  datatype Tail = Tail(lang: string, rest: string)

  /**
   * The tail matched at position `p`. The token run is greedy and what follows
   * it can always match, so the matcher never backtracks into the token: the
   * tail matches exactly when the keyword is followed by one token character.
   */
  function TailAt(text: string, p: nat, cls: TokenClass): (t: Option<Tail>)
    requires p <= |text|
    ensures t.Some? <==> OccursAt(text, p, Keyword) && p + 3 < |text| && InClass(cls, text[p + 3])
    ensures t.Some? ==> t.value.lang != [] && forall k :: 0 <= k < |t.value.lang| ==> InClass(cls, t.value.lang[k])
    ensures t.Some? ==> forall k :: 0 <= k < |t.value.rest| ==> !IsLineTerminator(t.value.rest[k])
  {
    if OccursAt(text, p, Keyword) && p + 3 < |text| && InClass(cls, text[p + 3]) then
      var tokenEnd := ClassRunEnd(text, p + 3, cls);
      ClassRunIsInClass(text, p + 3, cls);
      var restStart := SpaceRunEnd(text, tokenEnd);
      var restEnd := NextTerminator(text, restStart);
      Some(Tail(text[p + 3..tokenEnd], text[restStart..restEnd]))
    else
      None
  }

  /** The token is the whole run of token characters after the keyword: the next character, if any, is not one. */
  lemma TailTokenIsMaximal(text: string, p: nat, cls: TokenClass)
    requires p <= |text| && TailAt(text, p, cls).Some?
    ensures var e := p + 3 + |TailAt(text, p, cls).value.lang|;
              && e <= |text| && text[p + 3..e] == TailAt(text, p, cls).value.lang
              && (e == |text| || !InClass(cls, text[e]))
  {
  }

  /** Between the token and the rest of the line there are only `\s` characters. */
  lemma SpaceRunIsSpace(text: string, i: nat)
    requires i <= |text|
    ensures forall k :: i <= k < SpaceRunEnd(text, i) ==> IsRegexSpace(text[k])
    decreases |text| - i
  {
    if i < |text| && IsRegexSpace(text[i]) {
      SpaceRunIsSpace(text, i + 1);
    }
  }

  // ---------------------------------------------------------------------------
  // Single-line form: find() of 翻譯成(token+)\s*(.*)
  // ---------------------------------------------------------------------------

  /** `Matcher.find()`: the leftmost position from `i` on where the tail matches. */
  function FindTailFrom(text: string, i: nat, cls: TokenClass): (r: Option<(nat, Tail)>)
    requires i <= |text|
    ensures r.Some? ==> i <= r.value.0 <= |text| && TailAt(text, r.value.0, cls) == Some(r.value.1)
    ensures r.Some? ==> forall q :: i <= q < r.value.0 ==> TailAt(text, q, cls).None?
    ensures r.None? ==> forall q :: i <= q <= |text| ==> TailAt(text, q, cls).None?
    decreases |text| - i
  {
    match TailAt(text, i, cls)
    case Some(t) => Some((i, t))
    case None => if i == |text| then None else FindTailFrom(text, i + 1, cls)
  }

  function FindTail(text: string, cls: TokenClass): Option<Tail>
  {
    match FindTailFrom(text, 0, cls)
    case Some(found) => Some(found.1)
    case None => None
  }

  // ---------------------------------------------------------------------------
  // Multi-line form: find() of (.*?)\n翻譯成(token+)\s*(.*)
  // ---------------------------------------------------------------------------

  /** A multi-line match: the start of group 1, the position of its newline, and the tail's captures. */
  datatype LineMatch = LineMatch(start: nat, newline: nat, tail: Tail)

  /** Group 1 of a multi-line match: the text between the match start and the newline. */
  function LineOf(text: string, m: LineMatch): string
    requires m.start <= m.newline <= |text|
  {
    text[m.start..m.newline]
  }

  /**
   * The lazy `(.*?)` anchored at `start`, currently having consumed up to `j`:
   * it first tries to continue with `\n` and the tail, and only if that fails
   * consumes one more character, which `.` refuses for a line terminator.
   */
  function LazyLine(text: string, start: nat, j: nat, cls: TokenClass): (r: Option<LineMatch>)
    requires start <= j <= |text|
    ensures r.Some? ==> r.value.start == start && j <= r.value.newline < |text|
    decreases |text| - j
  {
    if j < |text| && text[j] == '\n' && TailAt(text, j + 1, cls).Some? then
      Some(LineMatch(start, j, TailAt(text, j + 1, cls).value))
    else if j < |text| && !IsLineTerminator(text[j]) then
      LazyLine(text, start, j + 1, cls)
    else
      None
  }

  /** `Matcher.find()` from start position `i` on. */
  function MultiLineFrom(text: string, i: nat, cls: TokenClass): (r: Option<LineMatch>)
    requires i <= |text|
    ensures r.Some? ==> i <= r.value.start <= r.value.newline < |text|
    decreases |text| - i
  {
    var m := LazyLine(text, i, i, cls);
    if m.Some? then m
    else if i == |text| then None
    else MultiLineFrom(text, i + 1, cls)
  }

  function FindMultiLine(text: string, cls: TokenClass): (r: Option<LineMatch>)
    ensures r.Some? ==> r.value.start <= r.value.newline < |text|
  {
    MultiLineFrom(text, 0, cls)
  }

  // --- A declarative description of the multi-line match ---------------------

  /** A newline at `p` immediately followed by the tail: a place where an instruction line begins. */
  predicate IsTrigger(text: string, p: nat, cls: TokenClass)
  {
    p < |text| && text[p] == '\n' && TailAt(text, p + 1, cls).Some?
  }

  /** The first trigger at or after `i`. */
  function FirstTriggerFrom(text: string, i: nat, cls: TokenClass): (r: Option<nat>)
    requires i <= |text|
    ensures r.Some? ==> i <= r.value < |text| && IsTrigger(text, r.value, cls)
    ensures r.Some? ==> forall q :: i <= q < r.value ==> !IsTrigger(text, q, cls)
    ensures r.None? ==> forall q :: i <= q < |text| ==> !IsTrigger(text, q, cls)
    decreases |text| - i
  {
    if i == |text| then None
    else if IsTrigger(text, i, cls) then Some(i)
    else FirstTriggerFrom(text, i + 1, cls)
  }

  /** The start of the line that contains position `p`: just after the previous line terminator, or 0. */
  function LineStart(text: string, p: nat): (s: nat)
    requires p <= |text|
    ensures s <= p
    ensures s == 0 || IsLineTerminator(text[s - 1])
    ensures forall k :: s <= k < p ==> !IsLineTerminator(text[k])
  {
    if p == 0 || IsLineTerminator(text[p - 1]) then p else LineStart(text, p - 1)
  }

  function Max(a: nat, b: nat): nat
  {
    if a < b then b else a
  }

  /** The match of group 1 from `start` when its line ends at `q`: present exactly when `q` is a trigger. */
  function TriggerMatch(text: string, start: nat, q: nat, cls: TokenClass): Option<LineMatch>
  {
    if IsTrigger(text, q, cls) then Some(LineMatch(start, q, TailAt(text, q + 1, cls).value)) else None
  }

  /** The lazy group stops at the first line terminator: it succeeds exactly when that terminator is a trigger. */
  lemma {:induction false} LazyLineStopsAtTerminator(text: string, start: nat, j: nat, cls: TokenClass)
    requires start <= j <= |text|
    ensures LazyLine(text, start, j, cls) == TriggerMatch(text, start, NextTerminator(text, j), cls)
    decreases |text| - j
  {
    if j < |text| && !IsLineTerminator(text[j]) {
      assert LazyLine(text, start, j, cls) == LazyLine(text, start, j + 1, cls);
      assert NextTerminator(text, j) == NextTerminator(text, j + 1);
      LazyLineStopsAtTerminator(text, start, j + 1, cls);
    } else {
      assert NextTerminator(text, j) == j;
    }
  }

  /**
   * From start position `i`, find() reports the first trigger at or after `i`,
   * with group 1 starting at the beginning of that trigger's line (or at `i`
   * when the line began earlier).
   */
  lemma {:induction false} MultiLineFromSpec(text: string, i: nat, cls: TokenClass)
    requires i <= |text|
    ensures FirstTriggerFrom(text, i, cls).None? ==> MultiLineFrom(text, i, cls) == None
    ensures FirstTriggerFrom(text, i, cls).Some? ==>
              var p := FirstTriggerFrom(text, i, cls).value;
              MultiLineFrom(text, i, cls) == Some(LineMatch(Max(i, LineStart(text, p)), p, TailAt(text, p + 1, cls).value))
  {
    if FirstTriggerFrom(text, i, cls).None? {
      NoTriggerNoMatch(text, i, cls);
    } else {
      FirstTriggerMatches(text, i, FirstTriggerFrom(text, i, cls).value, cls);
    }
  }

  lemma {:induction false} NoTriggerNoMatch(text: string, i: nat, cls: TokenClass)
    requires i <= |text| && FirstTriggerFrom(text, i, cls).None?
    ensures MultiLineFrom(text, i, cls) == None
    decreases |text| - i
  {
    LazyLineStopsAtTerminator(text, i, i, cls);
    if i < |text| {
      assert FirstTriggerFrom(text, i + 1, cls).None?;
      NoTriggerNoMatch(text, i + 1, cls);
    }
  }

  lemma {:induction false} FirstTriggerMatches(text: string, i: nat, p: nat, cls: TokenClass)
    requires i <= |text| && FirstTriggerFrom(text, i, cls) == Some(p)
    ensures MultiLineFrom(text, i, cls) == TriggerMatch(text, Max(i, LineStart(text, p)), p, cls)
    decreases |text| - i
  {
    if IsTrigger(text, NextTerminator(text, i), cls) {
      MatchAtFirstTrigger(text, i, cls);
    } else {
      SkipToFirstTrigger(text, i, p, cls);
      FirstTriggerMatches(text, i + 1, p, cls);
      SkipKeepsMatch(text, i, p, cls);
    }
  }

  /** When the line through `i` ends in a trigger, that trigger is the first one and find() reports it. */
  lemma MatchAtFirstTrigger(text: string, i: nat, cls: TokenClass)
    requires i <= |text| && IsTrigger(text, NextTerminator(text, i), cls)
    ensures var q := NextTerminator(text, i);
      && FirstTriggerFrom(text, i, cls) == Some(q)
      && MultiLineFrom(text, i, cls) == TriggerMatch(text, Max(i, LineStart(text, q)), q, cls)
  {
    MatchAtOwnLine(text, i, cls);
  }

  /** Skipping a start position whose line does not end in a trigger keeps the same first trigger. */
  lemma SkipToFirstTrigger(text: string, i: nat, p: nat, cls: TokenClass)
    requires i <= |text| && FirstTriggerFrom(text, i, cls) == Some(p)
    requires !IsTrigger(text, NextTerminator(text, i), cls)
    ensures i + 1 <= |text| && FirstTriggerFrom(text, i + 1, cls) == Some(p)
  {
    SkipNonMatchingStart(text, i, cls);
  }

  /** The match found from `i + 1` is the one found from `i` when the line through `i` does not end in a trigger. */
  lemma SkipKeepsMatch(text: string, i: nat, p: nat, cls: TokenClass)
    requires i < |text| && FirstTriggerFrom(text, i, cls) == Some(p)
    requires !IsTrigger(text, NextTerminator(text, i), cls)
    requires MultiLineFrom(text, i + 1, cls) == TriggerMatch(text, Max(i + 1, LineStart(text, p)), p, cls)
    ensures MultiLineFrom(text, i, cls) == TriggerMatch(text, Max(i, LineStart(text, p)), p, cls)
  {
    SkipNonMatchingStart(text, i, cls);
    assert Max(i + 1, LineStart(text, p)) == Max(i, LineStart(text, p));
  }

  /** When the line through `i` ends in a trigger, find() from `i` succeeds right there. */
  lemma MatchAtOwnLine(text: string, i: nat, cls: TokenClass)
    requires i <= |text| && IsTrigger(text, NextTerminator(text, i), cls)
    ensures var q := NextTerminator(text, i);
              && FirstTriggerFrom(text, i, cls) == Some(q)
              && Max(i, LineStart(text, q)) == i
              && MultiLineFrom(text, i, cls) == Some(LineMatch(i, q, TailAt(text, q + 1, cls).value))
  {
    var q := NextTerminator(text, i);
    LazyLineStopsAtTerminator(text, i, i, cls);
    FirstTriggerIsNextTrigger(text, i, q, cls);
    LineStartWithinLine(text, i, q);
  }

  /** When the line through `i` does not end in a trigger, find() moves on to `i + 1` and so does the first trigger. */
  lemma SkipNonMatchingStart(text: string, i: nat, cls: TokenClass)
    requires i < |text| && !IsTrigger(text, NextTerminator(text, i), cls)
    ensures MultiLineFrom(text, i, cls) == MultiLineFrom(text, i + 1, cls)
    ensures FirstTriggerFrom(text, i, cls) == FirstTriggerFrom(text, i + 1, cls)
    ensures FirstTriggerFrom(text, i + 1, cls).Some? ==> LineStart(text, FirstTriggerFrom(text, i + 1, cls).value) > i
  {
    var q := NextTerminator(text, i);
    LazyLineStopsAtTerminator(text, i, i, cls);
    assert !IsTrigger(text, i, cls) by {
      if text[i] == '\n' {
        assert q == i;
      }
    }
    if FirstTriggerFrom(text, i + 1, cls).Some? {
      LaterTriggerStartsLaterLine(text, i, FirstTriggerFrom(text, i + 1, cls).value, cls);
    }
  }

  /** When the line through `i` does not end in a trigger, the next trigger lies on a later line. */
  lemma LaterTriggerStartsLaterLine(text: string, i: nat, p: nat, cls: TokenClass)
    requires i < p && IsTrigger(text, p, cls)
    requires !IsTrigger(text, NextTerminator(text, i), cls)
    ensures LineStart(text, p) > i
  {
    if LineStart(text, p) <= i {
      NextTerminatorIs(text, i, p);
    }
  }

  lemma NextTerminatorIs(text: string, i: nat, p: nat)
    requires i <= p < |text| && IsLineTerminator(text[p])
    requires forall k :: i <= k < p ==> !IsLineTerminator(text[k])
    ensures NextTerminator(text, i) == p
    decreases p - i
  {
    if i < p {
      NextTerminatorIs(text, i + 1, p);
    }
  }

  /** A trigger that is the first terminator at or after `i` is the first trigger at or after `i`. */
  lemma FirstTriggerIsNextTrigger(text: string, i: nat, q: nat, cls: TokenClass)
    requires i <= |text| && q == NextTerminator(text, i) && IsTrigger(text, q, cls)
    ensures FirstTriggerFrom(text, i, cls) == Some(q)
  {
    var r := FirstTriggerFrom(text, i, cls);
    assert r.Some?;
  }

  /** A position with no terminator between it and `q` lies in the line of `q`. */
  lemma LineStartWithinLine(text: string, i: nat, q: nat)
    requires i <= q <= |text|
    requires forall k :: i <= k < q ==> !IsLineTerminator(text[k])
    ensures LineStart(text, q) <= i
    decreases q
  {
    if q > i {
      assert !IsLineTerminator(text[q - 1]);
      LineStartWithinLine(text, i, q - 1);
    }
  }

  /**
   * The multi-line match, described without the scan: it is anchored at the
   * first newline that is followed by the keyword and a token character, and
   * group 1 is the entire line before that newline. Earlier lines are ignored.
   */
  lemma FindMultiLineSpec(text: string, cls: TokenClass)
    ensures FirstTriggerFrom(text, 0, cls).None? ==> FindMultiLine(text, cls) == None
    ensures FirstTriggerFrom(text, 0, cls).Some? ==>
              var p := FirstTriggerFrom(text, 0, cls).value;
              FindMultiLine(text, cls) == Some(LineMatch(LineStart(text, p), p, TailAt(text, p + 1, cls).value))
  {
    MultiLineFromSpec(text, 0, cls);
  }

  // ---------------------------------------------------------------------------
  // The request a message expresses
  // ---------------------------------------------------------------------------

  /** What the message asks for: an explicit target, a prompt for the missing text, or automatic detection. */
  datatype Request =
    | Explicit(source: string, target: string)
    | MissingText(reply: string)
    | AutoDetect(text: string)

  /** The target a token names: Chinese names go through the registry, codes are only lower-cased. */
  function TargetOf(lang: string, cls: TokenClass): string
  {
    match cls
    case ChineseName => LanguageUtils.ToLanguageCode(Some(lang))
    case LetterCode => ToLower(lang)
  }

  /**
   * The multi-line form: group 1 trimmed, with the trimmed rest of the
   * instruction line appended after a space when it is not empty. Only when
   * both are empty is the text reported missing.
   */
  function MultiLineRequest(text: string, m: LineMatch, cls: TokenClass): (r: Request)
    requires m.start <= m.newline <= |text|
    ensures var line := Trim(LineOf(text, m));
      r.MissingText? <==> line == [] && Trim(m.tail.rest) == []
    ensures r.MissingText? ==> r.reply == "請提供要翻譯成" + m.tail.lang + "的文字。"
    ensures r.Explicit? && Trim(m.tail.rest) == [] ==> r.source == Trim(LineOf(text, m))
    ensures r.Explicit? && Trim(m.tail.rest) != [] ==> r.source == Trim(LineOf(text, m)) + " " + Trim(m.tail.rest)
    ensures r.Explicit? ==> r.target == TargetOf(m.tail.lang, cls)
    ensures !r.AutoDetect?
  {
    var line := Trim(LineOf(text, m));
    var extra := Trim(m.tail.rest);
    var source := if extra != [] then line + " " + extra else line;
    if source == [] then MissingText("請提供要翻譯成" + m.tail.lang + "的文字。")
    else Explicit(source, TargetOf(m.tail.lang, cls))
  }

  /** The single-line form: the trimmed rest of the line is the text to translate. */
  function SingleLineRequest(t: Tail, cls: TokenClass): (r: Request)
    ensures r.Explicit? ==> r.source == Trim(t.rest) && r.source != [] && r.target == TargetOf(t.lang, cls)
    ensures r.MissingText? ==> Trim(t.rest) == [] && r.reply == "請在「翻譯成" + t.lang + "」後面輸入要翻譯的文字。"
    ensures !r.AutoDetect?
  {
    var source := Trim(t.rest);
    if source == [] then MissingText("請在「翻譯成" + t.lang + "」後面輸入要翻譯的文字。")
    else Explicit(source, TargetOf(t.lang, cls))
  }

  /** `processTranslationRequest`'s choice among the four instruction forms and automatic detection. */
  function ParseRequest(text: string): (r: Request)
    ensures r.Explicit? ==> r.source != []
    ensures r.AutoDetect? ==> r.text == text
  {
    match FindMultiLine(text, ChineseName)
    case Some(m) => MultiLineRequest(text, m, ChineseName)
    case None =>
      match FindMultiLine(text, LetterCode)
      case Some(m) => MultiLineRequest(text, m, LetterCode)
      case None =>
        if !StartsWith(text, Keyword) then AutoDetect(text)
        else
          match FindTail(text, ChineseName)
          case Some(t) => SingleLineRequest(t, ChineseName)
          case None =>
            match FindTail(text, LetterCode)
            case Some(t) => SingleLineRequest(t, LetterCode)
            case None => AutoDetect(text)
  }

  // ---------------------------------------------------------------------------
  // Properties of the request parser
  // ---------------------------------------------------------------------------

  /** Without the keyword anywhere, no form matches and the message is auto-detected. */
  lemma NoKeywordMeansAutoDetect(text: string)
    requires !Contains(text, Keyword)
    ensures ParseRequest(text) == AutoDetect(text)
  {
    forall cls: TokenClass, p: nat | p <= |text| ensures TailAt(text, p, cls).None? {
      assert !OccursAt(text, p, Keyword);
    }
    FindMultiLineSpec(text, ChineseName);
    FindMultiLineSpec(text, LetterCode);
    assert !OccursAt(text, 0, Keyword);
  }

  /** An explicit code target is the token lower-cased: non-empty, only lower-case letters and '-'. */
  lemma CodeTargetIsLowerCaseToken(lang: string)
    requires lang != [] && forall k :: 0 <= k < |lang| ==> InClass(LetterCode, lang[k])
    ensures var t := TargetOf(lang, LetterCode);
              t != [] && forall k :: 0 <= k < |t| ==> ('a' <= t[k] <= 'z' || t[k] == '-')
  {
  }

  /** In the multi-line form, an empty line before the instruction leaves a leading space in the text to translate. */
  lemma EmptyLineKeepsLeadingSpace(text: string, m: LineMatch, cls: TokenClass)
    requires m.start <= m.newline <= |text|
    requires Trim(LineOf(text, m)) == [] && Trim(m.tail.rest) != []
    ensures MultiLineRequest(text, m, cls) == Explicit(" " + Trim(m.tail.rest), TargetOf(m.tail.lang, cls))
  {
    var extra := Trim(m.tail.rest);
    EmptyHeadJoin(Trim(LineOf(text, m)), extra);
  }

  lemma EmptyHeadJoin(line: string, extra: string)
    requires line == []
    ensures line + " " + extra == " " + extra
  {
  }

  /**
   * A multi-line instruction whose newline is the first trigger wins over any
   * single-line reading, and its group 1 is the full preceding line.
   */
  lemma MultiLineTakesPrecedence(text: string, p: nat)
    requires FirstTriggerFrom(text, 0, ChineseName) == Some(p)
    ensures ParseRequest(text) == MultiLineRequest(text, LineMatch(LineStart(text, p), p, TailAt(text, p + 1, ChineseName).value), ChineseName)
  {
    var m := LineMatch(LineStart(text, p), p, TailAt(text, p + 1, ChineseName).value);
    assert FindMultiLine(text, ChineseName) == Some(m) by {
      FindMultiLineSpec(text, ChineseName);
    }
  }

  /**
   * The multi-line form with a code is tried before either single-line form:
   * when no Chinese-name instruction line exists, the first code instruction
   * line decides, even in a message that starts with the keyword.
   */
  lemma MultiLineCodeBeatsSingleLine(text: string, p: nat)
    requires FirstTriggerFrom(text, 0, ChineseName).None?
    requires FirstTriggerFrom(text, 0, LetterCode) == Some(p)
    ensures ParseRequest(text) == MultiLineRequest(text, LineMatch(LineStart(text, p), p, TailAt(text, p + 1, LetterCode).value), LetterCode)
  {
    var m := LineMatch(LineStart(text, p), p, TailAt(text, p + 1, LetterCode).value);
    assert FindMultiLine(text, ChineseName).None? by {
      FindMultiLineSpec(text, ChineseName);
    }
    assert FindMultiLine(text, LetterCode) == Some(m) by {
      FindMultiLineSpec(text, LetterCode);
    }
  }

  /**
   * With no instruction line, a message that starts with the keyword is read
   * by the leftmost Chinese-name tail, wherever it is, before any code tail.
   */
  lemma SingleLineNameBeatsCode(text: string, q: nat)
    requires FirstTriggerFrom(text, 0, ChineseName).None? && FirstTriggerFrom(text, 0, LetterCode).None?
    requires StartsWith(text, Keyword)
    requires q <= |text| && TailAt(text, q, ChineseName).Some?
    requires forall k :: 0 <= k < q ==> TailAt(text, k, ChineseName).None?
    ensures ParseRequest(text) == SingleLineRequest(TailAt(text, q, ChineseName).value, ChineseName)
  {
    NoMultiLine(text);
    FindTailIsLeftmost(text, q, ChineseName);
  }

  /** Only when no Chinese-name tail exists does the leftmost code tail decide. */
  lemma SingleLineCodeWhenNoName(text: string, q: nat)
    requires FirstTriggerFrom(text, 0, ChineseName).None? && FirstTriggerFrom(text, 0, LetterCode).None?
    requires StartsWith(text, Keyword)
    requires forall k :: 0 <= k <= |text| ==> TailAt(text, k, ChineseName).None?
    requires q <= |text| && TailAt(text, q, LetterCode).Some?
    requires forall k :: 0 <= k < q ==> TailAt(text, k, LetterCode).None?
    ensures ParseRequest(text) == SingleLineRequest(TailAt(text, q, LetterCode).value, LetterCode)
  {
    NoMultiLine(text);
    FindTailIsLeftmost(text, q, LetterCode);
    FindTailNoneIff(text, ChineseName);
  }

  lemma NoMultiLine(text: string)
    ensures FirstTriggerFrom(text, 0, ChineseName).None? <==> FindMultiLine(text, ChineseName).None?
    ensures FirstTriggerFrom(text, 0, LetterCode).None? <==> FindMultiLine(text, LetterCode).None?
  {
    FindMultiLineSpec(text, ChineseName);
    FindMultiLineSpec(text, LetterCode);
  }

  /** `find()` reports the leftmost tail. */
  lemma FindTailIsLeftmost(text: string, q: nat, cls: TokenClass)
    requires q <= |text| && TailAt(text, q, cls).Some?
    requires forall k :: 0 <= k < q ==> TailAt(text, k, cls).None?
    ensures FindTail(text, cls) == TailAt(text, q, cls)
  {
    var r := FindTailFrom(text, 0, cls);
    assert r.Some? && r.value.0 == q;
  }

  /** `find()` fails exactly when no position has a tail. */
  lemma FindTailNoneIff(text: string, cls: TokenClass)
    ensures FindTail(text, cls).None? <==> forall k :: 0 <= k <= |text| ==> TailAt(text, k, cls).None?
  {
    var r := FindTailFrom(text, 0, cls);
    if r.Some? {
      assert TailAt(text, r.value.0, cls).Some?;
    }
  }

  /** The parser answers `AutoDetect` only after every form has failed. */
  lemma AutoDetectAfterEveryForm(text: string)
    ensures ParseRequest(text).AutoDetect? <==>
      && FindMultiLine(text, ChineseName).None? && FindMultiLine(text, LetterCode).None?
      && (!StartsWith(text, Keyword) || (FindTail(text, ChineseName).None? && FindTail(text, LetterCode).None?))
  {
  }

  /**
   * A message is auto-detected exactly when it has no instruction line and
   * either does not start with the keyword or has no keyword followed by a
   * token character anywhere. In particular a message that starts with
   * "翻譯成" but matches neither single-line form is translated whole.
   */
  lemma AutoDetectExactly(text: string)
    ensures ParseRequest(text).AutoDetect? <==>
      && FirstTriggerFrom(text, 0, ChineseName).None? && FirstTriggerFrom(text, 0, LetterCode).None?
      && (|| !StartsWith(text, Keyword)
          || ((forall k :: 0 <= k <= |text| ==> TailAt(text, k, ChineseName).None?)
              && (forall k :: 0 <= k <= |text| ==> TailAt(text, k, LetterCode).None?)))
  {
    AutoDetectAfterEveryForm(text);
    NoMultiLine(text);
    FindTailNoneIff(text, ChineseName);
    FindTailNoneIff(text, LetterCode);
  }
}

=== FILE: translation_service.dfy ===
/**
 * The translation service: a text message becomes a translation request,
 * the target language is resolved, the user's backend translates, and the
 * store gains a translation record and an updated profile. The preference
 * setters live here too.
 *
 * The profile store and the record log are plain values; the detector and the
 * vendors' answers come in through `Env`. A request may run the detector
 * twice on the same text, and the two answers need not agree.
 */
module Translation {
  import opened JavaString
  import opened UserProfiles
  import LanguageUtils
  import AiServices
  import Settings
  import TranslationCommand

  /** `TranslationRecord` without its timestamps and processing time. */
  datatype Record = Record(
    userId: string,
    sourceText: string,
    sourceLanguage: string,
    targetLanguage: string,
    translatedText: string,
    aiProvider: string,
    modelName: string,
    isImageTranslation: bool,
    imageUrl: Option<string>)

  /** The profile repository, keyed by user id. */
  type Profiles = map<string, Profile>

  /** Every stored profile is filed under its own id and is `Valid`. */
  predicate Sound(m: Profiles)
  {
    forall u :: u in m ==> m[u].userId == u && Valid(m[u])
  }

  /** `after` differs from `before` at most in the profile of `userId`, which it may have added. */
  predicate OnlyTouches(before: Profiles, after: Profiles, userId: string)
  {
    && after.Keys <= before.Keys + {userId}
    && forall u :: u in before && u != userId ==> u in after && after[u] == before[u]
  }

  /** Ensuring a profile and then replacing it touches that user alone. */
  lemma EnsureThenReplaceOnlyTouches(m: Profiles, userId: string, q: Profile)
    ensures OnlyTouches(m, Ensure(m, userId), userId)
    ensures OnlyTouches(m, Ensure(m, userId)[userId := q], userId)
  {
  }

  datatype State = State(profiles: Profiles, records: seq<Record>)

  /**
   * Everything the service consults but does not own: the application
   * settings, the factory's effective default provider and vendor
   * availability, the vendors' answers, and the language detector.
   * `detect(text, n)` is the detector's answer for the `n`-th detection
   * (counted from 0) that one request runs: the AI detector samples its
   * answer, so a second detection of the same text may say something else.
   */
  datatype Env = Env(
    config: Settings.AppConfig,
    defaultProvider: string,
    av: AiServices.Availability,
    clients: AiServices.Clients,
    detect: (string, nat) -> string)

  /** `ensureUserProfileExists`: the stored profile, or a fresh one that is stored. */
  function Ensure(m: Profiles, userId: string): (r: Profiles)
    ensures userId in r && r.Keys == m.Keys + {userId}
    ensures forall u :: u in m ==> r[u] == m[u]
    ensures userId !in m ==> r[userId] == NewProfile(userId)
    ensures Sound(m) ==> Sound(r)
  {
    if userId in m then m else m[userId := NewProfile(userId)]
  }

  /** Saving a profile under its own id keeps the store sound. */
  function Store(m: Profiles, userId: string, q: Profile): (r: Profiles)
    ensures userId in r && r[userId] == q && r.Keys == m.Keys + {userId}
    ensures forall u :: u in m && u != userId ==> r[u] == m[u]
    ensures Sound(m) && q.userId == userId && Valid(q) ==> Sound(r)
  {
    m[userId := q]
  }

  /** The ensured profile with its preferred language replaced. */
  function StoreLanguage(m: Profiles, userId: string, code: string): (r: Profiles)
    ensures r == Ensure(m, userId)[userId := Ensure(m, userId)[userId].(preferredLanguage := Some(code))]
    ensures Sound(m) ==> Sound(r)
  {
    var m1 := Ensure(m, userId);
    Store(m1, userId, m1[userId].(preferredLanguage := Some(code)))
  }

  /** The ensured profile with its Chinese target replaced. */
  function StoreChineseTarget(m: Profiles, userId: string, code: string): (r: Profiles)
    ensures r == Ensure(m, userId)[userId := Ensure(m, userId)[userId].(preferredChineseTargetLanguage := Some(code))]
    ensures Sound(m) ==> Sound(r)
  {
    var m1 := Ensure(m, userId);
    Store(m1, userId, m1[userId].(preferredChineseTargetLanguage := Some(code)))
  }

  // ---------------------------------------------------------------------------
  // Target resolution
  // ---------------------------------------------------------------------------

  predicate IsChineseCode(code: string)
  {
    StartsWith(code, "zh")
  }

  /** The target for Chinese text: the user's Chinese target when set, else the configured one. */
  function ChineseTarget(p: Profile, config: Settings.AppConfig): string
  {
    if IsPresent(p.preferredChineseTargetLanguage) then p.preferredChineseTargetLanguage.value
    else config.defaultTargetLanguageForChinese
  }

  /**
   * `getDefaultTargetLanguage` of the text path: Chinese sources use the
   * Chinese target; other sources use the preferred language, else the
   * configured default for other languages.
   */
  function DefaultTargetLanguage(source: string, p: Profile, config: Settings.AppConfig): (r: string)
    ensures IsChineseCode(source) ==> r == ChineseTarget(p, config)
    ensures !IsChineseCode(source) && IsPresent(p.preferredLanguage) ==> r == p.preferredLanguage.value
    ensures !IsChineseCode(source) && !IsPresent(p.preferredLanguage) ==> r == config.defaultTargetLanguageForOthers
  {
    if IsChineseCode(source) then ChineseTarget(p, config)
    else if IsPresent(p.preferredLanguage) then p.preferredLanguage.value
    else config.defaultTargetLanguageForOthers
  }

  /**
   * `handleDefaultTranslation`'s choice: the preferred language, unless the
   * source already is that language or both are Chinese, in which case the
   * default rule decides.
   */
  function AutoTarget(source: string, p: Profile, config: Settings.AppConfig): string
  {
    if IsPresent(p.preferredLanguage) then
      var preferred := p.preferredLanguage.value;
      if source == preferred || (IsChineseCode(source) && IsChineseCode(preferred)) then DefaultTargetLanguage(source, p, config)
      else preferred
    else DefaultTargetLanguage(source, p, config)
  }

  /**
   * The rule by source bucket. For a non-Chinese source the target is simply
   * the preference, if any: the "same language" guard sends such a source to
   * the default rule, which answers with the same preference. Only a Chinese
   * source and a Chinese preference together reach the Chinese target.
   */
  lemma AutoTargetByBucket(source: string, p: Profile, config: Settings.AppConfig)
    ensures !IsChineseCode(source) ==>
      (AutoTarget(source, p, config) == if IsPresent(p.preferredLanguage) then p.preferredLanguage.value else config.defaultTargetLanguageForOthers)
    ensures IsChineseCode(source) ==>
      (AutoTarget(source, p, config) == if IsPresent(p.preferredLanguage) && !IsChineseCode(p.preferredLanguage.value) then p.preferredLanguage.value else ChineseTarget(p, config))
  {
    if IsPresent(p.preferredLanguage) && IsChineseCode(source) && source == p.preferredLanguage.value {
      assert IsChineseCode(p.preferredLanguage.value);
    }
  }

  /** A non-Chinese source that already is the preferred language is translated into that same language. */
  lemma SameLanguageIsKept(source: string, p: Profile, config: Settings.AppConfig)
    requires !IsChineseCode(source) && p.preferredLanguage == Some(source) && source != []
    ensures AutoTarget(source, p, config) == source
  {
    AutoTargetByBucket(source, p, config);
  }

  // ---------------------------------------------------------------------------
  // Translating and bookkeeping
  // ---------------------------------------------------------------------------

  /** The service a profile's provider selects, through `getService(String)`. */
  function ServiceFor(p: Profile, env: Env): AiServices.Service
  {
    AiServices.GetService(p.preferredAiProvider, env.defaultProvider, env.av)
  }

  /**
   * The shared work of a translation: pick the user's service, translate,
   * append the record (with the given source-language label), update the
   * profile. Answers the translated text.
   */
  function Run(s: State, env: Env, userId: string, source: string, target: string, detected: string): (r: (State, string))
    requires userId in s.profiles
    ensures |r.0.records| == |s.records| + 1 && r.0.records[..|s.records|] == s.records
    ensures var rec := r.0.records[|s.records|];
      && rec.userId == userId && rec.sourceText == source && rec.sourceLanguage == detected
      && rec.targetLanguage == target && rec.translatedText == r.1 && !rec.isImageTranslation && rec.imageUrl.None?
      && rec.aiProvider == AiServices.ProviderName(ServiceFor(s.profiles[userId], env))
    ensures r.1 == AiServices.Translate(ServiceFor(s.profiles[userId], env), env.clients, source, target)
    ensures r.0.profiles.Keys == s.profiles.Keys
    ensures forall u :: u in s.profiles && u != userId ==> r.0.profiles[u] == s.profiles[u]
    ensures r.0.profiles[userId] == AfterTextTranslation(s.profiles[userId], r.1, target)
    ensures Sound(s.profiles) ==> Sound(r.0.profiles)
  {
    var p := s.profiles[userId];
    var service := ServiceFor(p, env);
    var translated := AiServices.Translate(service, env.clients, source, target);
    var rec := Record(userId, source, detected, target, translated,
                      AiServices.ProviderName(service), AiServices.ModelName(service, env.clients), false, None);
    (State(s.profiles[userId := AfterTextTranslation(p, translated, target)], s.records + [rec]), translated)
  }

  /** The line appended to every text translation: the detected and the target language, by Chinese name. */
  function LanguageTag(detected: string, target: string): string
  {
    "\n\n[偵測到: " + LanguageUtils.ToChineseName(Some(detected)) + " | 翻譯成: " + LanguageUtils.ToChineseName(Some(target)) + "]"
  }

  /**
   * `performTranslation`: the source's language is detected afresh (as the
   * request's detection number `call`), the user's service translates, the
   * record and the profile are updated, and the reply is the translation
   * tagged with the languages the record holds.
   */
  function PerformTranslation(s: State, env: Env, userId: string, source: string, target: string, call: nat): (r: (State, string))
    requires userId in s.profiles
    ensures |r.0.records| == |s.records| + 1 && r.0.records[..|s.records|] == s.records
    ensures var rec := r.0.records[|s.records|];
      && rec.userId == userId && rec.sourceText == source && rec.targetLanguage == target
      && rec.sourceLanguage == env.detect(source, call)
      && !rec.isImageTranslation && rec.imageUrl.None?
      && rec.translatedText == AiServices.Translate(ServiceFor(s.profiles[userId], env), env.clients, source, target)
      && rec.aiProvider == AiServices.ProviderName(ServiceFor(s.profiles[userId], env))
      && r.1 == rec.translatedText + LanguageTag(rec.sourceLanguage, rec.targetLanguage)
      && r.0.profiles == s.profiles[userId := AfterTextTranslation(s.profiles[userId], rec.translatedText, target)]
    ensures Sound(s.profiles) ==> Sound(r.0.profiles)
  {
    var detected := env.detect(source, call);
    var run := Run(s, env, userId, source, target, detected);
    (run.0, run.1 + LanguageTag(detected, target))
  }

  /**
   * `processTranslationRequest`: the profile is ensured first; an instruction
   * without text answers with its reminder and translates nothing; an
   * instruction with text uses its target; anything else is translated whole
   * into the automatically chosen target. An automatic target costs one
   * detection, and the tag comes from a second one.
   */
  function ProcessTranslationRequest(s: State, env: Env, userId: string, text: string): (r: (State, string))
    ensures userId in r.0.profiles && r.0.profiles.Keys == s.profiles.Keys + {userId}
    ensures forall u :: u in s.profiles && u != userId ==> r.0.profiles[u] == s.profiles[u]
    ensures Sound(s.profiles) ==> Sound(r.0.profiles)
    ensures TranslationCommand.ParseRequest(text).MissingText? ==>
      r == (State(Ensure(s.profiles, userId), s.records), TranslationCommand.ParseRequest(text).reply)
    ensures !TranslationCommand.ParseRequest(text).MissingText? ==>
      && |r.0.records| == |s.records| + 1 && r.0.records[..|s.records|] == s.records
      && var rec := r.0.records[|s.records|];
      && r.1 == rec.translatedText + LanguageTag(rec.sourceLanguage, rec.targetLanguage)
      && r.0.profiles[userId] == AfterTextTranslation(Ensure(s.profiles, userId)[userId], rec.translatedText, rec.targetLanguage)
    ensures TranslationCommand.ParseRequest(text).Explicit? ==>
      var req := TranslationCommand.ParseRequest(text);
      var rec := r.0.records[|s.records|];
      && rec.sourceText == req.source && rec.targetLanguage == req.target
      && rec.sourceLanguage == env.detect(req.source, 0)
    ensures TranslationCommand.ParseRequest(text).AutoDetect? ==>
      var rec := r.0.records[|s.records|];
      && rec.sourceText == text
      && rec.targetLanguage == AutoTarget(env.detect(text, 0), Ensure(s.profiles, userId)[userId], env.config)
      && rec.sourceLanguage == env.detect(text, 1)
  {
    var s1 := State(Ensure(s.profiles, userId), s.records);
    match TranslationCommand.ParseRequest(text)
    case MissingText(reply) => (s1, reply)
    case Explicit(source, target) => PerformTranslation(s1, env, userId, source, target, 0)
    case AutoDetect(whole) =>
      PerformTranslation(s1, env, userId, whole, AutoTarget(env.detect(whole, 0), s1.profiles[userId], env.config), 1)
  }

  /**
   * When the detector gives the same answer twice, the tag of an automatic
   * translation names the language the target was chosen for.
   */
  lemma SteadyDetectorTagsChosenSource(s: State, env: Env, userId: string, text: string)
    ensures var r := ProcessTranslationRequest(s, env, userId, text);
      TranslationCommand.ParseRequest(text).AutoDetect? && env.detect(text, 0) == env.detect(text, 1) ==>
        var rec := r.0.records[|s.records|];
        rec.targetLanguage == AutoTarget(rec.sourceLanguage, Ensure(s.profiles, userId)[userId], env.config)
  {
  }

  /** A message without the keyword "翻譯成" is translated whole, into the automatic target, and tagged. */
  lemma PlainMessageTranslatedWhole(s: State, env: Env, userId: string, text: string)
    requires !Contains(text, TranslationCommand.Keyword)
    ensures |ProcessTranslationRequest(s, env, userId, text).0.records| == |s.records| + 1
    ensures var r := ProcessTranslationRequest(s, env, userId, text);
      var p := Ensure(s.profiles, userId)[userId];
      var target := AutoTarget(env.detect(text, 0), p, env.config);
      && r.0.records == s.records + [r.0.records[|s.records|]]
      && r.0.records[|s.records|].sourceText == text
      && r.0.records[|s.records|].targetLanguage == target
      && r.1 == r.0.records[|s.records|].translatedText + LanguageTag(env.detect(text, 1), target)
      && r.0.profiles[userId].textTranslations == Inc32(p.textTranslations)
  {
    TranslationCommand.NoKeywordMeansAutoDetect(text);
    var r := ProcessTranslationRequest(s, env, userId, text);
    assert r.0.records == r.0.records[..|s.records|] + [r.0.records[|s.records|]];
  }

  /** `quickTranslate`: an unsupported code changes nothing; otherwise the normalised code is the target and the bare translation is the reply. */
  function QuickTranslate(s: State, env: Env, userId: string, text: string, code: string): (r: (State, string))
    ensures !LanguageUtils.IsSupported(Some(code)) ==> r == (s, "不支持的語言代碼：" + code)
    ensures LanguageUtils.IsSupported(Some(code)) ==>
      && |r.0.records| == |s.records| + 1 && r.0.records[..|s.records|] == s.records
      && r.0.records[|s.records|].targetLanguage == LanguageUtils.ToLanguageCode(Some(code))
      && r.0.records[|s.records|].sourceLanguage == env.detect(text, 0)
      && r.1 == r.0.records[|s.records|].translatedText
    ensures Sound(s.profiles) ==> Sound(r.0.profiles)
    ensures OnlyTouches(s.profiles, r.0.profiles, userId)
  {
    if !LanguageUtils.IsSupported(Some(code)) then (s, "不支持的語言代碼：" + code)
    else
      var s1 := State(Ensure(s.profiles, userId), s.records);
      Run(s1, env, userId, text, LanguageUtils.ToLanguageCode(Some(code)), env.detect(text, 0))
  }

  /**
   * A quick translation is the full translation into the normalised code
   * without its tag: same record, same profile update, the reply shorter by
   * exactly the language tag.
   */
  lemma QuickTranslationIsUntagged(s: State, env: Env, userId: string, text: string, code: string)
    requires LanguageUtils.IsSupported(Some(code))
    ensures var target := LanguageUtils.ToLanguageCode(Some(code));
      var quick := QuickTranslate(s, env, userId, text, code);
      var full := PerformTranslation(State(Ensure(s.profiles, userId), s.records), env, userId, text, target, 0);
      quick.0 == full.0 && full.1 == quick.1 + LanguageTag(env.detect(text, 0), target)
  {
  }

  /** A quick translation always targets a language the registry knows; the code typed is never passed through raw. */
  lemma QuickTargetIsRegistered(s: State, env: Env, userId: string, text: string, code: string)
    requires LanguageUtils.IsSupported(Some(code))
    ensures var target := QuickTranslate(s, env, userId, text, code).0.records[|s.records|].targetLanguage;
      LanguageUtils.IsTableValue(target) && LanguageUtils.ToLanguageCode(Some(target)) == target
  {
    LanguageUtils.SupportedInputsResolveThroughTables(Some(code));
    LanguageUtils.TableValuesAreFixedPoints(LanguageUtils.ToLanguageCode(Some(code)));
  }

  // ---------------------------------------------------------------------------
  // Preferences
  // ---------------------------------------------------------------------------

  /** `setPreferredProvider`: only the exact names are accepted, and a rejection touches no profile. */
  function SetPreferredProvider(m: Profiles, userId: string, provider: string): (r: (Profiles, string))
    ensures provider != "openai" && provider != "gemini" ==> r == (m, "不支持的 AI 提供者。請選擇 'openai' 或 'gemini'。")
    ensures provider == "openai" || provider == "gemini" ==>
      && r.0 == Ensure(m, userId)[userId := Ensure(m, userId)[userId].(preferredAiProvider := Some(provider))]
      && r.1 == "已將您的偏好 AI 設置為 " + provider
    ensures Sound(m) ==> Sound(r.0)
  {
    if provider != "openai" && provider != "gemini" then (m, "不支持的 AI 提供者。請選擇 'openai' 或 'gemini'。")
    else
      var m1 := Ensure(m, userId);
      var q := m1[userId].(preferredAiProvider := Some(provider));
      assert Sound(m) ==> q.userId == userId && Valid(q) by {
        if Sound(m) {
          assert m1[userId].userId == userId && Valid(m1[userId]);
        }
      }
      (Store(m1, userId, q), "已將您的偏好 AI 設置為 " + provider)
  }

  /** An accepted provider choice is what later requests are served by, whenever that vendor exists. */
  lemma ChosenProviderServes(m: Profiles, userId: string, v: AiServices.Vendor, env: Env)
    requires AiServices.Has(env.av, v)
    ensures var p := SetPreferredProvider(m, userId, AiServices.ProviderId(v)).0[userId];
      ServiceFor(p, env) == AiServices.Base(v)
  {
    AiServices.CaseInsensitiveRequest(AiServices.ProviderId(v), env.defaultProvider, env.av, v);
  }

  const UnsupportedLanguageHint := "。請使用支援的語言代碼（如 en、ja、ko）或語言名稱（如 英文、日文、韓文）。"

  /**
   * `setPreferredLanguage`: the input is normalised first and the normalised
   * code must itself be supported; a rejection touches no profile.
   */
  function SetPreferredLanguage(m: Profiles, userId: string, language: string): (r: (Profiles, string))
    ensures var code := LanguageUtils.ToLanguageCode(Some(language));
      !LanguageUtils.IsSupported(Some(code)) ==> r == (m, "不支持的語言：" + language + UnsupportedLanguageHint)
    ensures var code := LanguageUtils.ToLanguageCode(Some(language));
      LanguageUtils.IsSupported(Some(code)) ==>
        && r.0 == Ensure(m, userId)[userId := Ensure(m, userId)[userId].(preferredLanguage := Some(code))]
        && r.1 == "已將您的偏好語言設置為 " + LanguageUtils.ToChineseName(Some(code)) + " (" + code + ")"
    ensures Sound(m) ==> Sound(r.0)
  {
    var code := LanguageUtils.ToLanguageCode(Some(language));
    if !LanguageUtils.IsSupported(Some(code)) then (m, "不支持的語言：" + language + UnsupportedLanguageHint)
    else
      (StoreLanguage(m, userId, code),
       "已將您的偏好語言設置為 " + LanguageUtils.ToChineseName(Some(code)) + " (" + code + ")")
  }

  /** Whatever is accepted, neither script-qualified Chinese code is ever stored as the preferred language. */
  lemma ScriptChineseNeverPreferred(language: string)
    ensures var code := LanguageUtils.ToLanguageCode(Some(language));
      LanguageUtils.IsSupported(Some(code)) ==> code != "zh-TW" && code != "zh-CN"
  {
    var code := LanguageUtils.ToLanguageCode(Some(language));
    if code == "zh-TW" || code == "zh-CN" {
      LanguageUtils.CapitalisedCodesPassThrough(code);
    }
  }

  /** "Tw" is a supported input, yet the preference it would set is refused. */
  lemma TaiwanNicknameRefused(m: Profiles, userId: string, tw: string)
    requires tw == "Tw"
    ensures LanguageUtils.IsSupported(Some(tw))
    ensures SetPreferredLanguage(m, userId, tw) == (m, "不支持的語言：" + tw + UnsupportedLanguageHint)
  {
    LanguageUtils.MixedCaseNicknameExample(tw);
    LanguageUtils.CapitalisedCodesPassThrough("zh-TW");
  }

  /** Setting the preference again to the code it was stored as is accepted and changes nothing. */
  lemma SetPreferredLanguageAgain(m: Profiles, userId: string, language: string)
    ensures var once := SetPreferredLanguage(m, userId, language).0;
      LanguageUtils.IsSupported(Some(LanguageUtils.ToLanguageCode(Some(language)))) ==>
        SetPreferredLanguage(once, userId, once[userId].preferredLanguage.value).0 == once
  {
    var code := LanguageUtils.ToLanguageCode(Some(language));
    if LanguageUtils.IsSupported(Some(code)) {
      LanguageUtils.ToLanguageCodeIdempotent(Some(language));
      StoreLanguageAgain(m, userId, code);
    }
  }

  /** Storing the same preferred language a second time changes nothing. */
  lemma StoreLanguageAgain(m: Profiles, userId: string, code: string)
    ensures var once := StoreLanguage(m, userId, code);
      && userId in once && once[userId].preferredLanguage == Some(code)
      && StoreLanguage(once, userId, code) == once
  {
    var once := StoreLanguage(m, userId, code);
    assert Ensure(once, userId) == once;
  }

  /** `getPreferredProvider`: the stored name, or "openai" when none is stored. */
  function GetPreferredProvider(m: Profiles, userId: string): (r: (Profiles, string))
    ensures r.0 == Ensure(m, userId)
    ensures IsPresent(Ensure(m, userId)[userId].preferredAiProvider) ==> r.1 == Ensure(m, userId)[userId].preferredAiProvider.value
    ensures !IsPresent(Ensure(m, userId)[userId].preferredAiProvider) ==> r.1 == "openai"
  {
    var m1 := Ensure(m, userId);
    var provider := m1[userId].preferredAiProvider;
    (m1, if IsPresent(provider) then provider.value else "openai")
  }

  /** `getRecentLanguagesList`: the recent languages, most recent first, each once, at most five. */
  function GetRecentLanguages(m: Profiles, userId: string): (r: (Profiles, seq<string>))
    ensures r.0 == Ensure(m, userId)
    ensures userId in r.0 && r.1 == r.0[userId].recentLanguages
    ensures userId !in m ==> r.1 == []
    ensures Sound(m) ==> Distinct(r.1) && |r.1| <= RecentLimit
  {
    var m1 := Ensure(m, userId);
    (m1, m1[userId].recentLanguages)
  }

  /** The target of a text translation is what the recent-languages query then lists first. */
  lemma TranslatedTargetListedFirst(s: State, env: Env, userId: string, text: string)
    ensures var r := ProcessTranslationRequest(s, env, userId, text);
      var target := if |r.0.records| > |s.records| then r.0.records[|s.records|].targetLanguage else [];
      !TranslationCommand.ParseRequest(text).MissingText? && Trim(target) != [] ==>
        var recent := GetRecentLanguages(r.0.profiles, userId).1;
        recent != [] && recent[0] == target
  {
  }

  /**
   * `setPreferredChineseTargetLanguage`: unlike the other setters it ensures
   * the profile before validating, so a rejected request still creates one.
   * The reply says whether an earlier choice was replaced.
   */
  function SetPreferredChineseTargetLanguage(m: Profiles, userId: string, target: string): (r: (Profiles, string))
    ensures var code := LanguageUtils.ToLanguageCode(Some(target));
      !LanguageUtils.IsSupported(Some(code)) ==> r == (Ensure(m, userId), "不支援的語言: " + target + UnsupportedLanguageHint)
    ensures var code := LanguageUtils.ToLanguageCode(Some(target));
      LanguageUtils.IsSupported(Some(code)) ==>
        r.0 == Ensure(m, userId)[userId := Ensure(m, userId)[userId].(preferredChineseTargetLanguage := Some(code))]
    ensures var previous := Ensure(m, userId)[userId].preferredChineseTargetLanguage;
      var code := LanguageUtils.ToLanguageCode(Some(target));
      LanguageUtils.IsSupported(Some(code)) && IsPresent(previous) && previous.value != code ==>
        r.1 == "已將中文翻譯的預設目標語言從 " + LanguageUtils.ToChineseName(previous) + " 更改為 " + LanguageUtils.ToChineseName(Some(code))
    ensures var previous := Ensure(m, userId)[userId].preferredChineseTargetLanguage;
      var code := LanguageUtils.ToLanguageCode(Some(target));
      LanguageUtils.IsSupported(Some(code)) && (!IsPresent(previous) || previous.value == code) ==>
        r.1 == "已設置中文翻譯的預設目標語言為 " + LanguageUtils.ToChineseName(Some(code))
    ensures Sound(m) ==> Sound(r.0)
  {
    var m1 := Ensure(m, userId);
    var code := LanguageUtils.ToLanguageCode(Some(target));
    if !LanguageUtils.IsSupported(Some(code)) then (m1, "不支援的語言: " + target + UnsupportedLanguageHint)
    else
      var previous := m1[userId].preferredChineseTargetLanguage;
      var name := LanguageUtils.ToChineseName(Some(code));
      var reply :=
        if IsPresent(previous) && previous.value != code then
          "已將中文翻譯的預設目標語言從 " + LanguageUtils.ToChineseName(previous) + " 更改為 " + name
        else "已設置中文翻譯的預設目標語言為 " + name;
      (StoreChineseTarget(m, userId, code), reply)
  }

  /** An accepted Chinese target is where Chinese text goes, unless a non-Chinese preference takes over. */
  lemma ChineseTargetTakesEffect(m: Profiles, userId: string, target: string, source: string, config: Settings.AppConfig)
    requires IsChineseCode(source)
    ensures var p := SetPreferredChineseTargetLanguage(m, userId, target).0[userId];
      && LanguageUtils.IsSupported(Some(LanguageUtils.ToLanguageCode(Some(target))))
      && (!IsPresent(p.preferredLanguage) || IsChineseCode(p.preferredLanguage.value)) ==>
        AutoTarget(source, p, config) == LanguageUtils.ToLanguageCode(Some(target))
  {
    var p := SetPreferredChineseTargetLanguage(m, userId, target).0[userId];
    AutoTargetByBucket(source, p, config);
    LanguageUtils.UnknownIsUnsupported();
  }

  /** Even a rejected Chinese-target request leaves a profile behind for a new user. */
  lemma RejectedChineseTargetCreatesProfile(m: Profiles, userId: string, target: string)
    requires userId !in m
    requires !LanguageUtils.IsSupported(Some(LanguageUtils.ToLanguageCode(Some(target))))
    ensures SetPreferredChineseTargetLanguage(m, userId, target).0 == m[userId := NewProfile(userId)]
  {
  }

  // ---------------------------------------------------------------------------
  // setPreferredModel
  // ---------------------------------------------------------------------------

  /**
   * The vendor a model name is taken to belong to: OpenAI when its lower-case
   * form contains "gpt" or starts with "o", else Gemini when it contains
   * "gemini", else none.
   */
  function ModelVendor(model: string): (r: Option<AiServices.Vendor>)
    ensures r == Some(AiServices.OpenAi) <==> Contains(ToLower(model), "gpt") || StartsWith(ToLower(model), "o")
    ensures r == Some(AiServices.Gemini) <==> !(Contains(ToLower(model), "gpt") || StartsWith(ToLower(model), "o")) && Contains(ToLower(model), "gemini")
  {
    var lower := ToLower(model);
    if Contains(lower, "gpt") || StartsWith(lower, "o") then Some(AiServices.OpenAi)
    else if Contains(lower, "gemini") then Some(AiServices.Gemini)
    else None
  }

  /** What a call answered: a reply, or the failure of dereferencing a null provider. */
  datatype Answer = Says(text: string) | NullDereference

  /** The profile field a model goes into, and its previous value. */
  function PreferredModelOf(p: Profile, v: AiServices.Vendor): Option<string>
  {
    match v
    case OpenAi => p.openaiPreferredModel
    case Gemini => p.geminiPreferredModel
  }

  function WithPreferredModel(p: Profile, v: AiServices.Vendor, model: string): (q: Profile)
    ensures PreferredModelOf(q, v) == Some(model)
    ensures q.preferredAiProvider == p.preferredAiProvider && q.preferredLanguage == p.preferredLanguage
    ensures q.userId == p.userId && Valid(p) ==> Valid(q)
  {
    match v
    case OpenAi => p.(openaiPreferredModel := Some(model))
    case Gemini => p.(geminiPreferredModel := Some(model))
  }

  /**
   * The vendor whose field receives a model: its own vendor when recognised,
   * else OpenAI when the current provider is exactly "openai", else Gemini.
   */
  function ModelSlot(p: Profile, model: string): (v: AiServices.Vendor)
    ensures ModelVendor(model).Some? ==> v == ModelVendor(model).value
    ensures ModelVendor(model).None? ==> (v == AiServices.OpenAi <==> p.preferredAiProvider == Some("openai"))
  {
    match ModelVendor(model)
    case Some(v) => v
    case None => if p.preferredAiProvider == Some("openai") then AiServices.OpenAi else AiServices.Gemini
  }

  /** The line added to a model reply when the provider changed too. */
  function ProviderNotice(before: Option<string>, after: string): (r: string)
    ensures r == [] <==> before == Some(after)
  {
    if before != Some(after) then "\n同時已將 AI 提供者設置為 " + after else ""
  }

  /**
   * `setPreferredModel`. A recognised model also switches the provider to its
   * vendor; an unrecognised one goes to the OpenAI field when the current
   * provider is exactly "openai", else to the Gemini field. With no provider
   * stored and an unrecognised model, comparing the unchanged null provider
   * throws before anything but the ensured profile is saved.
   */
  function SetPreferredModel(m: Profiles, userId: string, model: string): (r: (Profiles, Answer))
    ensures var p := Ensure(m, userId)[userId];
      r.1.NullDereference? <==> ModelVendor(model).None? && p.preferredAiProvider.None?
    ensures r.1.NullDereference? ==> r.0 == Ensure(m, userId)
    ensures var p := Ensure(m, userId)[userId];
      ModelVendor(model).Some? ==>
        && userId in r.0
        && r.0[userId].preferredAiProvider == Some(AiServices.ProviderId(ModelVendor(model).value))
        && PreferredModelOf(r.0[userId], ModelVendor(model).value) == Some(model)
    ensures var p := Ensure(m, userId)[userId];
      ModelVendor(model).None? && p.preferredAiProvider.Some? ==>
        && userId in r.0
        && r.0[userId].preferredAiProvider == p.preferredAiProvider
        && PreferredModelOf(r.0[userId], if p.preferredAiProvider == Some("openai") then AiServices.OpenAi else AiServices.Gemini) == Some(model)
    ensures var p := Ensure(m, userId)[userId];
      r.1.Says? ==>
        && userId in r.0 && r.0[userId].preferredAiProvider.Some?
        && r.0[userId] == WithPreferredModel(p, ModelSlot(p, model), model).(preferredAiProvider := r.0[userId].preferredAiProvider)
    ensures var p := Ensure(m, userId)[userId];
      var previous := PreferredModelOf(p, ModelSlot(p, model));
      r.1.Says? && userId in r.0 && r.0[userId].preferredAiProvider.Some? ==>
        var provider := r.0[userId].preferredAiProvider.value;
        var notice := ProviderNotice(p.preferredAiProvider, provider);
        && (IsPresent(previous) && previous.value == model ==> r.1.text == "已設置 AI 模型為 " + model + notice)
        && (IsPresent(previous) && previous.value != model ==>
              r.1.text == "已將 " + provider + " 模型從 " + previous.value + " 更改為 " + model + notice)
        && (!IsPresent(previous) ==> r.1.text == "已設置 " + provider + " 模型為 " + model + notice)
    ensures Sound(m) ==> Sound(r.0)
    ensures OnlyTouches(m, r.0, userId)
  {
    var m1 := Ensure(m, userId);
    var p := m1[userId];
    var current := p.preferredAiProvider;
    var vendor := ModelSlot(p, model);
    var newProvider := if ModelVendor(model).Some? then Some(AiServices.ProviderId(vendor)) else current;
    if newProvider.None? then (m1, NullDereference)
    else
      var previous := PreferredModelOf(p, vendor);
      var q := WithPreferredModel(p, vendor, model).(preferredAiProvider := newProvider);
      assert Sound(m) ==> q.userId == userId && Valid(q) by {
        if Sound(m) {
          assert p.userId == userId && Valid(p);
          assert Valid(WithPreferredModel(p, vendor, model));
        }
      }
      var head :=
        if IsPresent(previous) && previous.value == model then "已設置 AI 模型為 " + model
        else if IsPresent(previous) then "已將 " + newProvider.value + " 模型從 " + previous.value + " 更改為 " + model
        else "已設置 " + newProvider.value + " 模型為 " + model;
      (Store(m1, userId, q), Says(head + ProviderNotice(current, newProvider.value)))
  }

  /** A model name starting with "o" counts as OpenAI even when it names Gemini. */
  lemma LeadingOMeansOpenAi(model: string)
    requires model != [] && (model[0] == 'o' || model[0] == 'O')
    ensures ModelVendor(model) == Some(AiServices.OpenAi)
  {
    assert ToLower(model)[0] == 'o';
  }

  /**
   * A model chosen for the provider in use is reported by the per-user
   * service exactly when the configuration lists it.
   */
  lemma ChosenModelReportedIfListed(m: Profiles, userId: string, model: string, env: Env,
                                    openAiConfig: Settings.ProviderConfig, geminiConfig: Settings.ProviderConfig)
    requires ModelVendor(model) == Some(AiServices.Gemini) && env.av.gemini
    requires model != [] && model != geminiConfig.modelName
    ensures var r := SetPreferredModel(m, userId, model);
      var s := AiServices.GetServiceForProfile(r.0[userId], env.defaultProvider, env.av, openAiConfig, geminiConfig);
      (AiServices.ModelName(s, env.clients) == model <==> model in geminiConfig.availableModels)
  {
  }
}

=== FILE: user_profile.dfy ===
/**
 * A user's stored profile: preferences, the five most recent translations and
 * target languages, and usage counters.
 *
 * The profile's `recentLanguages` is a `LinkedHashSet` in the original, an
 * insertion-ordered set; here it is a sequence kept free of duplicates, with
 * the most recent language first.
 */
module UserProfiles {
  import opened JavaString

  /** How many recent languages and recent translations a profile keeps. */
  const RecentLimit: nat := 5

  datatype Profile = Profile(
    userId: string,
    displayName: Option<string>,
    preferredLanguage: Option<string>,
    preferredAiProvider: Option<string>,
    preferredChineseTargetLanguage: Option<string>,
    openaiPreferredModel: Option<string>,
    geminiPreferredModel: Option<string>,
    recentTranslations: seq<string>,
    recentLanguages: seq<string>,
    totalTranslations: Int32,
    textTranslations: Int32,
    imageTranslations: Int32)

  predicate Distinct(s: seq<string>)
  {
    forall i, j :: 0 <= i < j < |s| ==> s[i] != s[j]
  }

  /** Java `int` counters agree when they agree modulo 2^32. */
  predicate SameInt(a: int, b: int)
  {
    (a - b) % 0x1_0000_0000 == 0
  }

  /**
   * What every profile the bot creates and updates satisfies: the recent
   * lists are within their limit, languages appear once, and the total counter
   * is the sum of the text and image counters (as Java `int` arithmetic).
   */
  predicate Valid(p: Profile)
  {
    && Distinct(p.recentLanguages)
    && |p.recentLanguages| <= RecentLimit
    && |p.recentTranslations| <= RecentLimit
    && SameInt(p.totalTranslations, p.textTranslations + p.imageTranslations)
  }

  /** Every field a translation leaves alone: identity and preferences. */
  predicate SameSettings(p: Profile, q: Profile)
  {
    && q.userId == p.userId
    && q.displayName == p.displayName
    && q.preferredLanguage == p.preferredLanguage
    && q.preferredAiProvider == p.preferredAiProvider
    && q.preferredChineseTargetLanguage == p.preferredChineseTargetLanguage
    && q.openaiPreferredModel == p.openaiPreferredModel
    && q.geminiPreferredModel == p.geminiPreferredModel
  }

  /** The builder with its defaults: only the user id is set. */
  function NewProfile(userId: string): (p: Profile)
    ensures p.userId == userId && Valid(p)
    ensures p.totalTranslations == 0 && p.textTranslations == 0 && p.imageTranslations == 0
    ensures p.recentTranslations == [] && p.recentLanguages == []
    ensures p.displayName.None? && p.preferredLanguage.None? && p.preferredAiProvider.None?
    ensures p.preferredChineseTargetLanguage.None? && p.openaiPreferredModel.None? && p.geminiPreferredModel.None?
  {
    Profile(userId, None, None, None, None, None, None, [], [], 0, 0, 0)
  }

  // ---------------------------------------------------------------------------
  // Recent languages
  // ---------------------------------------------------------------------------

  /** `set.remove(x)` on the ordered set: every other element keeps its place. */
  function Remove(s: seq<string>, x: string): (r: seq<string>)
    ensures x !in r
    ensures forall y :: y != x ==> (y in r <==> y in s)
    ensures x !in s ==> r == s
    ensures |r| <= |s|
    ensures Distinct(s) ==> Distinct(r)
    ensures Distinct(s) && x in s ==> |r| == |s| - 1
  {
    if s == [] then []
    else if s[0] == x then Remove(s[1..], x)
    else
      assert Distinct(s) ==> Distinct(s[1..]) && s[0] !in s[1..];
      [s[0]] + Remove(s[1..], x)
  }

  /** Removal distributes over concatenation, so it keeps the relative order of what remains. */
  lemma {:induction false} RemoveConcat(a: seq<string>, b: seq<string>, x: string)
    ensures Remove(a + b, x) == Remove(a, x) + Remove(b, x)
  {
    if a != [] {
      assert (a + b)[1..] == a[1..] + b;
      RemoveConcat(a[1..], b, x);
    } else {
      assert a + b == b;
    }
  }

  /**
   * `addRecentLanguage`: a null or blank code changes nothing; otherwise the
   * code moves to the front (it is never repeated) and the set is cut to five.
   */
  function AddRecentLanguage(recent: seq<string>, language: Option<string>): (r: seq<string>)
    ensures IsNullOrTrimEmpty(language) ==> r == recent
    ensures !IsNullOrTrimEmpty(language) ==> r != [] && r[0] == language.value && |r| <= RecentLimit
    ensures !IsNullOrTrimEmpty(language) ==> r[1..] <= Remove(recent, language.value)
    ensures Distinct(recent) ==> Distinct(r)
  {
    if IsNullOrTrimEmpty(language) then recent
    else
      var front := [language.value] + Remove(recent, language.value);
      if |front| > RecentLimit then front[..RecentLimit] else front
  }

  /** With room to spare, or when the code is already present, no language is lost. */
  lemma AddRecentKeepsAllWhenRoom(recent: seq<string>, language: string)
    requires Distinct(recent) && |recent| <= RecentLimit
    requires Trim(language) != []
    requires |recent| < RecentLimit || language in recent
    ensures forall y :: y in AddRecentLanguage(recent, Some(language)) <==> y == language || y in recent
  {
    var r := AddRecentLanguage(recent, Some(language));
    var rest := Remove(recent, language);
    assert |rest| < RecentLimit;
    assert r == [language] + rest;
  }

  /** A new code arriving at a full set evicts the oldest entry. */
  lemma AddRecentEvictsOldest(recent: seq<string>, language: string)
    requires Distinct(recent) && |recent| == RecentLimit
    requires Trim(language) != [] && language !in recent
    ensures AddRecentLanguage(recent, Some(language)) == [language] + recent[..RecentLimit - 1]
  {
  }

  /** Using the most recent language again changes nothing. */
  lemma AddRecentAlreadyFirst(recent: seq<string>, language: string)
    requires Distinct(recent) && |recent| <= RecentLimit
    requires Trim(language) != [] && recent != [] && recent[0] == language
    ensures AddRecentLanguage(recent, Some(language)) == recent
  {
    assert recent == [recent[0]] + recent[1..];
    RemoveConcat([recent[0]], recent[1..], language);
  }

  /** Adding the same code twice is the same as adding it once. */
  lemma AddRecentIdempotent(recent: seq<string>, language: string)
    requires Trim(language) != []
    ensures AddRecentLanguage(AddRecentLanguage(recent, Some(language)), Some(language))
            == AddRecentLanguage(recent, Some(language))
  {
    var r := AddRecentLanguage(recent, Some(language));
    assert r == [r[0]] + r[1..];
    assert language !in r[1..];
    RemoveConcat([r[0]], r[1..], language);
  }

  // ---------------------------------------------------------------------------
  // Counters and recent translations
  // ---------------------------------------------------------------------------

  /**
   * The recent-translations update: insert at the front, then, if the list
   * grew past five, drop the element at index five (only that one).
   */
  function RecordTranslation(recent: seq<string>, translated: string): (r: seq<string>)
    ensures r != [] && r[0] == translated
    ensures |recent| <= RecentLimit ==> r == [translated] + recent[..if |recent| < RecentLimit then |recent| else RecentLimit - 1]
  {
    var grown := [translated] + recent;
    if |grown| > RecentLimit then grown[..RecentLimit] + grown[RecentLimit + 1..] else grown
  }

  /** A list that was already over the limit is never brought back under it. */
  lemma RecordTranslationKeepsOversize(recent: seq<string>, translated: string)
    requires |recent| > RecentLimit
    ensures |RecordTranslation(recent, translated)| == |recent|
  {
  }

  /** `updateUserProfileAfterTranslation`: both counters rise, the translation and its target are remembered. */
  function AfterTextTranslation(p: Profile, translated: string, target: string): (q: Profile)
    ensures SameSettings(p, q)
    ensures q.totalTranslations == Inc32(p.totalTranslations) && q.textTranslations == Inc32(p.textTranslations)
    ensures q.imageTranslations == p.imageTranslations
    ensures q.recentTranslations == RecordTranslation(p.recentTranslations, translated)
    ensures q.recentLanguages == AddRecentLanguage(p.recentLanguages, Some(target))
    ensures q.recentTranslations != [] && q.recentTranslations[0] == translated
    ensures Trim(target) != [] ==> q.recentLanguages != [] && q.recentLanguages[0] == target
    ensures Trim(target) == [] ==> q.recentLanguages == p.recentLanguages
    ensures Valid(p) ==> Valid(q)
  {
    p.(totalTranslations := Inc32(p.totalTranslations),
       textTranslations := Inc32(p.textTranslations),
       recentTranslations := RecordTranslation(p.recentTranslations, translated),
       recentLanguages := AddRecentLanguage(p.recentLanguages, Some(target)))
  }

  /** `updateUserProfileAfterImageTranslation`: the total and image counters rise, nothing else changes. */
  function AfterImageTranslation(p: Profile): (q: Profile)
    ensures SameSettings(p, q)
    ensures q.totalTranslations == Inc32(p.totalTranslations) && q.imageTranslations == Inc32(p.imageTranslations)
    ensures q.textTranslations == p.textTranslations
    ensures q.recentTranslations == p.recentTranslations && q.recentLanguages == p.recentLanguages
    ensures Valid(p) ==> Valid(q)
  {
    p.(totalTranslations := Inc32(p.totalTranslations),
       imageTranslations := Inc32(p.imageTranslations))
  }

  /**
   * The two kinds of update touch disjoint parts of a profile apart from the
   * total, so their order does not matter.
   */
  lemma TextAndImageUpdatesCommute(p: Profile, translated: string, target: string)
    ensures AfterImageTranslation(AfterTextTranslation(p, translated, target))
            == AfterTextTranslation(AfterImageTranslation(p), translated, target)
  {
  }
}
